=== FILE: README.md ===
# Sreys GFX Framework: a Dafny model of the scene editor's core

This project models the logic underneath a small OpenGL scene editor. The
editor holds a map of named shapes ("cubes", drawn with the sphere mesh),
each with a shading kind (GLOWY, PHONG, PBR, LIGHT), a transform, a Phong
material, a PBR material and an optional texture. Each frame the renderer
draws them forward or through a G-buffer (deferred shading), outlines the
selected shape with the stencil buffer, draws a skybox, then tone-maps and
filters the image onto the window. An ImGui panel selects, adds and edits
shapes and switches the renderer's modes; a music player feeds the current
audio sample into the shaders.

GL calls become abstract commands, and the GL context becomes a small state
record (bound framebuffer, vertex array, depth test and function, stencil
function and masks, clear colour). Each draw is then checked against the
state it runs under. Shader programs become closed enums. A program's
uniforms become a write list, read back with "last write wins" (`Latest`).
The renderer's `unordered_map` is a sequence of distinct-keyed entries.
Properties about it are stated through `Lookup`, `Names`, multiset counts
and the entry-sequence order, because the map's iteration order is
unspecified.

Modules, each following one source file or concern:

- `Common`: `Option`/`Result` (with the faults `NullDereference` and
  `MissingReturn`), `Vec3`, `std::to_string` for naturals, and the names
  `while (input) { getline(...) }` hands to its body.
- `Resources` (ResourceManager.h): texture, texture-pack and cubemap
  registries, and the pack-list constructor.
- `Audio` (AudioPlayer.h): the track map, song selection, play and pause.
- `Scene` (Cube.h, Renderer.cpp `AddCube`/`SetTextureForCube`): the shape
  datatype, its defaults, and the scene store.
- `Shapes` (Shape.h): the second shape class and its defaults.
- `Targets` (Renderer.cpp framebuffer setup): attachment layouts.
- `Dispatch` (Renderer.cpp:463-555): shader choice, uniforms, the light
  list, and the audio offsets.
- `Frame` (Renderer.cpp:123-301): `Renderer::Draw` as a command sequence, its
  state semantics, per-shape draw counts and pass order.
- `Editor` (Editor.h): the state-changing rules of `Editor::Update`.
- `SphereMesh` (SphereMesh.h): triangle-strip index generation and the
  interleaved vertex layout.
- `MeshTables` (CubeMesh.h, Renderer.h): the cube, screen-quad and skybox
  vertex tables.
- `ModelLoader` (Model.cpp): Assimp scene traversal, mesh building and the
  texture cache. The walk takes the mesh builder as a parameter: `AsWritten`
  is the source's `processMesh` (see Findings), `Corrected` the one whose
  vertex loop closes after the vertex `push_back`, so that the face and
  texture code and the `return` run once, after every vertex.

The environment is a parameter throughout:
- which files can be opened (`openable`);
- which music files the sound engine can play (`playable`);
- the track and pack list files' lines (`Option<seq<string>>`, `None` when
  the file does not open);
- the camera, window size, time and audio sample of a frame (`FrameInput`);
- the sphere's surface function (`surface`);
- the scene Assimp imports (`AiScene`).

Reals stand in for floats. The audio sample is a 16-bit `short`, and the two
divisions by 70000 and 100000 are exact.

## Model

| member | source | states |
|---|---|---|
| Common.NatToString | Renderer.cpp:467-468 | `std::to_string` of a natural: at least one decimal digit, a single digit exactly below 10, and the last digit is the value mod 10 |
| Common.NatToStringInjective | Editor.h:82 | distinct counters render as distinct strings, so names built from them are distinct |
| Common.ListedNames | ResourceManager.h:35-48 | a list file that did not open gives no names; one that opened gives every line in order and then one extra empty name, the read after end of file |
| Resources.GetTexture | ResourceManager.h:87-94 | returns the stored texture exactly when the name is a key, null otherwise, and inserts nothing |
| Resources.GetTexturePack | ResourceManager.h:78-85 | returns the stored pack exactly when the name is a key, null otherwise |
| Resources.GetCubeMap | ResourceManager.h:96-103 | returns the stored cubemap exactly when the name is a key, null otherwise |
| Resources.LookupAfterStore | ResourceManager.h:58-59 | after storing under a name, the lookup of that name gives the stored texture and other names are unaffected |
| Resources.AddTexture | ResourceManager.h:51-61 | an unopenable path returns null and changes nothing; otherwise the texture for that path and type is stored under the name (overwriting) and returned; packs and cubemaps are untouched |
| Resources.AddSlots | ResourceManager.h:64-69 | the `AddTexture` calls of the remaining slots give one result per slot; each slot whose file opens leaves its texture under the name plus its slot suffix, a slot whose file does not open leaves that entry as it was, and every other texture entry, pack and cubemap is unchanged |
| Resources.AddTexturePack | ResourceManager.h:63-72 | the pack holds the five slot results in order (null where the file does not open) and is stored under the name even with null slots; the texture registry gains the texture of each openable slot under name + "_Albedo", "_Normal", "_Roughness", "_Metallness" or "_AO", keeps the entry of an unopenable slot, and keeps every other name |
| Resources.PackPaths | ResourceManager.h:39-45 | exactly five paths, slot k being the pack directory, the name, "/", the name and the k-th file suffix |
| Resources.RegisterPack | ResourceManager.h:39-47 | one loop iteration stores the pack derived from the name's five paths and leaves cubemaps alone |
| Resources.AddPacksKeys | ResourceManager.h:35-48 | the constructor loop's keys are the old keys plus every name read |
| Resources.AddPacksKeepsOthers | ResourceManager.h:35-48 | a pack whose name is not read is kept unchanged |
| Resources.AddPacksRegisters | ResourceManager.h:35-48 | every name read ends up mapped to the pack derived from its paths |
| Resources.AddPacksKeepsCubemaps | ResourceManager.h:35-48 | the constructor loop registers no cubemaps |
| Resources.LoadPackList | ResourceManager.h:24-49 | an unopened list leaves no packs; otherwise the keys are exactly the listed names plus "", each mapped to its derived pack |
| Resources.PackListLoaded | ResourceManager.h:24-49 | running the loop over the names read from a fresh registry gives the `LoadPackList` registry |
| Resources.EmptyPackAlwaysRegistered | ResourceManager.h:35-48 | whenever the list opens, a pack under the empty name is registered (from paths built from the empty name) and never removed |
| Resources.AddCubeMap | ResourceManager.h:74-76 | the cubemap lookup of the name gives the new cubemap, other names are unchanged, and textures and packs are untouched |
| Audio.MusicPathInjective | AudioPlayer.h:27 | two track names map to the same music file only if they are equal |
| Audio.Play2D | AudioPlayer.h:44 | the engine returns a sound exactly for playable files, playing from the start and not paused |
| Audio.AddSongs | AudioPlayer.h:24-28 | the loop's keys are the old keys plus the names read; each name read maps to its music file; keys not read are unchanged |
| Audio.Init | AudioPlayer.h:16-35 | initialisation does not touch the current sound or the recorded pause position |
| Audio.InitTracks | AudioPlayer.h:16-35 | after `Init` the keys are the listed non-empty names plus the default track; "" is no key; every listed name maps to its file; the current path is the default track's file if it is listed, and otherwise empty, with an empty entry inserted for it |
| Audio.SetCurrentSong | AudioPlayer.h:41-45 | a known name leaves the map alone and selects its path; an unknown name is inserted with an empty path; a sound is started exactly when that path is playable |
| Audio.Play | AudioPlayer.h:47-54 | without a sound, or with a sound that is not paused, nothing changes; a paused sound is restarted from its file at the recorded position, and a null from the engine is dereferenced |
| Audio.PauseAsWritten | AudioPlayer.h:56-60 | as written, `Pause` fails with a null dereference exactly when no sound is current; otherwise it records the position and pauses |
| Audio.Pause | AudioPlayer.h:56-60 | the guarded pause does nothing without a sound; otherwise it records the reported position and pauses the sound; tracks and path are unchanged |
| Audio.PauseFix | AudioPlayer.h:56-60 | the guarded pause agrees with the one as written wherever that one has a result; on a freshly initialised player the one as written fails and the guarded one is a no-op |
| Audio.PauseThenPlayResumes | AudioPlayer.h:47-60 | pausing and then playing restarts the same file from the position reported at the pause |
| Audio.ChooseThenPauseAndPlay | AudioPlayer.h:41-60 | choosing a listed song, pausing and playing resumes that song's file at the paused position, without changing the track map |
| Scene.Ordinal | Cube.h:16-22 | every kind's ordinal lies below NUM = 4 |
| Scene.FromOrdinal | Cube.h:16-22 | an integer names a kind exactly when it is below NUM |
| Scene.OrdinalRoundTrip | Cube.h:16-22 | ordinal and kind are inverse on 0..3 |
| Scene.NewCube | Cube.h:56-69 | a new shape is unselected, at position 0, rotated 30, scaled 0.5, with Phong ambient 0.2, diffuse and specular 0.5 and shininess 32, the default PBR factors, and the "Jimin" lookup as texture; LIGHT gets scale 0.02 and ambient 1.0 |
| Scene.LightOverridesOnlyScaleAndAmbient | Cube.h:63-66 | a LIGHT shape differs from any other kind's only in kind, scale and ambient, and the non-LIGHT kinds differ only in kind |
| Scene.AddCube | Renderer.cpp:557-559 | `mCubeDS[name] = cube`: the keys gain the name, the name maps to the cube, every other name's entry is unchanged, and the size grows by one exactly when the name was new |
| Scene.SetTextureForCube | Renderer.cpp:569-571 | only the named entry's texture changes, to the given (possibly null) texture; keys and other entries are unchanged |
| Shapes.ShadingMatchesCubeType | Shape.h:16-22 | each shading has the ordinal of the cube kind of the same name, and both enums count four |
| Shapes.NewShape | Shape.h:59-76 | a new shape has the given shading and geometry, is unselected, takes the "Gravel" texture lookup and the "Stylized_Fur" pack lookup, and leaves the pack switch unspecified |
| Shapes.ShapeDefaultsMatchCube | Shape.h:61-71 | transform, Phong material, PBR factors and selection equal those of a cube of the corresponding kind, including the LIGHT override |
| Targets.Layout | Renderer.cpp:358-461 | the renderer lays out every target except the window: the G-buffer has four colour slots, the HDR and post targets one |
| Targets.TargetsShareSize | Renderer.cpp:358-461 | every attachment has the construction size, each target has a packed depth-stencil buffer, and the G-buffer's position and normal slots are floating point while its colour slots are 8-bit |
| Targets.GBufferDepthBlitsIntoHDR | Renderer.cpp:185-187 | the full-window depth blit from the G-buffer to the HDR target is between equal depth formats and inside both buffers |
| Dispatch.CubeProgramsDistinct | Renderer.cpp:60-63 | the program list has one entry per kind, and two kinds get programs built from the same files exactly when they are the same kind; PHONG and PBR share only the vertex shader |
| Dispatch.ScaleOffset | Renderer.cpp:548-549 | the scale offset is 0 for every kind but LIGHT, and the sample divided by 100000 for LIGHT |
| Dispatch.ModelOf | Renderer.cpp:545-555 | the model transform takes the shape's position and rotation, and its scale plus the audio offset in every component |
| Dispatch.PhongAmbient | Renderer.cpp:523 | the Phong ambient uniform exceeds the material's ambient by the same amount in every channel, that amount being the sample divided by 70000 |
| Dispatch.LightNamesDistinct | Renderer.cpp:467-468 | the uniform names `lights[i].position` and `lights[i].color` are distinct across indices and from each other |
| Dispatch.LightWrites | Renderer.cpp:464-471 | the loop writes two uniforms per LIGHT shape and advances the counter by the number of LIGHT shapes |
| Dispatch.LightWritesSlot | Renderer.cpp:464-471 | the k-th pair of writes names index i+k and holds the k-th LIGHT shape's position and ambient colour |
| Dispatch.LightVars | Renderer.cpp:463-473 | the list is the light pairs followed by `numberOfLights` set to the LIGHT count |
| Dispatch.LightSlotsHoldLights | Renderer.cpp:463-473 | read back, `lights[k]` holds the k-th LIGHT shape's position and colour for k below the count, this call writes no slot from the count on (the program keeps whatever earlier frames wrote there), and `numberOfLights` is the count |
| Dispatch.ForwardSetup | Renderer.cpp:504-543 | the program is the kind's entry of the program list; a texture is bound exactly for PHONG and PBR shapes that have one; the matrices come first |
| Dispatch.GlowyWritesOnlyTime | Renderer.cpp:514-516 | a GLOWY shape's program gets only the matrices and `time`, which is the frame time |
| Dispatch.LightWritesOnlyColor | Renderer.cpp:540-542 | a LIGHT shape's program gets only the matrices and `lightColor`, which is its ambient colour |
| Dispatch.PhongMaterialUniforms | Renderer.cpp:517-528 | a PHONG shape's ambient is offset by the sample over 70000, while diffuse, specular and shininess pass through unchanged |
| Dispatch.MaterialBlocksIsolated | Renderer.cpp:504-543 | the uniforms of a PBR shape do not depend on its Phong material, those of a PHONG shape not on its PBR material, and GLOWY and LIGHT shapes read neither except LIGHT's ambient |
| Dispatch.DeferredSetup | Renderer.cpp:475-502 | PHONG shapes use the G-buffer program, all others the PBR G-buffer program; only PHONG shapes bind a texture; the matrices come first |
| Dispatch.DeferredPBRReadsOnlyFactors | Renderer.cpp:491-501 | a PBR shape's G-buffer draw does not depend on its Phong material or texture, and its albedo, roughness, metalness and ao uniforms hold the shape's PBR factors |
| Dispatch.PBRFactorsWritten | Renderer.cpp:497-500 | for every non-PHONG shape, the PBR G-buffer program's albedo, roughness, metalness and ao uniforms hold the shape's PBR factors |
| Dispatch.PBRForwardFactors | Renderer.cpp:529-539 | the forward PBR program reads albedo, metalness, roughness and ao from the shape's PBR material, after the light writes |
| Dispatch.ForwardLightSlots | Renderer.cpp:516-534 | a PHONG or PBR forward draw receives the light list: slot k below the count holds the k-th light's position and ambient colour, no slot from the count on is written by this call, and `numberOfLights` is the count |
| Dispatch.AudioCouplingExample | Renderer.cpp:523 | a sample of 7000 raises a default ambient of 0.2 to 0.3 |
| Frame.GeometryPass | Renderer.cpp:153-158 | the G-buffer loop only draws shapes, at most one per entry, all with the PBR G-buffer program |
| Frame.LightPass | Renderer.cpp:196-202 | the light loop only draws shapes, at most one per entry, all with the LIGHT program |
| Frame.OutlineDraws | Renderer.cpp:248-255 | the outline loop only draws shapes, with the outline program, and draws anything only when some shape is selected |
| Frame.PrologueRun | Renderer.cpp:125-139 | the prologue draws nothing and leaves depth test on, the HDR target bound, the clear colour set and the sphere bound |
| Frame.PostPassesRun | Renderer.cpp:277-300 | tone mapping runs into the post target and filtering into the window, both with depth test off |
| Frame.LightingPassRun | Renderer.cpp:160-183 | the lighting quad is drawn into the HDR target with the quad bound |
| Frame.DepthCopyRun | Renderer.cpp:185-195 | the depth blit leaves the HDR target bound and rebinds the sphere |
| Frame.DeferredPassRun | Renderer.cpp:142-203 | every draw of the deferred branch runs in place (geometry into the G-buffer, lighting and lights into the HDR target), and the branch ends on the HDR target with the sphere bound |
| Frame.ForwardEntryRun | Renderer.cpp:219-236 | a selected shape is drawn under stencil ALWAYS/1/0xFF with write mask 0xFF, and leaves NOTEQUAL/1/0xFF with write mask 0; an unselected shape is drawn under the current state and changes nothing |
| Frame.ForwardDrawsRun | Renderer.cpp:218-236 | the forward loop draws every shape exactly once in store order, and leaves the protecting stencil state exactly when some shape is selected |
| Frame.ForwardPassRun | Renderer.cpp:218-236 | the forward branch binds the sphere, runs the loop, and every draw runs in place |
| Frame.OutlinePassRun | Renderer.cpp:241-259 | the outline pass draws in place and ends with stencil write mask 0xFF and ALWAYS/1 |
| Frame.OutlineStageRun | Renderer.cpp:239-259 | with deferred shading on, the outline stage only rebinds the sphere; otherwise it also leaves the stencil reset |
| Frame.SkyPassRun | Renderer.cpp:263-274 | the skybox is drawn under depth function LEQUAL with the sky bound, and LESS is restored |
| Frame.SkyStageRun | Renderer.cpp:261-274 | the sky stage draws in place and leaves the sky unbound when it ran, the cube bound otherwise |
| Frame.ScenePassesRun | Renderer.cpp:123-237 | prologue plus scene pass draw in place, and leave the protecting stencil state exactly in a forward frame with a selected shape |
| Frame.ClosingPassesRun | Renderer.cpp:239-300 | outline, sky and post passes draw in place and end in the frame's final state |
| Frame.DrawsInPlace | Renderer.cpp:123-301 | every draw and blit of a frame runs with the target, vertex array, depth test and depth function its pass needs, and the frame ends on the window, depth test off, depth function LESS, and (forward only) the stencil reset |
| Frame.OutlineEventsProtected | Renderer.cpp:229-255 | in a forward frame each outline draw runs under NOTEQUAL/1 with write mask 0 whenever a shape was selected |
| Frame.ForwardFrameStencil | Renderer.cpp:204-259 | a forward frame's draws begin with the forward loop's draws in order, followed by one outline draw per selected shape under the stencil state the loop left |
| Frame.ForwardStencilWriters | Renderer.cpp:108-236 | under the REPLACE operation, a forward draw writes the stencil (write mask 0xFF) exactly when its shape is selected, or no earlier shape is selected and the frame started with write mask 0xFF; a selected shape writes 1 under ALWAYS, an unselected one before it writes with the reference value and test the frame started with |
| Frame.UnselectedShapesMarkAfterForwardFrame | Renderer.cpp:108-259 | after a forward frame, every unselected shape the next forward frame draws before its first selected one writes 1 under ALWAYS as well, so the outline is suppressed over those shapes too |
| Frame.ForwardDrawKeys | Renderer.cpp:219-236 | the forward loop draws the i-th entry's name with its kind's program, in store order |
| Frame.DrawKeys | Renderer.cpp:123-301 | the frame's draws are the scene pass's draws, then (forward only) the outline draws, then the skybox if enabled, then tone mapping and filtering |
| Frame.GeometryCount | Renderer.cpp:153-158 | each PBR shape gets exactly one G-buffer draw, and nothing else gets one |
| Frame.LightPassCount | Renderer.cpp:196-202 | each LIGHT shape gets exactly one LIGHT-program draw after lighting, and nothing else gets one |
| Frame.OutlineCount | Renderer.cpp:248-255 | each selected shape gets exactly one outline draw, and nothing else gets one |
| Frame.ForwardCount | Renderer.cpp:219-236 | every shape is drawn exactly once, with its kind's program |
| Frame.DeferredFrameCounts | Renderer.cpp:142-203 | a deferred frame draws each PBR shape once into the G-buffer, the lighting quad once, blits once, draws each LIGHT shape once, and never draws GLOWY or PHONG shapes |
| Frame.ForwardFrameCounts | Renderer.cpp:204-259 | a forward frame draws every shape once with its kind's program, each selected shape once more with the outline program, and never blits |
| Frame.DrawCounts | Renderer.cpp:123-301 | the multiplicity of every draw of a frame, in both modes, with the skybox once when enabled and tone mapping and filtering once |
| Frame.PassOrder | Renderer.cpp:123-301 | the frame's draws go in pass order (G-buffer, lighting, blit, shapes, outline, skybox, tone map, filter), and the last two are tone mapping then filtering |
| Frame.LightingQuadSamplesGBuffer | Renderer.cpp:166-178 | the lighting quad samples the four G-buffer slots on units 0 to 3, one per colour attachment and one per sampler name |
| Frame.LightingQuadUniforms | Renderer.cpp:180-181 | the lighting quad sees the eye position, each LIGHT shape's position and colour at its index, and the LIGHT count; this draw's writes touch no slot from the count on, so slots an earlier frame wrote keep their values |
| Frame.FrameCloses | Renderer.cpp:276-300 | every frame ends with the tone-map draw into the post target and the filter draw into the window, both with depth test off |
| Frame.PostUniforms | Renderer.cpp:280-296 | the tone-map and filter programs read HDR switch, exposure and the four filter settings as currently set |
| Editor.TypeMapIsBijective | Editor.h:39-43 | the type labels are Phong, PBR, Glowy and Light, every kind has a label, and no two labels share a kind |
| Editor.CounterNameInjective | Editor.h:82 | "+" names from different counter values differ |
| Editor.Deselect | Editor.h:70-72 | every entry is unselected, and names and everything else stay |
| Editor.SelectCube | Editor.h:65-74 | after a click exactly the clicked name is selected, every other entry is unselected but otherwise unchanged, and the click is remembered |
| Editor.SelectExactlyOne | Editor.h:65-74 | after a click the remembered name and the only selected entry agree, so some shape is selected |
| Editor.AddNewCube | Editor.h:81-83 | "+" increments the counter and adds a default PHONG cube under "Cube " and the new counter value; other entries are unchanged |
| Editor.AddNewCubeIsFresh | Editor.h:81-83 | while the counter is ahead of every counter name in the store, "+" picks an unused name, grows the store by one, and keeps the counter ahead |
| Editor.FirstAddedName | Editor.h:216-218 | the counter starts at 1, so the first "+" creates "Cube 2" |
| Editor.AddMany | Editor.h:81-83 | k presses add exactly the k names after the counter, all new, and keep the names distinct |
| Editor.CounterNamesFresh | Editor.h:81-83 | names from a counter that is ahead are disjoint from the store and pairwise distinct |
| Editor.ChooseType | Editor.h:88-95 | a label changes only the selected entry's kind, to the label's kind; a missing selected name is a null dereference |
| Editor.Selected | Editor.h:94 | `cubeDS[mSelectedCube]` yields the entry when the name is a key and a null dereference otherwise |
| Editor.ChooseTexture | Editor.h:102-116 | the texture choice applies only to a PHONG selection and sets exactly its texture to the (possibly null) lookup; other kinds change nothing |
| Editor.EditTransform | Editor.h:120-122 | the sliders change only the selected entry's transform |
| Editor.EditMaterial | Editor.h:124-145 | PHONG edits the Phong material, PBR the PBR material, and any other kind only the ambient colour; only the selected entry changes |
| Editor.MaterialEditReachesShader | Editor.h:124-145 | in the selected shape's next draw: a PHONG shape's forward uniforms hold the edited ambient (plus the audio offset), diffuse, specular and shininess; a PBR shape's forward and G-buffer uniforms hold the edited albedo, metalness, roughness and ao; a LIGHT shape's `lightColor` is the edited ambient; a GLOWY shape's draw is unchanged |
| Editor.PropertiesPanel | Editor.h:102-145 | every frame's properties panel fails with a null dereference exactly when the selected name is missing, whether or not a widget is touched; otherwise it offers the texture list exactly for PHONG, shows the selected transform, and the Phong block for PHONG, the PBR block for PBR, the ambient slider otherwise |
| Editor.PanelGuardsEdits | Editor.h:86-145 | the type, texture, transform and material edits fail exactly on the frames whose panel fails |
| Editor.InitialSelectionNeedsPBRCube | Editor.h:217 | at start-up the first frame's panel, and each type, texture and transform edit, dereferences null exactly when no "PBR Cube" exists; the initial type label "Textured" is no label |
| Editor.SettingsEditReachesFrame | Editor.h:150-209 | each filter, HDR and exposure edit reaches the post-processing uniforms; the sky switch decides whether the sky runs, and the deferred switch selects the deferred or the forward scene pass and whether the outline runs; other edits leave the scene passes unchanged |
| Editor.ChooseTrack | Editor.h:163-173 | clicking a track remembers it and makes its file the current path, with a sound exactly when that file is playable |
| SphereMesh.RowEntry | SphereMesh.h:43-62 | every entry of a row's strip indexes one of the 4225 vertices |
| SphereMesh.IndicesInRange | SphereMesh.h:42-62 | there are 64·65·2 = 8320 indices, each below 4225 |
| SphereMesh.RowsAlternate | SphereMesh.h:45-60 | even rows pair vertex (x, y) with (x, y+1) for ascending x; odd rows pair (x, y+1) with (x, y) for descending x |
| SphereMesh.GenerateIndices | SphereMesh.h:42-62 | the nested loops produce exactly the alternating strip, and its length is what `GetIndexCount` returns |
| SphereMesh.GenerateRows | SphereMesh.h:43-62 | after y rows the index list is the strip of the first y rows |
| SphereMesh.PushEvenRow | SphereMesh.h:45-52 | the even-row loop appends exactly that row's strip |
| SphereMesh.PushOddRow | SphereMesh.h:53-60 | the odd-row loop appends exactly that row's strip |
| SphereMesh.Grid | SphereMesh.h:26-40 | the vertex loops produce 65·65 vertices |
| SphereMesh.GridAt | SphereMesh.h:26-40 | vertex x·65+y holds the surface point for (x, y), uv (x/64, y/64), and a normal equal to its position |
| SphereMesh.VertexData | SphereMesh.h:64-80 | the interleaved array has 8 floats per vertex: position, uv, normal |
| SphereMesh.LayoutTilesStride | SphereMesh.h:86-92 | the attribute offsets 0, 3, 5 tile the stride of 8 with no gap or overlap |
| SphereMesh.SphereVertexLayout | SphereMesh.h:26-80 | the sphere's buffer has 8·4225 floats; for grid point (x, y) the normal floats repeat the position floats and the uv floats are x/64 and y/64 |
| MeshTables.CubeFaceNormalsAreAxes | CubeMesh.h:37-80 | the six face normals are distinct unit axis vectors |
| MeshTables.CubeTableLayout | CubeMesh.h:19-26 | the table has 36 vertices of 8 floats, with the same attribute layout as the sphere |
| MeshTables.CubeFace | CubeMesh.h:37-80 | every vertex of block b carries block b's axis normal and lies 0.5 along it, so one coordinate is constant over the block; components are ±0.5, texture coordinates 0 or 1, and vertices 0/5 and 2/3 coincide |
| MeshTables.CubeNormal | CubeMesh.h:37-80 | every vertex of a block carries the block's normal, and its position lies 0.5 along it |
| MeshTables.CubeCorner | CubeMesh.h:37-80 | every position component is ±0.5 and every texture component 0 or 1 |
| MeshTables.CubeDiagonals | CubeMesh.h:37-80 | the two triangles of each face share a diagonal |
| MeshTables.QuadFillsScreen | Renderer.h:109-118 | six (x, y, u, v) records with x and y at ±1, u = (x+1)/2, v = (y+1)/2, forming two triangles over all four corners |
| MeshTables.SkyboxFaces | Renderer.h:120-163 | 36 vertices, each six-vertex block lying on one face of the ±1 cube, the six faces distinct |
| MeshTables.SkyboxNormalsDistinct | Renderer.h:120-163 | the six blocks lie on six different faces |
| MeshTables.SkyboxCorner | Renderer.h:120-163 | every skybox coordinate is ±1 |
| MeshTables.SkyboxOnFace | Renderer.h:120-163 | every vertex of block b lies at distance 1 along block b's axis normal |
| ModelLoader.LastSlash | Model.cpp:25 | finds the last '/' of a path, or reports that there is none |
| ModelLoader.Directory | Model.cpp:25 | the directory is a prefix of the path up to but excluding its last '/', or the whole path without one |
| ModelLoader.DirectoryOfJoin | Model.cpp:25 | the directory of dir + "/" + file, for a file name without '/', is dir |
| ModelLoader.FindLoaded | Model.cpp:115-122 | the cache scan returns the first entry with the path, reports a miss only when every entry is non-null with a different path, and dereferences a null entry it reaches first |
| ModelLoader.LoadTexture | Model.cpp:110-127 | a cached path is reused without loading; otherwise one texture is loaded and appended (null when the file does not open); the cache only grows and keeps paths distinct |
| ModelLoader.LoadTexturesFrom | Model.cpp:109-128 | the slots from i on give one texture each, loaded from the object directory plus the slot's file, and the cache only grows |
| ModelLoader.LoadTexturesFromDistinct | Model.cpp:109-128 | the cache never holds two equal paths |
| ModelLoader.LoadMaterialTextures | Model.cpp:104-131 | exactly one texture per slot, in slot order, each from the object directory plus the slot's file, keeping the cache free of duplicate paths |
| ModelLoader.LoadTexturesSucceed | Model.cpp:109-128 | when every file opens, loading never meets a null cache entry and succeeds |
| ModelLoader.NullInCacheFails | Model.cpp:116-117 | a failed load leaves a null in the cache, and the next slot's scan dereferences it |
| ModelLoader.Flatten | Model.cpp:78-84 | the index list is the faces' indices in order |
| ModelLoader.FlattenBounded | Model.cpp:78-84 | face indices below a bound stay below it after flattening |
| ModelLoader.LoadedFromAllConcat | Model.cpp:86-98 | appending two texture lists loaded from two file lists gives the list loaded from the appended files |
| ModelLoader.MeshTextures | Model.cpp:86-98 | one texture per material file, in the order diffuse, specular, height (as normal maps), ambient (as height maps), each loaded from the object directory plus its file or null when that file does not open; the cache only grows and keeps paths distinct |
| ModelLoader.ProcessMeshAsWritten | Model.cpp:42-102 | as written, a mesh without vertices reaches the end without a return; any other mesh yields only its first vertex, with every face index and the material's textures in `MeshTextures` order, or fails on a null cache entry |
| ModelLoader.ProcessMesh | Model.cpp:42-102 | the corrected mesh holds every vertex in order, the flattened faces as indices (all in range), and the material's textures in `MeshTextures` order; the cache only grows and keeps paths distinct |
| ModelLoader.ProcessMeshFix | Model.cpp:47-101 | where the one as written returns, it gives the corrected mesh cut to its first vertex |
| ModelLoader.TriangleLosesVertices | Model.cpp:76-100 | a one-triangle mesh, as written, keeps indices 0, 1, 2 but only one vertex |
| ModelLoader.AppendMesh | Model.cpp:33-34 | one mesh is appended, built from the scene mesh the node names by the given `processMesh`: with the source's, a one-vertex mesh, and a mesh without vertices ends the walk in the missing return |
| ModelLoader.ProcessMeshes | Model.cpp:32-35 | one mesh is appended per mesh index, after the ones already loaded; a failure is a null cache entry or, with the source's `processMesh`, the missing return |
| ModelLoader.ProcessMeshesBuilt | Model.cpp:32-101 | the appended meshes are built from the named scene meshes, in order: with the source's `processMesh` each holds only its scene mesh's first vertex, with the corrected one every vertex; both keep every face index and the material's textures |
| ModelLoader.ProcessMeshesDistinct | Model.cpp:30-40 | loading any number of meshes keeps the cache free of duplicate paths |
| ModelLoader.ProcessNodeIsPreorder | Model.cpp:30-40 | `processNode` loads exactly the meshes of the pre-order listing: a node's own meshes in order, then each child subtree in order |
| ModelLoader.LoadModel | Model.cpp:14-40 | a failed, incomplete or rootless import loads nothing; otherwise the directory is set and the root's pre-order meshes are loaded in order; with the source's `processMesh` each loaded mesh has one vertex and a visited mesh without vertices makes the load fail |
| ModelLoader.NoTexturesLoaded | Model.cpp:86-98 | a material listing no textures loads none and leaves registry and cache alone |
| ModelLoader.SingleMeshModel | Model.cpp:14-40 | a model whose root names its one mesh (with vertices, and a material without textures) loads that one mesh, built by the given `processMesh` |
| ModelLoader.TriangleModelLosesVertices | Model.cpp:14-101 | a model whose root names one triangle loads, as written, a mesh with one vertex and indices 0, 1, 2; corrected, a mesh with all three vertices |

## Left out

- GL effects (shader compilation, texture upload, buffer and handle allocation, completeness checks, `glCheckError_`): these are effects on a driver. Draws, blits and the state they depend on are modelled as commands.
- Matrix arithmetic and camera trigonometry (`glm::perspective`, `lookAt`, rotations, Camera.cpp/.h): the view and projection are uninterpreted values of the camera, and `ModelOf` keeps position, rotation and scale symbolic.
- Sphere positions and uvs come from `cos`/`sin`: the surface is a function parameter, and only the layout and the normal = position identity are stated.
- `SetupForShadows` (Renderer.cpp:304-321) is never called.
- The deferred PHONG branch (Renderer.cpp:478-490) is modelled in `DeferredSetup` but is unreachable from `Draw`, which passes only PBR shapes.
- The camera sliders (Editor.h:191-197) edit a float camera that is outside this model.
- ImGui widgets, styling and list-box rendering: only the state changes of `Editor::Update` are modelled.
- irrKlang calls: `stopAllSounds`, `setAllSoundsPaused` and the sound-effect control are not modelled. Only the sound the player holds is tracked, and the sound `Play` replaces without dropping is not tracked either.
- SoundData.h and `GetData`: the audio sample is a frame parameter, so one sample is assumed for the whole frame. The source calls `GetData` anew for every shape's setup while the audio thread keeps writing it, so shapes drawn in one frame may see different samples.
- main.cpp (window and main loop), Sphere.h (an unused copy of Cube.h), `AddModel`/`Model::Draw` (the model draw loop in `Draw` is commented out), and the destructor.
- `mCubeCount` is a 32-bit `int`: the counter is an unbounded natural, so wrap-around after 2^31 presses is not modelled.
- Float rounding: reals are exact, so `amplitude/70000` and `amplitude/100000` carry no rounding.
- Assimp validity (mesh and material indices in range, per-vertex normal and uv arrays as long as the vertex array) is assumed through `ValidScene`, which the importer guarantees.
- Editor.ApplySettingsEdit: it carries no contract of its own; what it does is stated through `SettingsEditReachesFrame`.
- Frame.Draw: `Renderer::Draw` (Renderer.cpp:123-301) carries no contract of its own; what it does is stated through `DrawsInPlace` (each draw runs under the state its pass sets up), `DrawCounts`/`DrawKeys` (the multiset of draws) and `PassOrder` (the phase order).
- ModelLoader.ProcessNode: `processNode` (Model.cpp:30-40) carries no contract of its own; `ProcessNodeIsPreorder` states that it appends the meshes in the pre-order `MeshOrder`.
- ModelLoader.ProcessChildren: the child loop of `processNode` (Model.cpp:37-39) carries no contract of its own; `ProcessChildrenIsPreorder` states it, and `ProcessNodeIsPreorder` uses it.
- ModelLoader.BuildMesh: the choice between the as-written and the corrected `processMesh` (Model.cpp:42-102) carries no contract of its own; `Built` and `ProcessMeshesBuilt` state each appended mesh's vertices, indices and textures.
- ModelLoader.MakeVertex: the vertex built at Model.cpp:48-76 carries no contract of its own; the contracts of `ProcessMeshAsWritten` and `ProcessMesh` state which vertices a mesh keeps through it.
- ModelLoader.TextureName: the registry name `"Texxx " + typeName + ' ' + to_string(i)` (Model.cpp:124) carries no contract of its own; `LoadTexture`'s contract states the `AddTexture` call made under it.
- Resources.AddPacks: the constructor's loop (ResourceManager.h:35-48) carries no contract of its own; `AddPacksKeys`, `AddPacksKeepsOthers`, `AddPacksRegisters` and `AddPacksKeepsCubemaps` state it.
- Audio.MusicPath: the path `"../resources/music/" + songName + ".mp3"` (AudioPlayer.h:27) carries no contract of its own; `MusicPathInjective` states that distinct tracks get distinct paths, and `AddSongs` and `Init` state where it is stored.
- Diagnostic output: the "Ahh shit" message printed when a list file does not open (AudioPlayer.h:21, ResourceManager.h:32), the `ERROR::ASSIMP` message with the importer's error string (Model.cpp:21) and the printed result of `setMixedDataOutputReceiver` (AudioPlayer.h:34) go to the console and change no state, so they are not modelled.
- MeshTables.Along: the dot product is stated only for axis-unit normals.
- `texturePackEnabled` of a new shape is never assigned in the source, so the model makes it `None` (indeterminate) rather than any boolean.
- Texture unit 0: a PHONG or PBR shape with a null texture skips the bind (Renderer.cpp:518-521, 530-533) and samples whatever unit 0 last held, in a forward frame the previous shape's texture or the post-processing colour buffer the filter pass bound (Renderer.cpp:298-299). `GLState` does not track texture-unit bindings, so what such a shape samples is not stated.
- Frame.SkyboxDraw: the skybox command lists the cubemap as its one texture, which records what `mCubemap->Bind()` (Renderer.cpp:269) binds and not the unit it lands on. `Cubemap::Bind` is not part of this model, and the active unit at that point is GL_TEXTURE3 in a deferred frame (Renderer.cpp:177), since the light draws bind no texture; only in a forward frame, where unit 0 is the one the shape draws use, is the cubemap known to go to unit 0 if `Bind` does not select a unit itself.
- Stencil-buffer contents: which draws write the stencil is stated (`ForwardStencilWriters`), but the per-pixel stencil values, and so which pixels the outline reaches, are not modelled.
- The iteration order of `unordered_map` is unspecified: the store's sequence order stands for it, so order-sensitive statements (the forward draw order, the light indices) hold relative to that order.

## Findings

| source | as written | input that shows it | evidently intended | confidence | as-written member | corrected member |
|---|---|---|---|---|---|---|
| Model.cpp:47-101 | `return Mesh(...)` sits inside the per-vertex loop: the mesh keeps only its first vertex, and a mesh with no vertices reaches the end of a non-void function without returning | a single triangle with three vertices gives indices 0, 1, 2 but one vertex; a mesh with no vertices has no return value | the vertex loop closed after the vertex `push_back`, with the face and texture code and the `return` run once after it: every vertex kept and the material's textures loaded once | not executed | ModelLoader.ProcessMeshAsWritten | ModelLoader.ProcessMesh |
| AudioPlayer.h:56-60 | `Pause` reads `mCurrentSong->getPlayPosition()` without checking `mCurrentSong`, which is null until a song is chosen | pressing Pause after `Init` and before choosing any track | the same null guard `Play` has | not executed | Audio.PauseAsWritten | Audio.Pause |

=== FILE: audio.dfy ===
/** The music player of AudioPlayer.h: the track map built from the track
    list file, song selection, and the pause/resume bookkeeping.

    The sound engine is a parameter: `playable` is the set of file paths
    `play2D` can start (it returns null for the rest), and the play position
    the engine reports on pausing is an argument of `Pause`. Only the sound
    the player holds is tracked; the engine's other sounds are not modelled. */
module Audio {
  import opened Common

  const MusicDirectory := "../resources/music/"

  /** The track selected at start-up. */
  const DefaultTrack := "Jhalak_Dikhlaja"

  /** The file a track name maps to. */
  function MusicPath(name: string): string {
    MusicDirectory + name + ".mp3"
  }

  /** Distinct track names map to distinct files. */
  lemma MusicPathInjective(a: string, b: string)
    ensures MusicPath(a) == MusicPath(b) <==> a == b
  {
    InfixCancel(MusicDirectory, a, b, ".mp3");
  }

  /** A sound the engine started: its file, the position it was started
      from, and whether it is paused. */
  datatype Sound = Sound(path: string, startedAt: nat, paused: bool)

  datatype Player = Player(
    songs: map<string, string>,
    currentPath: string,
    current: Option<Sound>,
    lastPaused: nat)

  /** The constructor: no sound, position 0, no tracks. */
  const NewPlayer := Player(map[], "", None, 0)

  /** `play2D(path, false, false, true)`: a tracked sound playing from the
      start, or null when the engine cannot play the file. */
  function Play2D(path: string, playable: set<string>): (r: Option<Sound>)
    ensures r.Some? <==> path in playable
    ensures r.Some? ==> r.value == Sound(path, 0, false)
  {
    if path in playable then Some(Sound(path, 0, false)) else None
  }

  /** The loop of `Init`: each name read maps to its music file. */
  function AddSongs(songs: map<string, string>, names: seq<string>): (r: map<string, string>)
    ensures r.Keys == songs.Keys + (set n | n in names)
    ensures forall n :: n in names ==> r[n] == MusicPath(n)
    ensures forall n :: n in songs && n !in names ==> r[n] == songs[n]
    decreases |names|
  {
    if |names| == 0 then songs
    else
      var r := AddSongs(songs[names[0] := MusicPath(names[0])], names[1..]);
      assert forall n :: n in names ==> n == names[0] || n in names[1..];
      r
  }

  /** `Init`: every line of the track list (`None` when the file does not
      open) is mapped to its file, the entry for the empty name the extra
      read leaves behind is erased, and the current path is looked up with
      `[]`, which inserts the default track with an empty path when the list
      does not name it. */
  function Init(p: Player, listing: Option<seq<string>>): (r: Player)
    ensures r.current == p.current && r.lastPaused == p.lastPaused
  {
    var songs := AddSongs(p.songs, ListedNames(listing)) - {""};
    if DefaultTrack in songs then p.(songs := songs, currentPath := songs[DefaultTrack])
    else p.(songs := songs[DefaultTrack := ""], currentPath := "")
  }

  /** After `Init` on a fresh player the tracks are exactly the listed
      non-empty names plus the default track, each listed one mapped to its
      file; the empty name is no key; the current path is the default
      track's file when it is listed and empty otherwise. */
  lemma InitTracks(listing: Option<seq<string>>)
    ensures var r := Init(NewPlayer, listing);
      var listed := if listing.Some? then (set n | n in listing.value) else {};
      r.songs.Keys == listed - {""} + {DefaultTrack} &&
      "" !in r.songs &&
      (forall n :: n in listed && n != "" ==> r.songs[n] == MusicPath(n)) &&
      (DefaultTrack in listed ==> r.currentPath == MusicPath(DefaultTrack)) &&
      (DefaultTrack !in listed ==> r.currentPath == "" && r.songs[DefaultTrack] == "") &&
      r.current.None?
  {
    var names := ListedNames(listing);
    assert (set n | n in names) == (if listing.Some? then (set n | n in listing.value) else {}) + (if listing.Some? then {""} else {}) by {
      if listing.Some? {
        forall n | n in names ensures n in listing.value || n == "" {
          var i :| 0 <= i < |names| && names[i] == n;
          if i < |listing.value| {
            assert names[i] == listing.value[i];
          }
        }
        forall n | n in listing.value ensures n in names {
          var i :| 0 <= i < |listing.value| && listing.value[i] == n;
          assert names[i] == n;
        }
      }
    }
  }

  /** `SetCurrentSong`: the name is looked up with `[]` (an unknown name is
      inserted with an empty path) and a new sound is started from that path,
      null when it cannot be played. */
  function SetCurrentSong(p: Player, name: string, playable: set<string>): (r: Player)
    ensures r.lastPaused == p.lastPaused
    ensures name in p.songs ==> r.songs == p.songs && r.currentPath == p.songs[name]
    ensures name !in p.songs ==> r.songs == p.songs[name := ""] && r.currentPath == ""
    ensures r.current.Some? <==> r.currentPath in playable
    ensures r.current.Some? ==> r.current.value == Sound(r.currentPath, 0, false)
  {
    var path := if name in p.songs then p.songs[name] else "";
    p.(songs := p.songs[name := path], currentPath := path, current := Play2D(path, playable))
  }

  /** `Play`: only a paused current sound is restarted, from its file at the
      recorded position; when the engine cannot start it, the null it
      returns is dereferenced. */
  function Play(p: Player, playable: set<string>): (r: Result<Player>)
    ensures p.current.None? || !p.current.value.paused ==> r == Ok(p)
    ensures p.current.Some? && p.current.value.paused ==>
      (r.Fail? <==> p.currentPath !in playable) &&
      (r.Fail? ==> r.fault == NullDereference) &&
      (r.Ok? ==> r.value == p.(current := Some(Sound(p.currentPath, p.lastPaused, false))))
  {
    match p.current
    case None => Ok(p)
    case Some(s) =>
      if !s.paused then Ok(p)
      else
        match Play2D(p.currentPath, playable)
        case None => Fail(NullDereference)
        case Some(t) => Ok(p.(current := Some(t.(startedAt := p.lastPaused))))
  }

  /** `Pause` as the source has it: the current sound's position is read
      before anything checks that there is a current sound, so pausing
      before any song was chosen dereferences null. */
  function PauseAsWritten(p: Player, position: nat): (r: Result<Player>)
    ensures r.Fail? <==> p.current.None?
    ensures r.Fail? ==> r.fault == NullDereference
    ensures r.Ok? ==> r.value == p.(lastPaused := position, current := Some(p.current.value.(paused := true)))
  {
    match p.current
    case None => Fail(NullDereference)
    case Some(s) => Ok(p.(lastPaused := position, current := Some(s.(paused := true))))
  }

  /** `Pause` guarded the way `Play` is: without a current sound it does
      nothing; otherwise it records the position the engine reports and
      pauses the sound. */
  function Pause(p: Player, position: nat): (r: Player)
    ensures p.current.None? ==> r == p
    ensures p.current.Some? ==> r.lastPaused == position && r.current == Some(p.current.value.(paused := true))
    ensures r.songs == p.songs && r.currentPath == p.currentPath
  {
    match p.current
    case None => p
    case Some(s) => p.(lastPaused := position, current := Some(s.(paused := true)))
  }

  /** The two agree whenever the one as written has a result, and a fresh
      player after `Init` is exactly the case where it has none. */
  lemma PauseFix(p: Player, position: nat, listing: Option<seq<string>>)
    ensures PauseAsWritten(p, position).Ok? ==> PauseAsWritten(p, position).value == Pause(p, position)
    ensures PauseAsWritten(Init(NewPlayer, listing), position).Fail?
    ensures Pause(Init(NewPlayer, listing), position) == Init(NewPlayer, listing)
  {
  }

  /** Pausing and then playing resumes the same file from the position the
      engine reported at the pause. */
  lemma PauseThenPlayResumes(p: Player, position: nat, playable: set<string>)
    requires p.current.Some? && p.currentPath in playable
    ensures Play(Pause(p, position), playable) == Ok(p.(lastPaused := position, current := Some(Sound(p.currentPath, position, false))))
  {
  }

  /** Choosing a song and then pausing and playing again: the song picked
      from the track list resumes from its file. */
  lemma ChooseThenPauseAndPlay(p: Player, name: string, position: nat, playable: set<string>)
    requires name in p.songs && p.songs[name] in playable
    ensures var q := SetCurrentSong(p, name, playable);
      q.songs == p.songs &&
      Play(Pause(q, position), playable) == Ok(q.(lastPaused := position, current := Some(Sound(p.songs[name], position, false))))
  {
  }
}

=== FILE: common.dfy ===
/** Small vocabulary shared by every module of the editor model: optional and
    failing results, real-valued vectors, decimal rendering of counters, the
    line-list reading loop. */
module Common {

  /** A value of the original program that may be null: `None` is `nullptr`. */
  datatype Option<+T> = None | Some(value: T)

  /** What goes wrong at run time in the original program when a model
      operation cannot produce a value. */
  datatype Fault =
    | NullDereference   // a member call through nullptr
    | MissingReturn     // control falls off the end of a value-returning function

  /** Either a value or the fault the original program would run into. */
  datatype Result<+T> = Ok(value: T) | Fail(fault: Fault) {
    predicate IsFailure() { Fail? }

    function PropagateFailure<U>(): Result<U>
      requires Fail?
    {
      Fail(fault)
    }

    function Extract(): T
      requires Ok?
    {
      value
    }
  }

  /** A `glm::vec3` whose components are only passed through or offset. */
  datatype Vec3 = Vec3(x: real, y: real, z: real) {
    function Plus(o: Vec3): Vec3 {
      Vec3(x + o.x, y + o.y, z + o.z)
    }
  }

  /** A `glm::vec2`. */
  datatype Vec2 = Vec2(u: real, v: real)

  /** `glm::vec3(f)`: all three components equal to `f`. */
  function Splat(f: real): Vec3 {
    Vec3(f, f, f)
  }

  /** The character of a decimal digit. */
  function DigitChar(d: nat): (c: char)
    requires d < 10
    ensures '0' <= c <= '9'
  {
    (48 + d) as char
  }

  /** `std::to_string` of a non-negative integer: its decimal digits, most
      significant first, with no leading zero. */
  function NatToString(n: nat): (s: string)
    ensures 1 <= |s|
    ensures n < 10 <==> |s| == 1
    ensures forall i :: 0 <= i < |s| ==> '0' <= s[i] <= '9'
    ensures s[|s| - 1] == DigitChar(n % 10)
    decreases n
  {
    if n < 10 then [DigitChar(n)] else NatToString(n / 10) + [DigitChar(n % 10)]
  }

  /** Distinct counters render as distinct strings. */
  lemma {:induction false} NatToStringInjective(a: nat, b: nat)
    ensures NatToString(a) == NatToString(b) <==> a == b
    decreases a
  {
    if NatToString(a) == NatToString(b) && a >= 10 && b >= 10 {
      var sa, sb := NatToString(a), NatToString(b);
      assert sa[..|sa| - 1] == NatToString(a / 10);
      assert sb[..|sb| - 1] == NatToString(b / 10);
      NatToStringInjective(a / 10, b / 10);
      assert a % 10 == b % 10 by {
        assert DigitChar(a % 10) == DigitChar(b % 10);
      }
    }
  }

  /** Prefixing a common string keeps distinct strings distinct. */
  lemma PrefixCancel(p: string, s: string, t: string)
    ensures p + s == p + t <==> s == t
  {
    if p + s == p + t {
      assert s == (p + s)[|p|..];
      assert t == (p + t)[|p|..];
    }
  }

  /** Wrapping in a common prefix and suffix keeps distinct strings distinct. */
  lemma InfixCancel(p: string, s: string, t: string, q: string)
    ensures p + s + q == p + t + q <==> s == t
  {
    if p + s + q == p + t + q {
      assert |s| == |t|;
      assert s == (p + s + q)[|p|..|p| + |s|];
      assert t == (p + t + q)[|p|..|p| + |t|];
    }
  }

  /** The names that the original's `while (input) { getline(input, name); ... }`
      loop hands to its body when reading a one-name-per-line list file.
      `None` is a file that did not open: the stream starts in a failed state
      and the body never runs. Otherwise every line is read, and then one more
      iteration runs after the last line with an empty name, because the
      stream only reports failure after `getline` has already failed. */
  function ListedNames(listing: Option<seq<string>>): (names: seq<string>)
    ensures listing.None? ==> names == []
    ensures listing.Some? ==> |names| == |listing.value| + 1 && names[|names| - 1] == ""
    ensures listing.Some? ==> forall i :: 0 <= i < |listing.value| ==> names[i] == listing.value[i]
  {
    match listing
    case None => []
    case Some(lines) => lines + [""]
  }
}

=== FILE: dispatch.dfy ===
/** Per-shape shading dispatch of Renderer.cpp: which program a cube is drawn
    with, which texture is bound, and which uniforms are written, for the
    forward path (`SetShaderVarsAndUse`), the G-buffer path
    (`SetVertexShaderVarsForDeferredShadingAndUse`) and the light list
    (`SetLightVarsInShader`), together with the audio-reactive offsets of
    `SetShaderVarsAndUse` and `CreateModelMatrix`.

    GL calls become data: a `Setup` lists the program, the optional texture
    bound to unit 0, and the uniform writes in the order they are issued.
    Matrices are symbolic: a model matrix is named by the position, scale and
    rotation `CreateModelMatrix` builds it from. */
module Dispatch {
  import opened Common
  import opened Scene
  import Resources

  /** The shader programs the renderer compiles. */
  datatype Program =
    | CubeProgram(kind: CubeType)   // mCubeShaders[kind]
    | ScreenProgram
    | OutlineProgram
    | GBufferProgram
    | GBufferPBRProgram
    | DeferredLightingProgram
    | DeferredLightingPBRProgram
    | HDRProgram
    | SkyboxProgram
    | ModelProgram

  /** The vertex and fragment files a program is built from. */
  datatype ShaderSource = ShaderSource(vertex: string, fragment: string)

  /** `mCubeShaders`, in the order the constructor pushes them. */
  const CubeShaderSources: seq<ShaderSource> := [
    ShaderSource("Shader.vert", "Shader.frag"),
    ShaderSource("TexPhong.vert", "TexPhong.frag"),
    ShaderSource("TexPhong.vert", "PBR.frag"),
    ShaderSource("LightShader.vert", "LightShader.frag")
  ]

  /** The files each program of the renderer is built from. */
  function Source(p: Program): ShaderSource
  {
    match p
    case CubeProgram(k) => CubeShaderSources[Ordinal(k)]
    case ScreenProgram => ShaderSource("ScreenShader.vert", "ScreenShader.frag")
    case OutlineProgram => ShaderSource("Outlining.vert", "Outlining.frag")
    case GBufferProgram => ShaderSource("GBufferShader.vert", "GBufferShader.frag")
    case GBufferPBRProgram => ShaderSource("GBufferShader.vert", "GBufferShaderPBR.frag")
    case DeferredLightingProgram => ShaderSource("DeferredLightingShader.vert", "DeferredLightingShader.frag")
    case DeferredLightingPBRProgram => ShaderSource("DeferredLightingShader.vert", "DeferredLightingShaderPBR.frag")
    case HDRProgram => ShaderSource("HDR.vert", "HDR.frag")
    case SkyboxProgram => ShaderSource("Skybox.vert", "Skybox.frag")
    case ModelProgram => ShaderSource("TexPhongModel.vert", "TexPhongModel.frag")
  }

  /** Selecting `mCubeShaders[kind]` gives each kind a program of its own:
      two kinds share a program's files exactly when they are the same kind
      (PHONG and PBR share the vertex shader only). */
  lemma CubeProgramsDistinct(k: CubeType, k': CubeType)
    ensures |CubeShaderSources| == CubeTypeCount
    ensures Source(CubeProgram(k)) == Source(CubeProgram(k')) <==> k == k'
    ensures Source(CubeProgram(Phong)).vertex == Source(CubeProgram(PBR)).vertex
  {
    if k != k' {
      assert Ordinal(k) != Ordinal(k');
      assert forall i, j :: 0 <= i < j < CubeTypeCount ==> CubeShaderSources[i] != CubeShaderSources[j] by {
        assert CubeShaderSources[0].fragment[0] == 'S' && CubeShaderSources[1].fragment[3] == 'P';
        assert CubeShaderSources[2].fragment[0] == 'P' && CubeShaderSources[3].fragment[0] == 'L';
      }
    }
  }

  /** The camera as the renderer reads it: world position and zoom (field of
      view in degrees); its view matrix is left symbolic. */
  datatype Camera = Camera(position: Vec3, zoom: real)

  /** Symbolic 4x4 matrices. */
  datatype Matrix =
    | ModelMatrix(position: Vec3, scale: Vec3, rotation: Vec3)
    | ViewMatrix(camera: Camera)
    | RotationOnlyView(camera: Camera)             // glm::mat4(glm::mat3(view))
    | Perspective(zoom: real, width: int, height: int)

  /** The audio sample: `AudioPlayer::GetData` returns a `short`. */
  type Sample = x: int | -32768 <= x <= 32767

  /** Everything a frame reads besides the scene and the renderer settings. */
  datatype FrameInput = FrameInput(width: int, height: int, camera: Camera, amplitude: Sample, time: real)

  datatype UniformValue =
    | FloatValue(f: real)
    | IntValue(i: int)
    | VecValue(v: Vec3)
    | MatValue(m: Matrix)

  /** One `shader->Set*(name, value)` call. */
  datatype UniformWrite = Write(name: string, value: UniformValue)

  /** What a draw call runs with: its program, the texture its setup binds
      on unit 0, and the uniform writes issued for it, in order. `None`
      means the setup skips the bind, so unit 0 keeps whatever an earlier
      draw or pass left there; that binding is not tracked. */
  datatype Setup = Setup(program: Program, texture: Option<Resources.Texture>, uniforms: seq<UniformWrite>)

  /** The divisors of the audio coupling. */
  const AmbientDivisor: real := 70000.0
  const ScaleDivisor: real := 100000.0

  /** The uniform offset `CreateModelMatrix` adds to every scale component. */
  function ScaleOffset(kind: CubeType, amplitude: Sample): (r: real)
    ensures kind != Light ==> r == 0.0
    ensures kind == Light ==> r * ScaleDivisor == amplitude as real
  {
    if kind == Light then amplitude as real / ScaleDivisor else 0.0
  }

  /** `CreateModelMatrix`: translate, scale by scale plus the audio offset,
      rotate. Only the transform and the kind of the cube are read. */
  function ModelOf(c: Cube, amplitude: Sample): (m: Matrix)
    ensures m.ModelMatrix?
    ensures m.position == c.transform.position && m.rotation == c.transform.rotation
    ensures m.scale == c.transform.scale.Plus(Splat(ScaleOffset(c.kind, amplitude)))
  {
    ModelMatrix(c.transform.position, c.transform.scale.Plus(Splat(ScaleOffset(c.kind, amplitude))),
                c.transform.rotation)
  }

  /** The Phong `material.ambient` uniform: ambient plus amplitude/70000 per channel. */
  function PhongAmbient(m: Material, amplitude: Sample): (v: Vec3)
    ensures v.x - m.ambient.x == v.y - m.ambient.y == v.z - m.ambient.z
    ensures (v.x - m.ambient.x) * AmbientDivisor == amplitude as real
  {
    m.ambient.Plus(Splat(amplitude as real / AmbientDivisor))
  }

  /** The uniform names of one light slot. */
  function LightPositionName(i: nat): string {
    "lights[" + NatToString(i) + "].position"
  }

  function LightColorName(i: nat): string {
    "lights[" + NatToString(i) + "].color"
  }

  const LightCountName := "numberOfLights"

  /** Different slots have different uniform names, and a position name is
      never a colour name. */
  lemma LightNamesDistinct(i: nat, j: nat)
    ensures LightPositionName(i) == LightPositionName(j) <==> i == j
    ensures LightColorName(i) == LightColorName(j) <==> i == j
    ensures LightPositionName(i) != LightColorName(j)
  {
    InfixCancel("lights[", NatToString(i), NatToString(j), "].position");
    InfixCancel("lights[", NatToString(i), NatToString(j), "].color");
    NatToStringInjective(i, j);
    var p, c := LightPositionName(i), LightColorName(j);
    assert p[|p| - 1] == 'n' && c[|c| - 1] == 'r';
  }

  /** The loop of `SetLightVarsInShader` from counter `i` over the entries of
      `s`: a position and a colour write per LIGHT cube, and the final counter. */
  function LightWrites(s: Store, i: nat): (r: (seq<UniformWrite>, nat))
    ensures r.1 == i + |OfKind(s, Light)|
    ensures |r.0| == 2 * |OfKind(s, Light)|
  {
    if |s| == 0 then ([], i)
    else if s[0].cube.kind == Light then
      var c := s[0].cube;
      var rest := LightWrites(s[1..], i + 1);
      (LightSlot(i, c) + rest.0, rest.1)
    else LightWrites(s[1..], i)
  }

  /** The two writes of one light slot: its position and its ambient colour. */
  function LightSlot(i: nat, c: Cube): seq<UniformWrite> {
    [Write(LightPositionName(i), VecValue(c.transform.position)), Write(LightColorName(i), VecValue(c.material.ambient))]
  }

  /** Slot k of the loop's output: the k-th LIGHT cube under counter i + k. */
  lemma {:induction false} LightWritesSlot(s: Store, i: nat, k: nat)
    requires k < |OfKind(s, Light)|
    ensures LightWrites(s, i).0[2 * k] == Write(LightPositionName(i + k), VecValue(OfKind(s, Light)[k].transform.position))
    ensures LightWrites(s, i).0[2 * k + 1] == Write(LightColorName(i + k), VecValue(OfKind(s, Light)[k].material.ambient))
    decreases |s|
  {
    var c := s[0].cube;
    var rest := OfKind(s[1..], Light);
    if c.kind == Light {
      var tail := LightWrites(s[1..], i + 1).0;
      var pair := LightSlot(i, c);
      assert LightWrites(s, i).0 == pair + tail;
      assert OfKind(s, Light) == [c] + rest;
      if k > 0 {
        LightWritesSlot(s[1..], i + 1, k - 1);
        PairShift(pair, tail, k);
      }
    } else {
      assert LightWrites(s, i) == LightWrites(s[1..], i);
      assert OfKind(s, Light) == rest;
      LightWritesSlot(s[1..], i, k);
    }
  }

  /** Entries 2k and 2k+1 behind a leading pair are entries 2(k-1) and 2(k-1)+1 of the rest. */
  lemma PairShift<T>(pair: seq<T>, tail: seq<T>, k: nat)
    requires |pair| == 2 && 0 < k && 2 * k + 1 < 2 + |tail|
    ensures (pair + tail)[2 * k] == tail[2 * (k - 1)] && (pair + tail)[2 * k + 1] == tail[2 * (k - 1) + 1]
  {
  }

  lemma LightWritesSlots(s: Store)
    ensures forall k :: 0 <= k < |OfKind(s, Light)| ==>
      LightWrites(s, 0).0[2 * k] == Write(LightPositionName(k), VecValue(OfKind(s, Light)[k].transform.position)) &&
      LightWrites(s, 0).0[2 * k + 1] == Write(LightColorName(k), VecValue(OfKind(s, Light)[k].material.ambient))
  {
    forall k | 0 <= k < |OfKind(s, Light)| {
      LightWritesSlot(s, 0, k);
    }
  }

  /** `SetLightVarsInShader`: slots `lights[0..n-1]` filled with contiguous
      indices, slot k holding the k-th LIGHT cube's position and ambient
      colour, then `numberOfLights` set to n, the number of LIGHT cubes. */
  function LightVars(s: Store): (ws: seq<UniformWrite>)
    ensures |ws| == 2 * |OfKind(s, Light)| + 1
    ensures ws[|ws| - 1] == Write(LightCountName, IntValue(|OfKind(s, Light)|))
    ensures forall k :: 0 <= k < |OfKind(s, Light)| ==>
      ws[2 * k] == Write(LightPositionName(k), VecValue(OfKind(s, Light)[k].transform.position)) &&
      ws[2 * k + 1] == Write(LightColorName(k), VecValue(OfKind(s, Light)[k].material.ambient))
  {
    LightWritesSlots(s);
    var writes := LightWrites(s, 0);
    writes.0 + [Write(LightCountName, IntValue(writes.1))]
  }

  /** The set of uniform names a sequence of writes touches. */
  function Written(ws: seq<UniformWrite>): set<string>
  {
    set i | 0 <= i < |ws| :: ws[i].name
  }

  /** The value a uniform holds after a sequence of writes: the last write to
      that name, if any. */
  function Latest(ws: seq<UniformWrite>, name: string): (r: Option<UniformValue>)
    ensures r.Some? <==> name in Written(ws)
    ensures r.Some? ==> exists i :: 0 <= i < |ws| && ws[i] == Write(name, r.value)
  {
    if |ws| == 0 then None
    else
      var later := Latest(ws[1..], name);
      assert Written(ws) == {ws[0].name} + Written(ws[1..]) by {
        assert forall i :: 0 < i < |ws| ==> ws[i] == ws[1..][i - 1];
      }
      if later.Some? then later
      else if ws[0].name == name then Some(ws[0].value) else None
  }

  /** The later of two write sequences wins. */
  lemma {:induction false} LatestConcat(a: seq<UniformWrite>, b: seq<UniformWrite>, name: string)
    ensures Latest(a + b, name) == if Latest(b, name).Some? then Latest(b, name) else Latest(a, name)
    decreases |a|
  {
    if |a| == 0 {
      assert a + b == b;
    } else {
      assert (a + b)[1..] == a[1..] + b;
      LatestConcat(a[1..], b, name);
    }
  }

  /** One more write changes what its own name reads and nothing else. */
  lemma LatestAppend(ws: seq<UniformWrite>, w: UniformWrite, name: string)
    ensures Latest(ws + [w], name) == if name == w.name then Some(w.value) else Latest(ws, name)
  {
    LatestConcat(ws, [w], name);
    assert [w][1..] == [];
  }

  /** After the light writes, slot k of the light array holds the k-th LIGHT
      cube exactly when k is below the light count, and reading any slot
      beyond the count finds nothing written. */
  lemma LightSlotsHoldLights(s: Store, k: nat)
    ensures k < |OfKind(s, Light)| ==>
      Latest(LightVars(s), LightPositionName(k)) == Some(VecValue(OfKind(s, Light)[k].transform.position)) &&
      Latest(LightVars(s), LightColorName(k)) == Some(VecValue(OfKind(s, Light)[k].material.ambient))
    ensures k >= |OfKind(s, Light)| ==>
      Latest(LightVars(s), LightPositionName(k)) == None && Latest(LightVars(s), LightColorName(k)) == None
    ensures Latest(LightVars(s), LightCountName) == Some(IntValue(|OfKind(s, Light)|))
  {
    var ws := LightVars(s);
    var n := |OfKind(s, Light)|;
    LatestInLightWrites(ws, n, k);
  }

  /** Reading a light slot back out of a write list laid out like `LightVars`. */
  lemma LatestInLightWrites(ws: seq<UniformWrite>, n: nat, k: nat)
    requires |ws| == 2 * n + 1 && ws[2 * n].name == LightCountName
    requires forall j :: 0 <= j < n ==> ws[2 * j].name == LightPositionName(j) && ws[2 * j + 1].name == LightColorName(j)
    ensures k < n ==> Latest(ws, LightPositionName(k)) == Some(ws[2 * k].value)
    ensures k < n ==> Latest(ws, LightColorName(k)) == Some(ws[2 * k + 1].value)
    ensures k >= n ==> Latest(ws, LightPositionName(k)) == None && Latest(ws, LightColorName(k)) == None
    ensures Latest(ws, LightCountName) == Some(ws[2 * n].value)
  {
    LatestPastLast(ws, n, k);
    LatestInPairs(ws, n, k);
  }

  /** A non-empty sequence is its front followed by its last element. */
  lemma SplitLast<T>(s: seq<T>)
    requires |s| > 0
    ensures s == s[..|s| - 1] + [s[|s| - 1]]
  {
  }

  /** The count write at the end is what the count name reads, and it hides
      no slot name. */
  lemma LatestPastLast(ws: seq<UniformWrite>, n: nat, k: nat)
    requires |ws| == 2 * n + 1 && ws[2 * n].name == LightCountName
    ensures Latest(ws, LightCountName) == Some(ws[2 * n].value)
    ensures Latest(ws, LightPositionName(k)) == Latest(ws[..2 * n], LightPositionName(k))
    ensures Latest(ws, LightColorName(k)) == Latest(ws[..2 * n], LightColorName(k))
  {
    var front, last := ws[..2 * n], ws[2 * n];
    SplitLast(ws);
    LatestAppend(front, last, LightCountName);
    LightCountNameDiffers(k);
    LatestAppend(front, last, LightPositionName(k));
    LatestAppend(front, last, LightColorName(k));
  }

  lemma LightCountNameDiffers(k: nat)
    ensures LightPositionName(k) != LightCountName && LightColorName(k) != LightCountName
  {
    var p, c := LightPositionName(k), LightColorName(k);
    assert p[0] == 'l' && c[0] == 'l';
    assert LightCountName[0] == 'n';
  }

  /** The same reading for the slot writes alone, the first 2n writes. */
  lemma {:induction false} LatestInPairs(ws: seq<UniformWrite>, n: nat, k: nat)
    requires 2 * n <= |ws|
    requires forall j :: 0 <= j < n ==> ws[2 * j].name == LightPositionName(j) && ws[2 * j + 1].name == LightColorName(j)
    ensures k < n ==> Latest(ws[..2 * n], LightPositionName(k)) == Some(ws[2 * k].value)
    ensures k < n ==> Latest(ws[..2 * n], LightColorName(k)) == Some(ws[2 * k + 1].value)
    ensures k >= n ==> Latest(ws[..2 * n], LightPositionName(k)) == None && Latest(ws[..2 * n], LightColorName(k)) == None
    decreases n
  {
    if n == 0 {
      assert ws[..0] == [];
    } else {
      var m := n - 1;
      var front, p, c := ws[..2 * m], ws[2 * m], ws[2 * m + 1];
      assert ws[..2 * n] == front + [p] + [c];
      LightNamesDistinct(k, m);
      LightNamesDistinct(m, k);
      LatestAppend(front + [p], c, LightPositionName(k));
      LatestAppend(front + [p], c, LightColorName(k));
      LatestAppend(front, p, LightPositionName(k));
      LatestAppend(front, p, LightColorName(k));
      LatestInPairs(ws, m, k);
    }
  }

  /** The model matrix and the camera matrices every cube program receives. */
  function MatrixWrites(c: Cube, input: FrameInput): seq<UniformWrite>
  {
    [Write("model", MatValue(ModelOf(c, input.amplitude))),
     Write("view", MatValue(ViewMatrix(input.camera))),
     Write("proj", MatValue(Perspective(input.camera.zoom, input.width, input.height)))]
  }

  /** The Phong material block and the eye position, as the PHONG case writes them. */
  function PhongMaterialWrites(m: Material, input: FrameInput): seq<UniformWrite>
  {
    [Write("material.ambient", VecValue(PhongAmbient(m, input.amplitude))),
     Write("material.diffuse", VecValue(m.diffuse)),
     Write("material.specular", VecValue(m.specular)),
     Write("material.shininess", FloatValue(m.shininess)),
     Write("viewPos", VecValue(input.camera.position))]
  }

  /** The PBR factors, as the forward PBR case writes them. */
  function PBRFactorWrites(p: MaterialPBR): seq<UniformWrite>
  {
    [Write("albedo", VecValue(p.albedo)),
     Write("metalness", FloatValue(p.metalness)),
     Write("roughness", FloatValue(p.roughness)),
     Write("ao", FloatValue(p.ao))]
  }

  /** `SetShaderVarsAndUse`: the program `mCubeShaders[kind]` with the uniform
      set its kind calls for. */
  function ForwardSetup(s: Store, c: Cube, input: FrameInput): (r: Setup)
    ensures r.program == CubeProgram(c.kind)
    ensures r.texture.Some? <==> (c.kind == Phong || c.kind == PBR) && c.texture.Some?
    ensures r.texture.Some? ==> r.texture == c.texture
    ensures |r.uniforms| >= 3 && r.uniforms[..3] == MatrixWrites(c, input)
  {
    var base := MatrixWrites(c, input);
    match c.kind
    case Glowy => Setup(CubeProgram(Glowy), None, base + [Write("time", FloatValue(input.time))])
    case Phong =>
      Setup(CubeProgram(Phong), c.texture,
            base + LightVars(s) + PhongMaterialWrites(c.material, input))
    case PBR =>
      Setup(CubeProgram(PBR), c.texture, base + LightVars(s) + PBRFactorWrites(c.materialPBR))
    case Light =>
      Setup(CubeProgram(Light), None, base + [Write("lightColor", VecValue(c.material.ambient))])
  }

  /** GLOWY writes the matrices and the elapsed time, nothing else. */
  lemma GlowyWritesOnlyTime(s: Store, c: Cube, input: FrameInput)
    requires c.kind == Glowy
    ensures Written(ForwardSetup(s, c, input).uniforms) == {"model", "view", "proj", "time"}
    ensures Latest(ForwardSetup(s, c, input).uniforms, "time") == Some(FloatValue(input.time))
  {
    var ws := ForwardSetup(s, c, input).uniforms;
    assert ws[0].name == "model" && ws[1].name == "view" && ws[2].name == "proj" && ws[3].name == "time";
  }

  /** LIGHT writes the matrices and `lightColor = ambient`, nothing else. */
  lemma LightWritesOnlyColor(s: Store, c: Cube, input: FrameInput)
    requires c.kind == Light
    ensures Written(ForwardSetup(s, c, input).uniforms) == {"model", "view", "proj", "lightColor"}
    ensures Latest(ForwardSetup(s, c, input).uniforms, "lightColor") == Some(VecValue(c.material.ambient))
  {
    var ws := ForwardSetup(s, c, input).uniforms;
    assert ws[0].name == "model" && ws[1].name == "view" && ws[2].name == "proj" && ws[3].name == "lightColor";
  }

  /** The Phong material uniforms: ambient offset by the audio sample,
      diffuse, specular and shininess passed through. */
  lemma PhongMaterialUniforms(s: Store, c: Cube, input: FrameInput)
    requires c.kind == Phong
    ensures Latest(ForwardSetup(s, c, input).uniforms, "material.ambient")
            == Some(VecValue(c.material.ambient.Plus(Splat(input.amplitude as real / AmbientDivisor))))
    ensures Latest(ForwardSetup(s, c, input).uniforms, "material.diffuse") == Some(VecValue(c.material.diffuse))
    ensures Latest(ForwardSetup(s, c, input).uniforms, "material.specular") == Some(VecValue(c.material.specular))
    ensures Latest(ForwardSetup(s, c, input).uniforms, "material.shininess") == Some(FloatValue(c.material.shininess))
  {
    var pre := MatrixWrites(c, input) + LightVars(s);
    var tail := PhongMaterialWrites(c.material, input);
    assert ForwardSetup(s, c, input).uniforms == pre + tail;
    assert tail[1..] == tail[1..5] && tail[2..] == tail[2..5] && tail[3..] == tail[3..5] && tail[4..] == [tail[4]];
    LastWriteWins(tail, 0);
    LastWriteWins(tail, 1);
    LastWriteWins(tail, 2);
    LastWriteWins(tail, 3);
    LatestConcat(pre, tail, "material.ambient");
    LatestConcat(pre, tail, "material.diffuse");
    LatestConcat(pre, tail, "material.specular");
    LatestConcat(pre, tail, "material.shininess");
  }

  /** The forward PBR factors: albedo, metalness, roughness and ao read the
      PBR material after the light writes. */
  lemma PBRForwardFactors(s: Store, c: Cube, input: FrameInput)
    requires c.kind == PBR
    ensures Latest(ForwardSetup(s, c, input).uniforms, "albedo") == Some(VecValue(c.materialPBR.albedo))
    ensures Latest(ForwardSetup(s, c, input).uniforms, "metalness") == Some(FloatValue(c.materialPBR.metalness))
    ensures Latest(ForwardSetup(s, c, input).uniforms, "roughness") == Some(FloatValue(c.materialPBR.roughness))
    ensures Latest(ForwardSetup(s, c, input).uniforms, "ao") == Some(FloatValue(c.materialPBR.ao))
  {
    var pre := MatrixWrites(c, input) + LightVars(s);
    var tail := PBRFactorWrites(c.materialPBR);
    assert ForwardSetup(s, c, input).uniforms == pre + tail;
    assert tail[1..] == tail[1..4] && tail[2..] == tail[2..4] && tail[3..] == [tail[3]] && tail[4..] == [];
    LastWriteWins(tail, 0);
    LastWriteWins(tail, 1);
    LastWriteWins(tail, 2);
    LastWriteWins(tail, 3);
    LatestConcat(pre, tail, "albedo");
    LatestConcat(pre, tail, "metalness");
    LatestConcat(pre, tail, "roughness");
    LatestConcat(pre, tail, "ao");
  }

  /** A PHONG or PBR forward draw carries the light list: its material writes
      touch no light slot and not the count, so the slots below the count hold
      the lights in store order, none from the count on, and the count. */
  lemma ForwardLightSlots(s: Store, c: Cube, input: FrameInput, k: nat)
    requires c.kind == Phong || c.kind == PBR
    ensures k < |OfKind(s, Light)| ==>
      Latest(ForwardSetup(s, c, input).uniforms, LightPositionName(k)) == Some(VecValue(OfKind(s, Light)[k].transform.position)) &&
      Latest(ForwardSetup(s, c, input).uniforms, LightColorName(k)) == Some(VecValue(OfKind(s, Light)[k].material.ambient))
    ensures k >= |OfKind(s, Light)| ==>
      Latest(ForwardSetup(s, c, input).uniforms, LightPositionName(k)) == None &&
      Latest(ForwardSetup(s, c, input).uniforms, LightColorName(k)) == None
    ensures Latest(ForwardSetup(s, c, input).uniforms, LightCountName) == Some(IntValue(|OfKind(s, Light)|))
  {
    var base, lights := MatrixWrites(c, input), LightVars(s);
    var tail := if c.kind == Phong then PhongMaterialWrites(c.material, input) else PBRFactorWrites(c.materialPBR);
    assert ForwardSetup(s, c, input).uniforms == (base + lights) + tail;
    MatrixNamesNotLight(c, input);
    TailNamesNotLight(c, input, tail);
    LightSlotsHoldLights(s, k);
    LatestBetween(base, lights, tail, LightPositionName(k));
    LatestBetween(base, lights, tail, LightColorName(k));
    LatestBetween(base, lights, tail, LightCountName);
  }

  /** The matrix writes touch no light name. */
  lemma MatrixNamesNotLight(c: Cube, input: FrameInput)
    ensures ShadingNamesOnly(MatrixWrites(c, input))
  {
    var ws := MatrixWrites(c, input);
    assert ws[0].name == "model" && ws[1].name == "view" && ws[2].name == "proj";
  }

  /** Nor do the Phong and PBR material writes. */
  lemma TailNamesNotLight(c: Cube, input: FrameInput, tail: seq<UniformWrite>)
    requires tail == PhongMaterialWrites(c.material, input) || tail == PBRFactorWrites(c.materialPBR)
    ensures ShadingNamesOnly(tail)
  {
    if tail == PhongMaterialWrites(c.material, input) {
      assert tail[0].name == "material.ambient" && tail[1].name == "material.diffuse" && tail[2].name == "material.specular";
      assert tail[3].name == "material.shininess" && tail[4].name == "viewPos";
    } else {
      assert tail[0].name == "albedo" && tail[1].name == "metalness" && tail[2].name == "roughness" && tail[3].name == "ao";
    }
  }

  /** No name written starts with 'l' or 'n', the first letters of the light
      slot names and of the light count. */
  ghost predicate ShadingNamesOnly(ws: seq<UniformWrite>)
  {
    forall i :: 0 <= i < |ws| ==> |ws[i].name| > 0 && ws[i].name[0] != 'l' && ws[i].name[0] != 'n'
  }

  /** Writes before and after that never touch a light name leave its value to
      the writes in between. */
  lemma LatestBetween(a: seq<UniformWrite>, b: seq<UniformWrite>, c: seq<UniformWrite>, n: string)
    requires ShadingNamesOnly(a) && ShadingNamesOnly(c)
    requires n == LightCountName || exists j: nat :: n == LightPositionName(j) || n == LightColorName(j)
    ensures Latest((a + b) + c, n) == Latest(b, n)
  {
    assert n[0] == 'l' || n[0] == 'n';
    assert n !in Written(a) && n !in Written(c);
    LatestConcat(a + b, c, n);
    LatestConcat(a, b, n);
  }

  /** A write that no later write overrides is the one that holds. */
  lemma LastWriteWins(ws: seq<UniformWrite>, j: nat)
    requires j < |ws| && ws[j].name !in Written(ws[j + 1..])
    ensures Latest(ws, ws[j].name) == Some(ws[j].value)
  {
    assert ws == ws[..j] + ws[j..];
    assert ws[j..][1..] == ws[j + 1..];
    LatestConcat(ws[..j], ws[j..], ws[j].name);
  }

  /** A PBR cube's dispatch reads only the PBR material (the Phong block can be
      anything), and a Phong cube's reads only the Phong material. */
  lemma MaterialBlocksIsolated(s: Store, c: Cube, input: FrameInput, m: Material, p: MaterialPBR)
    ensures c.kind == PBR ==> ForwardSetup(s, c.(material := m), input) == ForwardSetup(s, c, input)
    ensures c.kind == Phong ==> ForwardSetup(s, c.(materialPBR := p), input) == ForwardSetup(s, c, input)
    ensures c.kind == Glowy ==>
      ForwardSetup(s, c.(material := m, materialPBR := p, texture := None), input) == ForwardSetup(s, c, input)
    ensures c.kind == Light ==>
      ForwardSetup(s, c.(material := m.(ambient := c.material.ambient), materialPBR := p, texture := None), input)
      == ForwardSetup(s, c, input)
  {
  }

  /** The PBR factors, as the PBR G-buffer branch writes them. */
  function PBRGBufferWrites(p: MaterialPBR): seq<UniformWrite>
  {
    [Write("albedo", VecValue(p.albedo)),
     Write("roughness", FloatValue(p.roughness)),
     Write("metalness", FloatValue(p.metalness)),
     Write("ao", FloatValue(p.ao))]
  }

  /** `SetVertexShaderVarsForDeferredShadingAndUse`: the G-buffer program of
      the Phong branch for a PHONG cube, the PBR G-buffer program for every
      other kind. */
  function DeferredSetup(c: Cube, input: FrameInput): (r: Setup)
    ensures r.program == (if c.kind == Phong then GBufferProgram else GBufferPBRProgram)
    ensures r.texture.Some? ==> c.kind == Phong && r.texture == c.texture
    ensures |r.uniforms| >= 3 && r.uniforms[..3] == MatrixWrites(c, input)
  {
    var base := MatrixWrites(c, input);
    if c.kind == Phong then
      Setup(GBufferProgram, c.texture,
            base + [Write("diffuse", VecValue(c.material.diffuse)), Write("specular", VecValue(c.material.specular))])
    else
      Setup(GBufferPBRProgram, None, base + PBRGBufferWrites(c.materialPBR))
  }

  /** The PBR G-buffer write reads only the PBR factors and the transform. */
  lemma DeferredPBRReadsOnlyFactors(c: Cube, input: FrameInput, m: Material, t: Option<Resources.Texture>)
    requires c.kind == PBR
    ensures DeferredSetup(c.(material := m, texture := t), input) == DeferredSetup(c, input)
    ensures Latest(DeferredSetup(c, input).uniforms, "albedo") == Some(VecValue(c.materialPBR.albedo))
    ensures Latest(DeferredSetup(c, input).uniforms, "roughness") == Some(FloatValue(c.materialPBR.roughness))
    ensures Latest(DeferredSetup(c, input).uniforms, "metalness") == Some(FloatValue(c.materialPBR.metalness))
    ensures Latest(DeferredSetup(c, input).uniforms, "ao") == Some(FloatValue(c.materialPBR.ao))
  {
    PBRFactorsWritten(c, input);
  }

  /** Every non-PHONG cube's G-buffer write ends with the PBR factors, and
      `albedo`, `roughness`, `metalness` and `ao` read them. */
  lemma PBRFactorsWritten(c: Cube, input: FrameInput)
    requires c.kind != Phong
    ensures Latest(DeferredSetup(c, input).uniforms, "albedo") == Some(VecValue(c.materialPBR.albedo))
    ensures Latest(DeferredSetup(c, input).uniforms, "roughness") == Some(FloatValue(c.materialPBR.roughness))
    ensures Latest(DeferredSetup(c, input).uniforms, "metalness") == Some(FloatValue(c.materialPBR.metalness))
    ensures Latest(DeferredSetup(c, input).uniforms, "ao") == Some(FloatValue(c.materialPBR.ao))
  {
    var base, tail := MatrixWrites(c, input), PBRGBufferWrites(c.materialPBR);
    assert DeferredSetup(c, input).uniforms == base + tail;
    assert tail[1..] == tail[1..4] && tail[2..] == tail[2..4] && tail[3..] == [tail[3]] && tail[4..] == [];
    LastWriteWins(tail, 0);
    LastWriteWins(tail, 1);
    LastWriteWins(tail, 2);
    LastWriteWins(tail, 3);
    LatestConcat(base, tail, "albedo");
    LatestConcat(base, tail, "roughness");
    LatestConcat(base, tail, "metalness");
    LatestConcat(base, tail, "ao");
  }

  /** A Phong cube with ambient 0.2 under an audio sample of 7000 is shaded
      with ambient 0.3. */
  lemma AudioCouplingExample(s: Store, c: Cube, input: FrameInput)
    requires c.kind == Phong && c.material.ambient == Splat(0.2) && input.amplitude == 7000
    ensures Latest(ForwardSetup(s, c, input).uniforms, "material.ambient") == Some(VecValue(Splat(0.3)))
  {
    PhongMaterialUniforms(s, c, input);
  }
}

=== FILE: editor.dfy ===
/** The state-changing rules of the editor panels (Editor.h `Update`), with
    the widgets stripped away: each click or slider becomes one operation on
    the scene store, the editor's own fields, or the renderer settings.
    Every access `cubeDS[mSelectedCube]` indexes the map with `[]` and
    dereferences the result, so an editing operation on a selected name the
    store does not hold fails with a null dereference. */
module Editor {
  import opened Common
  import Resources
  import opened Scene
  import Dispatch
  import Frame
  import Audio

  /** `mCubeTypeMap`: the kind each label of the type list selects. */
  const TypeMap: map<string, CubeType> := map["Phong" := Phong, "PBR" := PBR, "Glowy" := Glowy, "Light" := Light]

  /** Every kind has exactly one label. */
  lemma TypeMapIsBijective()
    ensures TypeMap.Keys == {"Phong", "PBR", "Glowy", "Light"}
    ensures forall k: CubeType :: k in TypeMap.Values
    ensures forall a, b :: a in TypeMap && b in TypeMap && TypeMap[a] == TypeMap[b] ==> a == b
  {
    forall k: CubeType ensures k in TypeMap.Values {
      match k
      case Phong => assert TypeMap["Phong"] == k;
      case PBR => assert TypeMap["PBR"] == k;
      case Glowy => assert TypeMap["Glowy"] == k;
      case Light => assert TypeMap["Light"] == k;
    }
  }

  /** The editor's private fields. */
  datatype EditorState = EditorState(
    selectedCube: string,
    selectedCubeType: string,
    selectedTexture: string,
    selectedTrack: string,
    cubeCount: nat)

  /** The field initialisers: the "PBR Cube" entry is selected, the type label
      "Textured" (which no entry of the type list carries), and the counter 1. */
  const InitialEditor := EditorState("PBR Cube", "Textured", "", "", 1)

  /** The name "+" gives its n-th cube. */
  function CounterName(n: nat): string {
    "Cube " + NatToString(n)
  }

  lemma CounterNameInjective(a: nat, b: nat)
    ensures CounterName(a) == CounterName(b) <==> a == b
  {
    PrefixCancel("Cube ", NatToString(a), NatToString(b));
    NatToStringInjective(a, b);
  }

  /** No name the counter has yet to produce is in the store. */
  ghost predicate CounterAhead(s: Store, count: nat) {
    forall n: nat :: n > count ==> CounterName(n) !in Names(s)
  }

  // ----- the store as a sequence -----

  lemma {:induction false} NameAt(s: Store, i: nat)
    requires i < |s|
    ensures s[i].name in Names(s)
    decreases i
  {
    if i > 0 {
      NameAt(s[1..], i - 1);
    }
  }

  /** In a store without repeated keys, looking up an entry's name finds that entry. */
  lemma {:induction false} LookupAt(s: Store, i: nat)
    requires DistinctNames(s) && i < |s|
    ensures Lookup(s, s[i].name) == Some(s[i].cube)
    decreases i
  {
    if i > 0 {
      NameAt(s[1..], i - 1);
      LookupAt(s[1..], i - 1);
    }
  }

  /** Every cube's selection flag cleared, and nothing else changed. */
  function Deselect(s: Store): (r: Store)
    ensures |r| == |s| && Names(r) == Names(s)
    ensures forall i :: 0 <= i < |s| ==> r[i] == Entry(s[i].name, s[i].cube.(isSelected := false))
    ensures DistinctNames(s) ==> DistinctNames(r)
  {
    if |s| == 0 then [] else [Entry(s[0].name, s[0].cube.(isSelected := false))] + Deselect(s[1..])
  }

  // ----- the cube list -----

  /** Clicking `name` in the cube list: every flag cleared, then the
      clicked cube's flag set; the clicked name becomes the selected one. The
      list offers only names of the store. */
  function SelectCube(s: Store, ed: EditorState, name: string): (r: (Store, EditorState))
    requires DistinctNames(s) && name in Names(s)
    ensures r.1 == ed.(selectedCube := name)
    ensures DistinctNames(r.0) && Names(r.0) == Names(s) && |r.0| == |s|
    ensures forall n :: n in Names(s) ==> Lookup(r.0, n) == Some(Lookup(s, n).value.(isSelected := n == name))
  {
    var cleared := Deselect(s);
    var r := Replace(cleared, name, Lookup(cleared, name).value.(isSelected := true));
    forall n | n in Names(s)
      ensures Lookup(r, n) == Some(Lookup(s, n).value.(isSelected := n == name))
    {
      DeselectLookup(s, n);
    }
    (r, ed.(selectedCube := name))
  }

  lemma DeselectLookup(s: Store, n: string)
    requires DistinctNames(s) && n in Names(s)
    ensures Lookup(Deselect(s), n) == Some(Lookup(s, n).value.(isSelected := false))
  {
    var i :| 0 <= i < |s| && s[i].name == n by {
      NameIndex(s, n);
    }
    LookupAt(s, i);
    LookupAt(Deselect(s), i);
  }

  lemma {:induction false} NameIndex(s: Store, n: string)
    requires n in Names(s)
    ensures exists i :: 0 <= i < |s| && s[i].name == n
  {
    if s[0].name != n {
      NameIndex(s[1..], n);
      var j :| 0 <= j < |s[1..]| && s[1..][j].name == n;
      assert s[j + 1].name == n;
    }
  }

  /** The selection flags agree with the editor's selected name. */
  predicate SelectionAgrees(s: Store, ed: EditorState) {
    forall i :: 0 <= i < |s| ==> (s[i].cube.isSelected <==> s[i].name == ed.selectedCube)
  }

  /** After a click exactly the clicked cube is selected, the editor's
      selected name agrees with the flags, and some cube is selected. */
  lemma SelectExactlyOne(s: Store, ed: EditorState, name: string)
    requires DistinctNames(s) && name in Names(s)
    ensures SelectionAgrees(SelectCube(s, ed, name).0, SelectCube(s, ed, name).1)
    ensures AnySelected(SelectCube(s, ed, name).0)
  {
    var (r, e) := SelectCube(s, ed, name);
    forall i | 0 <= i < |r|
      ensures r[i].cube.isSelected <==> r[i].name == name
    {
      NameAt(r, i);
      LookupAt(r, i);
    }
    var j :| 0 <= j < |r| && r[j].name == name by {
      NameIndex(r, name);
    }
  }

  // ----- the "+" button -----

  /** "+": the counter goes up first, and a new PHONG cube is stored under
      "Cube " and the new counter value. */
  function AddNewCube(s: Store, ed: EditorState, rm: Resources.ResourceManager): (r: (Store, EditorState))
    requires DistinctNames(s)
    ensures r.1 == ed.(cubeCount := ed.cubeCount + 1)
    ensures DistinctNames(r.0) && Names(r.0) == Names(s) + {CounterName(r.1.cubeCount)}
    ensures Lookup(r.0, CounterName(r.1.cubeCount)) == Some(NewCube(rm, Phong))
    ensures forall n :: n != CounterName(r.1.cubeCount) ==> Lookup(r.0, n) == Lookup(s, n)
  {
    var count := ed.cubeCount + 1;
    (AddCube(s, CounterName(count), NewCube(rm, Phong)), ed.(cubeCount := count))
  }

  /** While the counter is ahead of the store's names, "+" always adds a
      fresh entry (it never overwrites) and the counter stays ahead. */
  lemma AddNewCubeIsFresh(s: Store, ed: EditorState, rm: Resources.ResourceManager)
    requires DistinctNames(s) && CounterAhead(s, ed.cubeCount)
    ensures CounterName(ed.cubeCount + 1) !in Names(s)
    ensures |AddNewCube(s, ed, rm).0| == |s| + 1
    ensures CounterAhead(AddNewCube(s, ed, rm).0, AddNewCube(s, ed, rm).1.cubeCount)
  {
    var r := AddNewCube(s, ed, rm);
    forall n: nat | n > ed.cubeCount + 1
      ensures CounterName(n) !in Names(r.0)
    {
      CounterNameInjective(n, ed.cubeCount + 1);
    }
  }

  /** The first "+" of a session names its cube "Cube 2". */
  lemma FirstAddedName(s: Store, rm: Resources.ResourceManager)
    requires DistinctNames(s)
    ensures AddNewCube(s, InitialEditor, rm).1.cubeCount == 2
    ensures Lookup(AddNewCube(s, InitialEditor, rm).0, "Cube 2") == Some(NewCube(rm, Phong))
  {
    assert NatToString(2) == "2";
  }

  /** The names counter values `count + 1` to `count + k` give. */
  function CounterNames(count: nat, k: nat): set<string>
    decreases k
  {
    if k == 0 then {} else {CounterName(count + 1)} + CounterNames(count + 1, k - 1)
  }

  /** k presses of "+". While the counter is ahead of the store's names,
      they add k entries under k distinct new names, keep every existing
      entry, and leave the counter ahead. */
  function AddMany(s: Store, ed: EditorState, rm: Resources.ResourceManager, k: nat): (r: (Store, EditorState))
    requires DistinctNames(s)
    ensures DistinctNames(r.0)
    ensures r.1 == ed.(cubeCount := ed.cubeCount + k)
    ensures Names(r.0) == Names(s) + CounterNames(ed.cubeCount, k)
    ensures CounterAhead(s, ed.cubeCount) ==>
      |r.0| == |s| + k && CounterAhead(r.0, ed.cubeCount + k)
    decreases k
  {
    if k == 0 then (s, ed)
    else
      var next := AddNewCube(s, ed, rm);
      AddStep(s, ed, rm);
      AddMany(next.0, next.1, rm, k - 1)
  }

  /** The k names still to come are k distinct names, none of them in a
      store the counter is ahead of. */
  lemma {:induction false} CounterNamesFresh(s: Store, count: nat, k: nat)
    requires CounterAhead(s, count)
    ensures Names(s) !! CounterNames(count, k)
    ensures |CounterNames(count, k)| == k
    decreases k
  {
    if k > 0 {
      CounterNamesFresh(s, count + 1, k - 1);
      CounterNamesAbove(count + 1, k - 1, count + 1);
    }
  }

  lemma {:induction false} CounterNamesAbove(count: nat, k: nat, n: nat)
    requires n <= count
    ensures CounterName(n) !in CounterNames(count, k)
    decreases k
  {
    if k > 0 {
      CounterNameInjective(n, count + 1);
      CounterNamesAbove(count + 1, k - 1, n);
    }
  }

  lemma AddStep(s: Store, ed: EditorState, rm: Resources.ResourceManager)
    requires DistinctNames(s)
    ensures CounterAhead(s, ed.cubeCount) ==>
      CounterName(ed.cubeCount + 1) !in Names(s) &&
      |AddNewCube(s, ed, rm).0| == |s| + 1 &&
      CounterAhead(AddNewCube(s, ed, rm).0, ed.cubeCount + 1)
  {
    if CounterAhead(s, ed.cubeCount) {
      AddNewCubeIsFresh(s, ed, rm);
    }
  }

  // ----- the properties panel -----

  /** Clicking a label of the type list: the label is remembered and the
      selected cube takes that label's kind. The list offers only the map's
      labels. */
  function ChooseType(s: Store, ed: EditorState, typeName: string): (r: Result<(Store, EditorState)>)
    requires DistinctNames(s) && typeName in TypeMap
    ensures r.Fail? <==> ed.selectedCube !in Names(s)
    ensures r.Fail? ==> r.fault == NullDereference
    ensures r.Ok? ==> r.value.1 == ed.(selectedCubeType := typeName)
    ensures r.Ok? ==> DistinctNames(r.value.0) && Names(r.value.0) == Names(s)
    ensures r.Ok? ==> Lookup(r.value.0, ed.selectedCube) == Some(Lookup(s, ed.selectedCube).value.(kind := TypeMap[typeName]))
    ensures r.Ok? ==> forall n :: n != ed.selectedCube ==> Lookup(r.value.0, n) == Lookup(s, n)
  {
    var c :- Selected(s, ed);
    Ok((Replace(s, ed.selectedCube, c.(kind := TypeMap[typeName])), ed.(selectedCubeType := typeName)))
  }

  /** `cubeDS[mSelectedCube]` dereferenced. */
  function Selected(s: Store, ed: EditorState): (r: Result<Cube>)
    ensures r.Fail? <==> ed.selectedCube !in Names(s)
    ensures r.Fail? ==> r.fault == NullDereference
    ensures r.Ok? ==> Lookup(s, ed.selectedCube) == Some(r.value)
  {
    match Lookup(s, ed.selectedCube)
    case None => Fail(NullDereference)
    case Some(c) => Ok(c)
  }

  /** Clicking a texture name: the texture list is shown only for a PHONG
      cube, and then the selected cube gets the looked-up texture (null when
      the name is not registered). */
  function ChooseTexture(s: Store, ed: EditorState, rm: Resources.ResourceManager, texName: string): (r: Result<(Store, EditorState)>)
    requires DistinctNames(s)
    ensures r.Fail? <==> ed.selectedCube !in Names(s)
    ensures r.Fail? ==> r.fault == NullDereference
    ensures r.Ok? && Lookup(s, ed.selectedCube).value.kind != Phong ==> r.value == (s, ed)
    ensures r.Ok? && Lookup(s, ed.selectedCube).value.kind == Phong ==>
      r.value.1 == ed.(selectedTexture := texName) &&
      DistinctNames(r.value.0) && Names(r.value.0) == Names(s) &&
      Lookup(r.value.0, ed.selectedCube) == Some(Lookup(s, ed.selectedCube).value.(texture := Resources.GetTexture(rm, texName))) &&
      forall n :: n != ed.selectedCube ==> Lookup(r.value.0, n) == Lookup(s, n)
  {
    var c :- Selected(s, ed);
    if c.kind != Phong then Ok((s, ed))
    else Ok((SetTextureForCube(s, Resources.GetTexture(rm, texName), ed.selectedCube), ed.(selectedTexture := texName)))
  }

  /** The position, scale and rotation sliders write the selected cube's transform. */
  function EditTransform(s: Store, ed: EditorState, t: Transform): (r: Result<Store>)
    requires DistinctNames(s)
    ensures r.Fail? <==> ed.selectedCube !in Names(s)
    ensures r.Fail? ==> r.fault == NullDereference
    ensures r.Ok? ==> DistinctNames(r.value) && Names(r.value) == Names(s)
    ensures r.Ok? ==> Lookup(r.value, ed.selectedCube) == Some(Lookup(s, ed.selectedCube).value.(transform := t))
    ensures r.Ok? ==> forall n :: n != ed.selectedCube ==> Lookup(r.value, n) == Lookup(s, n)
  {
    var c :- Selected(s, ed);
    Ok(Replace(s, ed.selectedCube, c.(transform := t)))
  }

  /** The material sliders: a PHONG cube shows the whole Phong block, a PBR
      cube the whole PBR block, and any other kind only the ambient colour.
      `m` and `p` are the values the shown sliders hold. */
  function EditMaterial(s: Store, ed: EditorState, m: Material, p: MaterialPBR): (r: Result<Store>)
    requires DistinctNames(s)
    ensures r.Fail? <==> ed.selectedCube !in Names(s)
    ensures r.Fail? ==> r.fault == NullDereference
    ensures r.Ok? ==> DistinctNames(r.value) && Names(r.value) == Names(s)
    ensures r.Ok? ==> forall n :: n != ed.selectedCube ==> Lookup(r.value, n) == Lookup(s, n)
    ensures r.Ok? ==> var c, c' := Lookup(s, ed.selectedCube).value, Lookup(r.value, ed.selectedCube).value;
      c'.kind == c.kind && c'.transform == c.transform && c'.texture == c.texture && c'.isSelected == c.isSelected &&
      (c.kind == Phong ==> c'.material == m && c'.materialPBR == c.materialPBR) &&
      (c.kind == PBR ==> c'.material == c.material && c'.materialPBR == p) &&
      (c.kind != Phong && c.kind != PBR ==> c'.material == c.material.(ambient := m.ambient) && c'.materialPBR == c.materialPBR)
  {
    var c :- Selected(s, ed);
    var edited :=
      if c.kind == Phong then c.(material := m)
      else if c.kind == PBR then c.(materialPBR := p)
      else c.(material := c.material.(ambient := m.ambient));
    Ok(Replace(s, ed.selectedCube, edited))
  }

  /** What a material edit changes on screen, in the selected cube's next
      draw: a PHONG cube's forward draw reads the edited Phong block (the
      ambient colour offset by the audio sample; deferred frames draw no
      PHONG cube); a PBR cube's forward and G-buffer draws read the edited
      PBR factors; a LIGHT cube's light colour is the
      edited ambient colour; a GLOWY cube's shader reads no material, so its
      edit is invisible. */
  lemma MaterialEditReachesShader(s: Store, ed: EditorState, m: Material, p: MaterialPBR, input: Dispatch.FrameInput)
    requires DistinctNames(s) && ed.selectedCube in Names(s)
    ensures var c, c' := Lookup(s, ed.selectedCube).value, Lookup(EditMaterial(s, ed, m, p).value, ed.selectedCube).value;
      var fw := Dispatch.ForwardSetup(s, c', input).uniforms;
      c.kind == Phong ==>
        Dispatch.Latest(fw, "material.ambient") == Some(Dispatch.VecValue(Dispatch.PhongAmbient(m, input.amplitude))) &&
        Dispatch.Latest(fw, "material.diffuse") == Some(Dispatch.VecValue(m.diffuse)) &&
        Dispatch.Latest(fw, "material.specular") == Some(Dispatch.VecValue(m.specular)) &&
        Dispatch.Latest(fw, "material.shininess") == Some(Dispatch.FloatValue(m.shininess))
    ensures var c, c' := Lookup(s, ed.selectedCube).value, Lookup(EditMaterial(s, ed, m, p).value, ed.selectedCube).value;
      var fw := Dispatch.ForwardSetup(s, c', input).uniforms;
      c.kind == PBR ==>
        Dispatch.Latest(fw, "albedo") == Some(Dispatch.VecValue(p.albedo)) &&
        Dispatch.Latest(fw, "metalness") == Some(Dispatch.FloatValue(p.metalness)) &&
        Dispatch.Latest(fw, "roughness") == Some(Dispatch.FloatValue(p.roughness)) &&
        Dispatch.Latest(fw, "ao") == Some(Dispatch.FloatValue(p.ao)) &&
        Dispatch.Latest(Dispatch.DeferredSetup(c', input).uniforms, "albedo") == Some(Dispatch.VecValue(p.albedo)) &&
        Dispatch.Latest(Dispatch.DeferredSetup(c', input).uniforms, "roughness") == Some(Dispatch.FloatValue(p.roughness)) &&
        Dispatch.Latest(Dispatch.DeferredSetup(c', input).uniforms, "metalness") == Some(Dispatch.FloatValue(p.metalness)) &&
        Dispatch.Latest(Dispatch.DeferredSetup(c', input).uniforms, "ao") == Some(Dispatch.FloatValue(p.ao))
    ensures var c, c' := Lookup(s, ed.selectedCube).value, Lookup(EditMaterial(s, ed, m, p).value, ed.selectedCube).value;
      (c.kind == Glowy ==> Dispatch.ForwardSetup(s, c', input) == Dispatch.ForwardSetup(s, c, input)) &&
      (c.kind == Light ==> Dispatch.Latest(Dispatch.ForwardSetup(s, c', input).uniforms, "lightColor") == Some(Dispatch.VecValue(m.ambient)))
  {
    var c, c' := Lookup(s, ed.selectedCube).value, Lookup(EditMaterial(s, ed, m, p).value, ed.selectedCube).value;
    if c.kind == Glowy {
      Dispatch.MaterialBlocksIsolated(s, c, input, c'.material, c'.materialPBR);
      Dispatch.MaterialBlocksIsolated(s, c', input, c.material, c.materialPBR);
      assert c' == c.(material := c'.material);
    } else if c.kind == Light {
      Dispatch.LightWritesOnlyColor(s, c', input);
    } else if c.kind == PBR {
      Dispatch.PBRForwardFactors(s, c', input);
      Dispatch.DeferredPBRReadsOnlyFactors(c', input, c'.material, c'.texture);
    } else {
      Dispatch.PhongMaterialUniforms(s, c', input);
    }
  }

  /** The material block the properties panel shows for a kind. */
  datatype MaterialBlock = PhongBlock | PBRBlock | AmbientOnly

  /** What the properties panel shows below the type list: whether the
      texture list is offered, the transform the sliders hold, and the
      material block. */
  datatype Panel = Panel(textureList: bool, transform: Transform, block: MaterialBlock)

  /** The properties panel as drawn on every frame, whether or not a widget
      is touched: the texture-list test, the three transform sliders and the
      material-block test each read `cubeDS[mSelectedCube]`, so with the
      selected name missing the panel dereferences the null that `[]`
      inserts, on the first frame already. */
  function PropertiesPanel(s: Store, ed: EditorState): (r: Result<Panel>)
    ensures r.Fail? <==> ed.selectedCube !in Names(s)
    ensures r.Fail? ==> r.fault == NullDereference
    ensures r.Ok? ==> var c := Lookup(s, ed.selectedCube).value;
      (r.value.textureList <==> c.kind == Phong) && r.value.transform == c.transform &&
      (r.value.block == PhongBlock <==> c.kind == Phong) && (r.value.block == PBRBlock <==> c.kind == PBR)
  {
    var c :- Selected(s, ed);
    Ok(Panel(c.kind == Phong, c.transform,
             if c.kind == Phong then PhongBlock else if c.kind == PBR then PBRBlock else AmbientOnly))
  }

  /** An editing operation on the selected cube fails exactly on the frames
      whose panel fails: the widgets it comes from are drawn only by a panel
      that read the selected cube. */
  lemma PanelGuardsEdits(s: Store, ed: EditorState, rm: Resources.ResourceManager, typeName: string, texName: string,
                         t: Transform, m: Material, p: MaterialPBR)
    requires DistinctNames(s) && typeName in TypeMap
    ensures PropertiesPanel(s, ed).Fail? <==> ChooseType(s, ed, typeName).Fail?
    ensures PropertiesPanel(s, ed).Fail? <==> ChooseTexture(s, ed, rm, texName).Fail?
    ensures PropertiesPanel(s, ed).Fail? <==> EditTransform(s, ed, t).Fail?
    ensures PropertiesPanel(s, ed).Fail? <==> EditMaterial(s, ed, m, p).Fail?
  {
  }

  /** At start-up the selected name is "PBR Cube": the first frame's panel,
      and every editing operation, fails with a null dereference exactly
      when the store holds no entry of that name. The type label starts as
      one the type list does not carry. */
  lemma InitialSelectionNeedsPBRCube(s: Store, rm: Resources.ResourceManager, typeName: string, texName: string, t: Transform)
    requires DistinctNames(s) && typeName in TypeMap
    ensures "PBR Cube" !in Names(s) <==> PropertiesPanel(s, InitialEditor).Fail?
    ensures "PBR Cube" !in Names(s) <==> ChooseType(s, InitialEditor, typeName).Fail?
    ensures "PBR Cube" !in Names(s) <==> ChooseTexture(s, InitialEditor, rm, texName).Fail?
    ensures "PBR Cube" !in Names(s) <==> EditTransform(s, InitialEditor, t).Fail?
    ensures InitialEditor.selectedCubeType !in TypeMap
  {
  }

  // ----- the filter, sky, HDR and deferred-shading panels -----

  /** One widget of the remaining panels, with the value it writes. */
  datatype SettingsEdit =
    | SetSaturation(saturation: real)
    | SetBlur(blur: real)
    | SetOutline(outline: real)
    | SetInvert(invert: bool)
    | SetSkybox(skyboxOn: bool)
    | SetHDR(hdrOn: bool)
    | SetExposure(exposure: real)
    | SetDeferred(deferredOn: bool)

  /** The widget writes the renderer's public field directly. */
  function ApplySettingsEdit(settings: Frame.Settings, e: SettingsEdit): (r: Frame.Settings)
  {
    match e
    case SetSaturation(v) => settings.(filters := settings.filters.(saturation := v))
    case SetBlur(v) => settings.(filters := settings.filters.(blur := v))
    case SetOutline(v) => settings.(filters := settings.filters.(outline := v))
    case SetInvert(b) => settings.(filters := settings.filters.(invert := b))
    case SetSkybox(b) => settings.(skyboxOn := b)
    case SetHDR(b) => settings.(hdrOn := b)
    case SetExposure(v) => settings.(exposure := v)
    case SetDeferred(b) => settings.(deferredOn := b)
  }

  /** The next frame reads each edited value: the filter and HDR values
      reach the post-processing uniforms, the sky switch decides whether the
      sky is drawn, and the deferred switch chooses the deferred or the
      forward scene pass and whether the outline pass runs; a filter or HDR edit leaves the scene passes as they were. */
  lemma SettingsEditReachesFrame(s: Store, settings: Frame.Settings, e: SettingsEdit, input: Dispatch.FrameInput)
    ensures var r := ApplySettingsEdit(settings, e);
      (e.SetSaturation? ==> Dispatch.Latest(Frame.FilterQuad(r).uniforms, "t_saturation") == Some(Dispatch.FloatValue(e.saturation))) &&
      (e.SetBlur? ==> Dispatch.Latest(Frame.FilterQuad(r).uniforms, "t_blur") == Some(Dispatch.FloatValue(e.blur))) &&
      (e.SetOutline? ==> Dispatch.Latest(Frame.FilterQuad(r).uniforms, "t_outline") == Some(Dispatch.FloatValue(e.outline))) &&
      (e.SetInvert? ==> Dispatch.Latest(Frame.FilterQuad(r).uniforms, "t_invert") == Some(Dispatch.IntValue(if e.invert then 1 else 0))) &&
      (e.SetHDR? ==> Dispatch.Latest(Frame.ToneMapQuad(r).uniforms, "hdrOn") == Some(Dispatch.IntValue(if e.hdrOn then 1 else 0))) &&
      (e.SetExposure? ==> Dispatch.Latest(Frame.ToneMapQuad(r).uniforms, "exposure") == Some(Dispatch.FloatValue(e.exposure)))
    ensures var r := ApplySettingsEdit(settings, e);
      (e.SetSkybox? ==> |Frame.SkyStage(r, input)| == if e.skyboxOn then 6 else 1) &&
      (e.SetDeferred? ==> (|Frame.OutlineStage(s, r, input)| == 1 <==> e.deferredOn)) &&
      (e.SetDeferred? ==>
         Frame.ScenePasses(s, r, input) == (if e.deferredOn then Frame.DeferredPass(s, input) else Frame.ForwardPass(s, input)))
    ensures !e.SetSkybox? && !e.SetDeferred? ==>
      Frame.ScenePasses(s, ApplySettingsEdit(settings, e), input) == Frame.ScenePasses(s, settings, input) &&
      Frame.SkyStage(ApplySettingsEdit(settings, e), input) == Frame.SkyStage(settings, input)
  {
    Frame.PostUniforms(ApplySettingsEdit(settings, e));
  }

  // ----- the audio panel -----

  /** Clicking a track name: it is remembered and made the current song. The
      list offers only the player's track names, so the lookup never inserts
      and the sound started is that track's file. */
  function ChooseTrack(ed: EditorState, p: Audio.Player, name: string, playable: set<string>): (r: (EditorState, Audio.Player))
    requires name in p.songs
    ensures r.0 == ed.(selectedTrack := name)
    ensures r.1.songs == p.songs && r.1.currentPath == p.songs[name]
    ensures r.1.current.Some? <==> p.songs[name] in playable
  {
    (ed.(selectedTrack := name), Audio.SetCurrentSong(p, name, playable))
  }
}

=== FILE: frame.dfy ===
/** `Renderer::Draw` as a pure function from the scene, the renderer's public
    settings and the per-frame input to the sequence of GL commands it issues,
    together with the slice of GL state those commands change, so that each
    draw can be checked against the state it runs under.

    The frame is built from fixed segments: the prologue; the deferred or the
    forward scene pass; the outline pass (forward only); the skybox pass; the
    tone-mapping and filter passes. Shader `Use` calls and uniform writes are
    folded into the draw they serve (a `Setup` for shape draws, a uniform list
    for full-screen draws). */
module Frame {
  import opened Common
  import opened Scene
  import opened Dispatch
  import opened Targets
  import SphereMesh

  /** `Renderer::ImageFilters`. */
  datatype ImageFilters = ImageFilters(saturation: real, blur: real, outline: real, invert: bool)

  /** The public fields the editor writes and `Draw` reads. */
  datatype Settings = Settings(filters: ImageFilters, skyboxOn: bool, exposure: real, hdrOn: bool, deferredOn: bool)

  /** The values the constructor gives them. */
  const DefaultSettings := Settings(ImageFilters(1.0, 0.0, 0.0, false), true, 1.0, false, true)

  /** The outline colour and thickness of a selected shape. */
  const OutlineColor := Vec3(10.0, 10.0, 0.0)
  const OutlineThickness: real := 0.03

  /** The grey level of `glClearColor(0.1, 0.1, 0.1, 1.0)`. */
  const ClearGray: real := 0.1

  /** Vertex arrays: the sphere mesh (all shapes), the cube mesh (bound
      before the skybox pass), the screen quad, the skybox cube, and 0. */
  datatype Vao = NoVao | SphereVao | CubeVao | QuadVao | SkyVao

  datatype StencilTest = Always | NotEqual
  datatype DepthTest = Less | LessOrEqual

  /** A texture a full-screen or skybox draw samples. */
  datatype TextureSource = GBufferColor(slot: nat) | HDRColor | PostColor | SkyboxCubemap

  datatype Command =
    | EnableDepthTest
    | DisableDepthTest
    | BindTarget(target: Target)
    | ClearColor(gray: real)
    | Clear(color: bool, depth: bool, stencil: bool)
    | BindVertexArray(vao: Vao)
    | StencilFunc(test: StencilTest, ref: int, mask: int)
    | StencilMask(writeMask: int)
    | DepthFunc(func: DepthTest)
    | BlitDepth(source: Target, dest: Target, width: int, height: int)
    /** `glDrawElements(GL_TRIANGLE_STRIP, indexCount, ...)` for one shape. */
    | DrawShape(name: string, setup: Setup, indexCount: nat)
    /** `glDrawArrays(GL_TRIANGLES, 0, vertexCount)` with a program, its
        textures by unit, and its uniforms. */
    | DrawArrays(program: Program, textures: seq<TextureSource>, uniforms: seq<UniformWrite>, vertexCount: nat)

  // ----- GL state -----

  /** The part of the GL context the frame changes that the model tracks.
      Texture-unit bindings and the stencil test's enable flag and operation
      (set once by the constructor) are not part of it. */
  datatype GLState = GLState(
    target: Target, vao: Vao, depthTest: bool, depthFunc: DepthTest,
    stencilTest: StencilTest, stencilRef: int, stencilReadMask: int, stencilWriteMask: int,
    clearGray: real)

  function Step(st: GLState, c: Command): GLState
  {
    match c
    case EnableDepthTest => st.(depthTest := true)
    case DisableDepthTest => st.(depthTest := false)
    case BindTarget(t) => st.(target := t)
    case ClearColor(g) => st.(clearGray := g)
    case BindVertexArray(v) => st.(vao := v)
    case StencilFunc(t, r, m) => st.(stencilTest := t, stencilRef := r, stencilReadMask := m)
    case StencilMask(m) => st.(stencilWriteMask := m)
    case DepthFunc(f) => st.(depthFunc := f)
    case BlitDepth(_, dst, _, _) => st.(target := dst)
    case _ => st
  }

  /** The state after a command sequence. */
  function Run(st: GLState, cmds: seq<Command>): GLState
    decreases |cmds|
  {
    if |cmds| == 0 then st else Run(Step(st, cmds[0]), cmds[1..])
  }

  /** A draw or blit together with the state it executes under. */
  datatype Event = Event(command: Command, state: GLState)

  predicate IsEvent(c: Command) {
    c.DrawShape? || c.DrawArrays? || c.BlitDepth?
  }

  /** The draws and blits of a command sequence, each with its state. */
  function Observed(st: GLState, cmds: seq<Command>): seq<Event>
    decreases |cmds|
  {
    if |cmds| == 0 then []
    else (if IsEvent(cmds[0]) then [Event(cmds[0], st)] else []) + Observed(Step(st, cmds[0]), cmds[1..])
  }

  /** Running two sequences one after the other. */
  lemma {:induction false} RunConcat(st: GLState, a: seq<Command>, b: seq<Command>)
    ensures Run(st, a + b) == Run(Run(st, a), b)
    ensures Observed(st, a + b) == Observed(st, a) + Observed(Run(st, a), b)
    decreases |a|
  {
    if |a| == 0 {
      assert a + b == b;
    } else {
      assert (a + b)[1..] == a[1..] + b;
      RunConcat(Step(st, a[0]), a[1..], b);
    }
  }

  /** The events one command contributes. */
  function EventOf(st: GLState, c: Command): seq<Event> {
    if IsEvent(c) then [Event(c, st)] else []
  }

  /** Running a short literal sequence, command by command. */
  lemma RunThree(st: GLState, a: Command, b: Command, c: Command)
    ensures Run(st, [a, b, c]) == Step(Step(Step(st, a), b), c)
    ensures Observed(st, [a, b, c]) ==
      EventOf(st, a) + EventOf(Step(st, a), b) + EventOf(Step(Step(st, a), b), c)
  {
    var s1 := Step(st, a);
    ConsThree(a, b, c);
    RunCons(st, a, [b, c]);
    RunTwo(s1, b, c);
    Assoc(EventOf(st, a), EventOf(s1, b), EventOf(Step(s1, b), c));
  }

  lemma RunTwo(st: GLState, a: Command, b: Command)
    ensures Run(st, [a, b]) == Step(Step(st, a), b)
    ensures Observed(st, [a, b]) == EventOf(st, a) + EventOf(Step(st, a), b)
  {
    assert [a, b][1..] == [b];
    assert [b][1..] == [];
    assert Run(Step(st, a), [b]) == Step(Step(st, a), b);
    assert Observed(Step(st, a), [b]) == EventOf(Step(st, a), b);
  }

  lemma RunFour(st: GLState, a: Command, b: Command, c: Command, d: Command)
    ensures Run(st, [a, b, c, d]) == Step(Step(Step(Step(st, a), b), c), d)
    ensures Observed(st, [a, b, c, d]) ==
      EventOf(st, a) + EventOf(Step(st, a), b) + EventOf(Step(Step(st, a), b), c)
      + EventOf(Step(Step(Step(st, a), b), c), d)
  {
    var s1 := Step(st, a);
    ConsFour(a, b, c, d);
    RunCons(st, a, [b, c, d]);
    RunThree(s1, b, c, d);
    var e0, e1, e2 := EventOf(st, a), EventOf(s1, b), EventOf(Step(s1, b), c);
    Assoc(e0, e1 + e2, EventOf(Step(Step(s1, b), c), d));
    Assoc(e0, e1, e2);
  }

  lemma RunCons(st: GLState, c: Command, rest: seq<Command>)
    ensures Run(st, [c] + rest) == Run(Step(st, c), rest)
    ensures Observed(st, [c] + rest) == EventOf(st, c) + Observed(Step(st, c), rest)
  {
    assert ([c] + rest)[1..] == rest;
  }

  lemma RunFive(st: GLState, a: Command, b: Command, c: Command, d: Command, e: Command)
    ensures Run(st, [a, b, c, d, e]) == Step(Step(Step(Step(Step(st, a), b), c), d), e)
    ensures Observed(st, [a, b, c, d, e]) ==
      EventOf(st, a) + EventOf(Step(st, a), b) + EventOf(Step(Step(st, a), b), c)
      + EventOf(Step(Step(Step(st, a), b), c), d) + EventOf(Step(Step(Step(Step(st, a), b), c), d), e)
  {
    var s1 := Step(st, a);
    ConsFive(a, b, c, d, e);
    RunCons(st, a, [b, c, d, e]);
    RunFour(s1, b, c, d, e);
    var e0, e1, e2, e3 := EventOf(st, a), EventOf(s1, b), EventOf(Step(s1, b), c), EventOf(Step(Step(s1, b), c), d);
    Assoc(e0, e1 + e2 + e3, EventOf(Step(Step(Step(s1, b), c), d), e));
    Assoc(e0, e1 + e2, e3);
    Assoc(e0, e1, e2);
  }

  lemma ObservedThree(st: GLState, a: seq<Command>, b: seq<Command>, c: seq<Command>)
    ensures Observed(st, a + (b + c)) == Observed(st, a) + Observed(Run(st, a), b) + Observed(Run(Run(st, a), b), c)
  {
    RunConcat(st, a, b + c);
    RunConcat(Run(st, a), b, c);
  }

  lemma Assoc<T>(a: seq<T>, b: seq<T>, c: seq<T>)
    ensures a + (b + c) == a + b + c
  {
  }

  lemma ConsTwo<T>(a: T, b: T)
    ensures [a, b] == [a] + [b]
  {
  }

  lemma ConsThree<T>(a: T, b: T, c: T)
    ensures [a, b, c] == [a] + [b, c]
  {
  }

  lemma ConsFour<T>(a: T, b: T, c: T, d: T)
    ensures [a, b, c, d] == [a] + [b, c, d]
  {
  }

  lemma ConsFive<T>(a: T, b: T, c: T, d: T, e: T)
    ensures [a, b, c, d, e] == [a] + [b, c, d, e]
  {
  }

  lemma AppendNothing<T>(a: seq<T>)
    ensures a + [] == a
  {
  }

  lemma ConcatIndex<T>(a: seq<T>, b: seq<T>, c: seq<T>)
    ensures forall i :: 0 <= i < |a| ==> (a + b + c)[i] == a[i]
    ensures forall i :: |a| <= i < |a| + |b| ==> (a + b + c)[i] == b[i - |a|]
  {
  }

  /** Shape draws change no state. */
  predicate ShapeDrawsOnly(cmds: seq<Command>) {
    forall i :: 0 <= i < |cmds| ==> cmds[i].DrawShape?
  }

  lemma {:induction false} ShapeDrawsKeepState(st: GLState, cmds: seq<Command>)
    requires ShapeDrawsOnly(cmds)
    ensures Run(st, cmds) == st
    ensures |Observed(st, cmds)| == |cmds|
    ensures forall i :: 0 <= i < |cmds| ==> Observed(st, cmds)[i] == Event(cmds[i], st)
    decreases |cmds|
  {
    if |cmds| > 0 {
      ShapeDrawsKeepState(st, cmds[1..]);
    }
  }

  // ----- what each draw is, independent of state -----

  datatype DrawKey = ShapeKey(name: string, program: Program) | ArraysKey(program: Program) | BlitKey

  function KeyOf(c: Command): Option<DrawKey>
  {
    match c
    case DrawShape(name, setup, _) => Some(ShapeKey(name, setup.program))
    case DrawArrays(p, _, _, _) => Some(ArraysKey(p))
    case BlitDepth(_, _, _, _) => Some(BlitKey)
    case _ => None
  }

  function KeysOfOne(c: Command): seq<DrawKey>
  {
    match KeyOf(c)
    case Some(k) => [k]
    case None => []
  }

  /** The draws and blits of a command sequence, by name and program. */
  function Keys(cmds: seq<Command>): seq<DrawKey>
    decreases |cmds|
  {
    if |cmds| == 0 then [] else KeysOfOne(cmds[0]) + Keys(cmds[1..])
  }

  lemma KeysCons(c: Command, rest: seq<Command>)
    ensures Keys([c] + rest) == KeysOfOne(c) + Keys(rest)
  {
    assert ([c] + rest)[1..] == rest;
  }

  lemma KeysThree(a: Command, b: Command, c: Command)
    ensures Keys([a, b, c]) == KeysOfOne(a) + KeysOfOne(b) + KeysOfOne(c)
  {
    AppendNothing([c]);
    KeysCons(c, []);
    ConsTwo(b, c);
    KeysCons(b, [c]);
    ConsThree(a, b, c);
    KeysCons(a, [b, c]);
    Assoc(KeysOfOne(a), KeysOfOne(b), KeysOfOne(c));
  }

  lemma KeysFour(a: Command, b: Command, c: Command, d: Command)
    ensures Keys([a, b, c, d]) == KeysOfOne(a) + KeysOfOne(b) + KeysOfOne(c) + KeysOfOne(d)
  {
    KeysThree(b, c, d);
    ConsFour(a, b, c, d);
    KeysCons(a, [b, c, d]);
    Assoc(KeysOfOne(a), KeysOfOne(b) + KeysOfOne(c), KeysOfOne(d));
    Assoc(KeysOfOne(a), KeysOfOne(b), KeysOfOne(c));
  }

  lemma {:induction false} KeysConcat(a: seq<Command>, b: seq<Command>)
    ensures Keys(a + b) == Keys(a) + Keys(b)
    decreases |a|
  {
    if |a| == 0 {
      assert a + b == b;
    } else {
      assert (a + b)[1..] == a[1..] + b;
      KeysConcat(a[1..], b);
    }
  }

  // ----- the frame -----

  function ShapeDraw(name: string, setup: Setup): Command {
    DrawShape(name, setup, SphereMesh.IndexCount)
  }

  /** Depth test on, HDR target bound and fully cleared, then the clear
      colour set (it takes effect on the next clear), then the sphere mesh. */
  function Prologue(): seq<Command> {
    [EnableDepthTest, BindTarget(HDRTarget), Clear(true, true, true), ClearColor(ClearGray), BindVertexArray(SphereVao)]
  }

  /** The G-buffer loop: one draw per PBR shape, in iteration order. */
  function GeometryPass(s: Store, input: FrameInput): (cmds: seq<Command>)
    ensures ShapeDrawsOnly(cmds) && |cmds| <= |s|
    ensures forall i :: 0 <= i < |cmds| ==> cmds[i].setup.program == GBufferPBRProgram
    decreases |s|
  {
    if |s| == 0 then [] else GeometryEntry(s[0], input) + GeometryPass(s[1..], input)
  }

  function GeometryEntry(e: Entry, input: FrameInput): seq<Command> {
    if e.cube.kind == PBR then [ShapeDraw(e.name, DeferredSetup(e.cube, input))] else []
  }

  /** The full-screen lighting draw: the PBR lighting program reading the
      four G-buffer slots on units 0 to 3, with the light list and the eye. */
  function LightingQuad(s: Store, input: FrameInput): Command {
    DrawArrays(DeferredLightingPBRProgram, [GBufferColor(0), GBufferColor(1), GBufferColor(2), GBufferColor(3)],
               LightVars(s) + [Write("viewPos", VecValue(input.camera.position))], 6)
  }

  /** The loop drawing LIGHT shapes on top of the lit image. */
  function LightPass(scene: Store, s: Store, input: FrameInput): (cmds: seq<Command>)
    ensures ShapeDrawsOnly(cmds) && |cmds| <= |s|
    ensures forall i :: 0 <= i < |cmds| ==> cmds[i].setup.program == CubeProgram(Light)
    decreases |s|
  {
    if |s| == 0 then [] else LightEntry(scene, s[0], input) + LightPass(scene, s[1..], input)
  }

  function LightEntry(scene: Store, e: Entry, input: FrameInput): seq<Command> {
    if e.cube.kind == Light then [ShapeDraw(e.name, ForwardSetup(scene, e.cube, input))] else []
  }

  /** Bind and clear the G-buffer (colour and depth). */
  function GBufferOpen(): seq<Command> {
    [BindTarget(GBuffer), ClearColor(ClearGray), Clear(true, true, false)]
  }

  /** Light the G-buffer contents into the HDR target on the screen quad. */
  function LightingPass(s: Store, input: FrameInput): seq<Command> {
    [BindTarget(HDRTarget), Clear(true, true, false), BindVertexArray(QuadVao), LightingQuad(s, input)]
  }

  /** Copy the G-buffer's depth into the HDR target, so that forward-drawn
      light shapes are depth-tested against the deferred geometry. */
  function DepthCopy(input: FrameInput): seq<Command> {
    [BlitDepth(GBuffer, HDRTarget, input.width, input.height), BindTarget(HDRTarget), BindVertexArray(SphereVao)]
  }

  /** The deferred branch of `Draw`. */
  function DeferredPass(s: Store, input: FrameInput): seq<Command> {
    GBufferOpen() + GeometryPass(s, input) + LightingPass(s, input) + DepthCopy(input)
    + LightPass(s, s, input)
  }

  /** The stencil writes around a selected shape's draw: mark its pixels
      with 1, then protect them. */
  const MarkStencil: seq<Command> := [StencilFunc(Always, 1, 0xFF), StencilMask(0xFF)]
  const ProtectStencil: seq<Command> := [StencilFunc(NotEqual, 1, 0xFF), StencilMask(0x00)]

  /** One entry of the forward loop. */
  function ForwardEntry(scene: Store, e: Entry, input: FrameInput): seq<Command> {
    var draw := ShapeDraw(e.name, ForwardSetup(scene, e.cube, input));
    if e.cube.isSelected then MarkStencil + [draw] + ProtectStencil else [draw]
  }

  /** The forward loop: every shape drawn with its own program, a selected
      one wrapped in the stencil writes. */
  function ForwardDraws(scene: Store, s: Store, input: FrameInput): seq<Command>
    decreases |s|
  {
    if |s| == 0 then [] else ForwardEntry(scene, s[0], input) + ForwardDraws(scene, s[1..], input)
  }

  /** The forward branch of `Draw`. */
  function ForwardPass(s: Store, input: FrameInput): seq<Command> {
    [BindVertexArray(SphereVao)] + ForwardDraws(s, s, input)
  }

  /** The outline program for one selected shape: the header written before
      the loop, then the shape's model matrix. */
  function OutlineSetup(c: Cube, input: FrameInput): Setup {
    Setup(OutlineProgram, None,
          [Write("view", MatValue(ViewMatrix(input.camera))),
           Write("proj", MatValue(Perspective(input.camera.zoom, input.width, input.height))),
           Write("outlining", FloatValue(OutlineThickness)),
           Write("outlineColor", VecValue(OutlineColor)),
           Write("model", MatValue(ModelOf(c, input.amplitude)))])
  }

  function OutlineDraws(s: Store, input: FrameInput): (cmds: seq<Command>)
    ensures ShapeDrawsOnly(cmds) && |cmds| <= |s|
    ensures forall i :: 0 <= i < |cmds| ==> cmds[i].setup.program == OutlineProgram
    ensures |cmds| > 0 ==> AnySelected(s)
    decreases |s|
  {
    if |s| == 0 then [] else OutlineEntry(s[0], input) + OutlineDraws(s[1..], input)
  }

  function OutlineEntry(e: Entry, input: FrameInput): seq<Command> {
    if e.cube.isSelected then [ShapeDraw(e.name, OutlineSetup(e.cube, input))] else []
  }

  /** The outline pass, then the stencil state reset. */
  function OutlinePass(s: Store, input: FrameInput): seq<Command> {
    OutlineDraws(s, input) + [StencilMask(0xFF), StencilFunc(Always, 1, 0xFF)]
  }

  /** The 36-vertex skybox draw with the rotation-only view. Its one
      texture records the cubemap `Cubemap::Bind` binds, not the unit:
      that method is not part of this model. */
  function SkyboxDraw(input: FrameInput): Command {
    DrawArrays(SkyboxProgram, [SkyboxCubemap],
               [Write("view", MatValue(RotationOnlyView(input.camera))),
                Write("proj", MatValue(Perspective(input.camera.zoom, input.width, input.height)))], 36)
  }

  /** The skybox draw between binding the sky's vertex array and unbinding it. */
  function SkyDraw(input: FrameInput): seq<Command> {
    [BindVertexArray(SkyVao), SkyboxDraw(input), BindVertexArray(NoVao)]
  }

  /** The skybox pass: the depth comparison relaxed to LEQUAL around the
      draw, so the sky passes where the depth buffer still holds the cleared
      far value, then restored to LESS. */
  function SkyPass(input: FrameInput): seq<Command> {
    [DepthFunc(LessOrEqual)] + SkyDraw(input) + [DepthFunc(Less)]
  }

  function ToneMapQuad(settings: Settings): Command {
    DrawArrays(HDRProgram, [HDRColor],
               [Write("hdrOn", IntValue(if settings.hdrOn then 1 else 0)), Write("exposure", FloatValue(settings.exposure))], 6)
  }

  function FilterQuad(settings: Settings): Command {
    var f := settings.filters;
    DrawArrays(ScreenProgram, [PostColor],
               [Write("t_saturation", FloatValue(f.saturation)), Write("t_blur", FloatValue(f.blur)),
                Write("t_outline", FloatValue(f.outline)), Write("t_invert", IntValue(if f.invert then 1 else 0))], 6)
  }

  /** Tone-map the HDR image into the post-processing target, depth test off. */
  function ToneMapPass(settings: Settings): seq<Command> {
    [BindTarget(PostTarget), DisableDepthTest, BindVertexArray(QuadVao), ToneMapQuad(settings)]
  }

  /** Filter the tone-mapped image onto the window. */
  function FilterPass(settings: Settings): seq<Command> {
    [BindTarget(DefaultFramebuffer), BindVertexArray(QuadVao), FilterQuad(settings)]
  }

  function PostPasses(settings: Settings): seq<Command> {
    ToneMapPass(settings) + FilterPass(settings)
  }

  function ScenePasses(s: Store, settings: Settings, input: FrameInput): seq<Command> {
    if settings.deferredOn then DeferredPass(s, input) else ForwardPass(s, input)
  }

  function OutlineStage(s: Store, settings: Settings, input: FrameInput): seq<Command> {
    [BindVertexArray(SphereVao)] + (if settings.deferredOn then [] else OutlinePass(s, input))
  }

  function SkyStage(settings: Settings, input: FrameInput): seq<Command> {
    [BindVertexArray(CubeVao)] + (if settings.skyboxOn then SkyPass(input) else [])
  }

  /** `Renderer::Draw`. */
  function Draw(s: Store, settings: Settings, input: FrameInput): seq<Command> {
    Prologue() + ScenePasses(s, settings, input) + OutlineStage(s, settings, input)
    + SkyStage(settings, input) + PostPasses(settings)
  }

  // ----- the GL state each segment leaves and draws under -----

  /** The state the prologue leaves. */
  function PrologueState(st: GLState): GLState {
    st.(depthTest := true, target := HDRTarget, clearGray := ClearGray, vao := SphereVao)
  }

  lemma PrologueRun(st: GLState)
    ensures Run(st, Prologue()) == PrologueState(st)
    ensures Observed(st, Prologue()) == []
  {
  }

  lemma PostPassesRun(st: GLState, settings: Settings)
    ensures Run(st, PostPasses(settings)) == st.(target := DefaultFramebuffer, depthTest := false, vao := QuadVao)
    ensures Observed(st, PostPasses(settings)) ==
      [Event(ToneMapQuad(settings), st.(target := PostTarget, depthTest := false, vao := QuadVao)),
       Event(FilterQuad(settings), st.(target := DefaultFramebuffer, depthTest := false, vao := QuadVao))]
  {
    var mid := st.(target := PostTarget, depthTest := false, vao := QuadVao);
    RunFour(st, BindTarget(PostTarget), DisableDepthTest, BindVertexArray(QuadVao), ToneMapQuad(settings));
    RunThree(mid, BindTarget(DefaultFramebuffer), BindVertexArray(QuadVao), FilterQuad(settings));
    RunConcat(st, ToneMapPass(settings), FilterPass(settings));
    ConsTwo(Event(ToneMapQuad(settings), mid), Event(FilterQuad(settings), mid.(target := DefaultFramebuffer)));
  }

  // ----- where each draw lands -----

  /** Tone-mapping lands in the post-processing target and filtering on the
      window, both on the quad with depth test off, from any state. */
  lemma PostPassesPlaced(st: GLState, settings: Settings)
    ensures AllPlaced(Observed(st, PostPasses(settings)))
  {
    PostPassesRun(st, settings);
    var evs := Observed(st, PostPasses(settings));
    assert Placed(evs[0]) && Placed(evs[1]);
  }

  /** The state each kind of draw is meant to run under: shapes with the
      sphere mesh and the LESS depth test, into the G-buffer for the geometry
      programs and into the HDR target otherwise; the lighting quad into the
      HDR target; the sky with its own cube under LEQUAL; tone-mapping into
      the post-processing target and filtering onto the window, both on the
      quad with depth test off; the depth blit from the G-buffer into the HDR
      target. */
  predicate Placed(e: Event) {
    var st := e.state;
    match e.command
    case DrawShape(_, setup, _) =>
      st.vao == SphereVao && st.depthTest && st.depthFunc == Less &&
      st.target == (if setup.program == GBufferProgram || setup.program == GBufferPBRProgram then GBuffer else HDRTarget)
    case DrawArrays(p, _, _, _) =>
      if p == SkyboxProgram then st.vao == SkyVao && st.depthTest && st.depthFunc == LessOrEqual && st.target == HDRTarget
      else if p == HDRProgram then st.vao == QuadVao && !st.depthTest && st.target == PostTarget
      else if p == ScreenProgram then st.vao == QuadVao && !st.depthTest && st.target == DefaultFramebuffer
      else st.vao == QuadVao && st.depthTest && st.depthFunc == Less && st.target == HDRTarget
    case BlitDepth(src, dst, _, _) => src == GBuffer && dst == HDRTarget && st.target == HDRTarget
    case _ => false
  }

  predicate AllPlaced(evs: seq<Event>) {
    forall i :: 0 <= i < |evs| ==> Placed(evs[i])
  }

  lemma AllPlacedConcat(a: seq<Event>, b: seq<Event>)
    requires AllPlaced(a) && AllPlaced(b)
    ensures AllPlaced(a + b)
  {
    forall i | 0 <= i < |a + b| ensures Placed((a + b)[i]) {
      if i >= |a| {
        assert (a + b)[i] == b[i - |a|];
      }
    }
  }

  /** The state the shape passes start from. */
  predicate SceneReady(st: GLState) {
    st.target == HDRTarget && st.vao == SphereVao && st.depthTest && st.depthFunc == Less
  }

  /** Stencil state while a selected shape is drawn: every pixel passes and 1 is written. */
  function Marked(st: GLState): GLState {
    st.(stencilTest := Always, stencilRef := 1, stencilReadMask := 0xFF, stencilWriteMask := 0xFF)
  }

  /** Stencil state after it: pixels holding 1 are rejected and nothing is written. */
  function Protected(st: GLState): GLState {
    st.(stencilTest := NotEqual, stencilRef := 1, stencilReadMask := 0xFF, stencilWriteMask := 0x00)
  }

  /** Two segments run one after the other keep their placements. */
  lemma PlacedJoin(st: GLState, a: seq<Command>, b: seq<Command>)
    requires AllPlaced(Observed(st, a)) && AllPlaced(Observed(Run(st, a), b))
    ensures AllPlaced(Observed(st, a + b))
    ensures Run(st, a + b) == Run(Run(st, a), b)
  {
    RunConcat(st, a, b);
    AllPlacedConcat(Observed(st, a), Observed(Run(st, a), b));
  }

  /** Shape draws whose programs all target the bound framebuffer. */
  lemma ShapeDrawsPlaced(st: GLState, cmds: seq<Command>, geometry: bool)
    requires ShapeDrawsOnly(cmds)
    requires st.vao == SphereVao && st.depthTest && st.depthFunc == Less
    requires st.target == (if geometry then GBuffer else HDRTarget)
    requires forall i :: 0 <= i < |cmds| ==>
      (cmds[i].setup.program == GBufferProgram || cmds[i].setup.program == GBufferPBRProgram) == geometry
    ensures Run(st, cmds) == st
    ensures AllPlaced(Observed(st, cmds))
  {
    ShapeDrawsKeepState(st, cmds);
  }

  lemma LightingPassRun(st: GLState, s: Store, input: FrameInput)
    requires st.depthTest && st.depthFunc == Less
    ensures Run(st, LightingPass(s, input)) == st.(target := HDRTarget, vao := QuadVao)
    ensures AllPlaced(Observed(st, LightingPass(s, input)))
  {
    RunFour(st, BindTarget(HDRTarget), Clear(true, true, false), BindVertexArray(QuadVao), LightingQuad(s, input));
  }

  lemma DepthCopyRun(st: GLState, input: FrameInput)
    requires st.target == HDRTarget
    ensures Run(st, DepthCopy(input)) == st.(vao := SphereVao)
    ensures AllPlaced(Observed(st, DepthCopy(input)))
  {
    RunThree(st, BlitDepth(GBuffer, HDRTarget, input.width, input.height), BindTarget(HDRTarget), BindVertexArray(SphereVao));
  }

  lemma DeferredPassRun(st: GLState, s: Store, input: FrameInput)
    requires st.vao == SphereVao && st.depthTest && st.depthFunc == Less
    ensures Run(st, DeferredPass(s, input)) == st.(target := HDRTarget, vao := SphereVao, clearGray := ClearGray)
    ensures AllPlaced(Observed(st, DeferredPass(s, input)))
  {
    var front, copy, lights := GBufferOpen() + GeometryPass(s, input) + LightingPass(s, input), DepthCopy(input), LightPass(s, s, input);
    var h := st.(target := HDRTarget, vao := QuadVao, clearGray := ClearGray);
    DeferredFrontRun(st, s, input);
    DepthCopyRun(h, input);
    PlacedJoin(st, front, copy);
    ShapeDrawsPlaced(h.(vao := SphereVao), lights, false);
    PlacedJoin(st, front + copy, lights);
  }

  /** The G-buffer filled and lit into the HDR target. */
  lemma DeferredFrontRun(st: GLState, s: Store, input: FrameInput)
    requires st.vao == SphereVao && st.depthTest && st.depthFunc == Less
    ensures Run(st, GBufferOpen() + GeometryPass(s, input) + LightingPass(s, input)) ==
      st.(target := HDRTarget, vao := QuadVao, clearGray := ClearGray)
    ensures AllPlaced(Observed(st, GBufferOpen() + GeometryPass(s, input) + LightingPass(s, input)))
  {
    var g := st.(target := GBuffer, clearGray := ClearGray);
    GeometryStageRun(st, s, input);
    LightingPassRun(g, s, input);
    PlacedJoin(st, GBufferOpen() + GeometryPass(s, input), LightingPass(s, input));
  }

  /** The G-buffer bound, cleared and filled by the geometry loop. */
  lemma GeometryStageRun(st: GLState, s: Store, input: FrameInput)
    requires st.vao == SphereVao && st.depthTest && st.depthFunc == Less
    ensures Run(st, GBufferOpen() + GeometryPass(s, input)) == st.(target := GBuffer, clearGray := ClearGray)
    ensures AllPlaced(Observed(st, GBufferOpen() + GeometryPass(s, input)))
  {
    var g := st.(target := GBuffer, clearGray := ClearGray);
    RunThree(st, BindTarget(GBuffer), ClearColor(ClearGray), Clear(true, true, false));
    ShapeDrawsPlaced(g, GeometryPass(s, input), true);
    PlacedJoin(st, GBufferOpen(), GeometryPass(s, input));
  }

  /** A selected entry among the first `i`, split at the head. */
  lemma SelectedPrefix(s: Store, i: nat)
    requires 1 <= i <= |s|
    ensures AnySelected(s[..i]) <==> s[0].cube.isSelected || AnySelected(s[1..][..i - 1])
  {
    if AnySelected(s[..i]) && !s[0].cube.isSelected {
      var j :| 0 <= j < i && s[..i][j].cube.isSelected;
      assert s[1..][..i - 1][j - 1] == s[j];
    }
    if AnySelected(s[1..][..i - 1]) {
      var j :| 0 <= j < i - 1 && s[1..][..i - 1][j].cube.isSelected;
      assert s[..i][j + 1] == s[j + 1];
    }
    if s[0].cube.isSelected {
      assert s[..i][0] == s[0];
    }
  }

  lemma ForwardEntryRun(scene: Store, e: Entry, input: FrameInput, st: GLState)
    ensures Run(st, ForwardEntry(scene, e, input)) == if e.cube.isSelected then Protected(st) else st
    ensures Observed(st, ForwardEntry(scene, e, input)) ==
      [Event(ShapeDraw(e.name, ForwardSetup(scene, e.cube, input)), if e.cube.isSelected then Marked(st) else st)]
  {
    var draw := ShapeDraw(e.name, ForwardSetup(scene, e.cube, input));
    if e.cube.isSelected {
      assert ForwardEntry(scene, e, input) ==
        [StencilFunc(Always, 1, 0xFF), StencilMask(0xFF), draw, StencilFunc(NotEqual, 1, 0xFF), StencilMask(0x00)];
      RunFive(st, StencilFunc(Always, 1, 0xFF), StencilMask(0xFF), draw, StencilFunc(NotEqual, 1, 0xFF), StencilMask(0x00));
    } else {
      assert [draw] == [draw] + [];
      RunCons(st, draw, []);
    }
  }

  /** The event of the i-th draw of the forward loop: the i-th entry's
      program, under the marking stencil state when that entry is selected,
      under the protecting state left by an earlier selected entry otherwise,
      and under the incoming state when no entry before it is selected. */
  function ForwardEvent(scene: Store, s: Store, input: FrameInput, st: GLState, i: nat): Event
    requires i < |s|
  {
    var state := if s[i].cube.isSelected then Marked(st) else if AnySelected(s[..i]) then Protected(st) else st;
    Event(ShapeDraw(s[i].name, ForwardSetup(scene, s[i].cube, input)), state)
  }

  lemma ForwardEventShift(scene: Store, s: Store, input: FrameInput, st: GLState, i: nat)
    requires 1 <= i < |s|
    ensures ForwardEvent(scene, s[1..], input, if s[0].cube.isSelected then Protected(st) else st, i - 1)
         == ForwardEvent(scene, s, input, st, i)
  {
    SelectedPrefix(s, i);
    assert s[1..][i - 1] == s[i];
  }

  lemma {:induction false} ForwardDrawsRun(scene: Store, s: Store, input: FrameInput, st: GLState)
    ensures Run(st, ForwardDraws(scene, s, input)) == if AnySelected(s) then Protected(st) else st
    ensures |Observed(st, ForwardDraws(scene, s, input))| == |s|
    ensures forall i :: 0 <= i < |s| ==> Observed(st, ForwardDraws(scene, s, input))[i] == ForwardEvent(scene, s, input, st, i)
    decreases |s|
  {
    if |s| == 0 {
      assert !AnySelected(s);
    } else {
      var head, tail := ForwardEntry(scene, s[0], input), ForwardDraws(scene, s[1..], input);
      var st1 := if s[0].cube.isSelected then Protected(st) else st;
      ForwardEntryRun(scene, s[0], input, st);
      RunConcat(st, head, tail);
      ForwardDrawsRun(scene, s[1..], input, st1);
      SelectedCons(s);
      ForwardEventFirst(scene, s, input, st);
      ForwardEventsCons(scene, s, input, st, Observed(st, ForwardDraws(scene, s, input)), Observed(st1, tail));
    }
  }

  lemma SelectedCons(s: Store)
    requires |s| > 0
    ensures AnySelected(s) <==> s[0].cube.isSelected || AnySelected(s[1..])
  {
    SelectedPrefix(s, |s|);
    assert s[..|s|] == s && s[1..][..|s| - 1] == s[1..];
  }

  lemma ForwardEventFirst(scene: Store, s: Store, input: FrameInput, st: GLState)
    requires |s| > 0
    ensures ForwardEvent(scene, s, input, st, 0) ==
      Event(ShapeDraw(s[0].name, ForwardSetup(scene, s[0].cube, input)), if s[0].cube.isSelected then Marked(st) else st)
  {
    assert s[..0] == [];
  }

  /** The events of the whole loop from the first entry's event and the
      events of the rest. */
  lemma ForwardEventsCons(scene: Store, s: Store, input: FrameInput, st: GLState, evs: seq<Event>, later: seq<Event>)
    requires |s| > 0 && |later| == |s| - 1
    requires evs == [ForwardEvent(scene, s, input, st, 0)] + later
    requires forall i :: 0 <= i < |s| - 1 ==>
      later[i] == ForwardEvent(scene, s[1..], input, if s[0].cube.isSelected then Protected(st) else st, i)
    ensures forall i :: 0 <= i < |s| ==> evs[i] == ForwardEvent(scene, s, input, st, i)
  {
    forall i | 1 <= i < |s| ensures evs[i] == ForwardEvent(scene, s, input, st, i) {
      assert evs[i] == later[i - 1];
      ForwardEventShift(scene, s, input, st, i);
    }
  }

  lemma ForwardPassRun(st: GLState, s: Store, input: FrameInput)
    requires st.target == HDRTarget && st.depthTest && st.depthFunc == Less
    ensures Run(st, ForwardPass(s, input)) == if AnySelected(s) then Protected(st.(vao := SphereVao)) else st.(vao := SphereVao)
    ensures Observed(st, ForwardPass(s, input)) == Observed(st.(vao := SphereVao), ForwardDraws(s, s, input))
    ensures AllPlaced(Observed(st, ForwardPass(s, input)))
  {
    var ready := st.(vao := SphereVao);
    assert [BindVertexArray(SphereVao)] + ForwardDraws(s, s, input) == ForwardPass(s, input);
    RunCons(st, BindVertexArray(SphereVao), ForwardDraws(s, s, input));
    ForwardDrawsRun(s, s, input, ready);
    var evs := Observed(ready, ForwardDraws(s, s, input));
    forall i | 0 <= i < |evs| ensures Placed(evs[i]) {
      ForwardEventPlaced(s, s, input, ready, i);
    }
  }

  /** Every forward draw runs on the sphere mesh into the HDR target,
      whatever stencil state it meets. */
  lemma ForwardEventPlaced(scene: Store, s: Store, input: FrameInput, st: GLState, i: nat)
    requires i < |s| && SceneReady(st)
    ensures Placed(ForwardEvent(scene, s, input, st, i))
  {
    var e := ForwardEvent(scene, s, input, st, i);
    assert e.state.target == HDRTarget && e.state.vao == SphereVao && e.state.depthTest && e.state.depthFunc == Less;
    assert e.command.setup.program == CubeProgram(s[i].cube.kind);
  }

  lemma OutlineStageRun(st: GLState, s: Store, settings: Settings, input: FrameInput)
    requires st.target == HDRTarget && st.depthTest && st.depthFunc == Less
    ensures Run(st, OutlineStage(s, settings, input)) ==
      if settings.deferredOn then st.(vao := SphereVao) else Marked(st.(vao := SphereVao))
    ensures AllPlaced(Observed(st, OutlineStage(s, settings, input)))
  {
    RunCons(st, BindVertexArray(SphereVao), if settings.deferredOn then [] else OutlinePass(s, input));
    if !settings.deferredOn {
      OutlinePassRun(st.(vao := SphereVao), s, input);
    }
  }

  /** The outline draws leave the stencil state of a marking draw behind. */
  lemma OutlinePassRun(st: GLState, s: Store, input: FrameInput)
    requires SceneReady(st)
    ensures Run(st, OutlinePass(s, input)) == Marked(st)
    ensures AllPlaced(Observed(st, OutlinePass(s, input)))
  {
    ShapeDrawsPlaced(st, OutlineDraws(s, input), false);
    RunTwo(st, StencilMask(0xFF), StencilFunc(Always, 1, 0xFF));
    PlacedJoin(st, OutlineDraws(s, input), [StencilMask(0xFF), StencilFunc(Always, 1, 0xFF)]);
  }

  lemma SkyPassRun(st: GLState, input: FrameInput)
    requires st.target == HDRTarget && st.depthTest
    ensures Run(st, SkyPass(input)) == st.(vao := NoVao, depthFunc := Less)
    ensures AllPlaced(Observed(st, SkyPass(input)))
  {
    var relaxed := st.(depthFunc := LessOrEqual);
    var draw := SkyDraw(input);
    AppendNothing([DepthFunc(LessOrEqual)]);
    RunCons(st, DepthFunc(LessOrEqual), []);
    RunThree(relaxed, BindVertexArray(SkyVao), SkyboxDraw(input), BindVertexArray(NoVao));
    PlacedJoin(st, [DepthFunc(LessOrEqual)], draw);
    AppendNothing([DepthFunc(Less)]);
    RunCons(relaxed.(vao := NoVao), DepthFunc(Less), []);
    PlacedJoin(st, [DepthFunc(LessOrEqual)] + draw, [DepthFunc(Less)]);
  }

  lemma SkyStageRun(st: GLState, settings: Settings, input: FrameInput)
    requires st.target == HDRTarget && st.depthTest && st.depthFunc == Less
    ensures Run(st, SkyStage(settings, input)) == st.(vao := if settings.skyboxOn then NoVao else CubeVao)
    ensures AllPlaced(Observed(st, SkyStage(settings, input)))
  {
    RunCons(st, BindVertexArray(CubeVao), if settings.skyboxOn then SkyPass(input) else []);
    if settings.skyboxOn {
      SkyPassRun(st.(vao := CubeVao), input);
    }
  }

  /** The prologue and the scene pass: the HDR target bound, depth test on,
      and in forward mode the stencil left protecting once a shape is selected. */
  lemma ScenePassesRun(st: GLState, s: Store, settings: Settings, input: FrameInput)
    requires st.depthFunc == Less
    ensures Run(st, Prologue() + ScenePasses(s, settings, input)) ==
      if !settings.deferredOn && AnySelected(s) then Protected(PrologueState(st)) else PrologueState(st)
    ensures AllPlaced(Observed(st, Prologue() + ScenePasses(s, settings, input)))
  {
    PrologueRun(st);
    var p := Run(st, Prologue());
    if settings.deferredOn {
      DeferredPassRun(p, s, input);
    } else {
      ForwardPassRun(p, s, input);
    }
    PlacedJoin(st, Prologue(), ScenePasses(s, settings, input));
  }

  /** The state a frame leaves behind: the window bound, depth test off,
      the depth comparison back at LESS and, after a forward frame, the
      stencil test set to pass everything and write 1. */
  function FrameEnd(st: GLState, settings: Settings): GLState {
    var e := st.(target := DefaultFramebuffer, vao := QuadVao, depthTest := false, depthFunc := Less, clearGray := ClearGray);
    if settings.deferredOn then e else Marked(e)
  }

  /** Outline, sky and post passes, from the state the scene pass leaves. */
  lemma ClosingPassesRun(q: GLState, s: Store, settings: Settings, input: FrameInput)
    requires q.target == HDRTarget && q.depthTest && q.depthFunc == Less && q.clearGray == ClearGray
    ensures Run(q, OutlineStage(s, settings, input) + SkyStage(settings, input) + PostPasses(settings)) ==
      FrameEnd(q, settings)
    ensures AllPlaced(Observed(q, OutlineStage(s, settings, input) + SkyStage(settings, input) + PostPasses(settings)))
  {
    var front, post := OutlineStage(s, settings, input) + SkyStage(settings, input), PostPasses(settings);
    OutlineSkyRun(q, s, settings, input);
    var m := Run(q, front);
    PostPassesRun(m, settings);
    PostPassesPlaced(m, settings);
    PlacedJoin(q, front, post);
    FrameEndAfter(q, settings, if settings.skyboxOn then NoVao else CubeVao);
  }

  /** The post passes finish whatever the vertex array before them. */
  lemma FrameEndAfter(q: GLState, settings: Settings, v: Vao)
    requires q.depthFunc == Less && q.clearGray == ClearGray
    ensures (if settings.deferredOn then q else Marked(q)).(vao := v).(target := DefaultFramebuffer, depthTest := false, vao := QuadVao)
      == FrameEnd(q, settings)
  {
  }

  /** Outline and sky stages: the stencil left marking after a forward
      frame, and the vertex array of whichever ran last. */
  lemma OutlineSkyRun(q: GLState, s: Store, settings: Settings, input: FrameInput)
    requires q.target == HDRTarget && q.depthTest && q.depthFunc == Less
    ensures Run(q, OutlineStage(s, settings, input) + SkyStage(settings, input)) ==
      (if settings.deferredOn then q else Marked(q)).(vao := if settings.skyboxOn then NoVao else CubeVao)
    ensures AllPlaced(Observed(q, OutlineStage(s, settings, input) + SkyStage(settings, input)))
  {
    var outline, sky := OutlineStage(s, settings, input), SkyStage(settings, input);
    OutlineStageRun(q, s, settings, input);
    SkyStageRun(Run(q, outline), settings, input);
    PlacedJoin(q, outline, sky);
  }

  /** Every draw and blit of a frame runs under the state its kind is meant
      for (see `Placed`), and the frame restores the depth comparison it
      started with, so the property carries from frame to frame. */
  lemma DrawsInPlace(s: Store, settings: Settings, input: FrameInput, st: GLState)
    requires st.depthFunc == Less
    ensures AllPlaced(Observed(st, Draw(s, settings, input)))
    ensures Run(st, Draw(s, settings, input)) == FrameEnd(st, settings)
  {
    var front, closing := Prologue() + ScenePasses(s, settings, input),
                          OutlineStage(s, settings, input) + SkyStage(settings, input) + PostPasses(settings);
    Assoc(front, OutlineStage(s, settings, input) + SkyStage(settings, input), PostPasses(settings));
    Assoc(front, OutlineStage(s, settings, input), SkyStage(settings, input));
    ScenePassesRun(st, s, settings, input);
    ClosingPassesRun(Run(st, front), s, settings, input);
    PlacedJoin(st, front, closing);
  }

  lemma OutlineStageEvents(q: GLState, s: Store, input: FrameInput, settings: Settings)
    requires !settings.deferredOn
    ensures |Observed(q, OutlineStage(s, settings, input))| == |OutlineDraws(s, input)|
    ensures forall i :: 0 <= i < |OutlineDraws(s, input)| ==>
      Observed(q, OutlineStage(s, settings, input))[i] == Event(OutlineDraws(s, input)[i], q.(vao := SphereVao))
  {
    var ready := q.(vao := SphereVao);
    RunCons(q, BindVertexArray(SphereVao), OutlinePass(s, input));
    ShapeDrawsKeepState(ready, OutlineDraws(s, input));
    RunTwo(ready, StencilMask(0xFF), StencilFunc(Always, 1, 0xFF));
    RunConcat(ready, OutlineDraws(s, input), [StencilMask(0xFF), StencilFunc(Always, 1, 0xFF)]);
  }

  /** A frame's events, split at the end of the scene pass and of the outline stage. */
  lemma DrawEvents(s: Store, settings: Settings, input: FrameInput, st: GLState)
    ensures var q := Run(st, Prologue() + ScenePasses(s, settings, input));
      Observed(st, Draw(s, settings, input)) ==
        Observed(st, Prologue() + ScenePasses(s, settings, input)) + Observed(q, OutlineStage(s, settings, input))
        + Observed(Run(q, OutlineStage(s, settings, input)), SkyStage(settings, input) + PostPasses(settings))
  {
    var front, outline, rest := Prologue() + ScenePasses(s, settings, input), OutlineStage(s, settings, input),
                                SkyStage(settings, input) + PostPasses(settings);
    Assoc(front + outline, SkyStage(settings, input), PostPasses(settings));
    Assoc(front, outline, rest);
    ObservedThree(st, front, outline, rest);
  }

  lemma ForwardFrontEvents(s: Store, settings: Settings, input: FrameInput, st: GLState)
    requires !settings.deferredOn
    ensures Observed(st, Prologue() + ScenePasses(s, settings, input)) == Observed(PrologueState(st), ForwardDraws(s, s, input))
  {
    PrologueRun(st);
    RunConcat(st, Prologue(), ScenePasses(s, settings, input));
    RunCons(PrologueState(st), BindVertexArray(SphereVao), ForwardDraws(s, s, input));
    assert ForwardPass(s, input) == [BindVertexArray(SphereVao)] + ForwardDraws(s, s, input);
  }

  /** In a forward frame the outline draws run under the protecting stencil
      state the scene pass leaves once a shape is selected. */
  lemma OutlineEventsProtected(s: Store, settings: Settings, input: FrameInput, st: GLState)
    requires !settings.deferredOn && st.depthFunc == Less
    ensures var q := Run(st, Prologue() + ScenePasses(s, settings, input));
      |Observed(q, OutlineStage(s, settings, input))| == |OutlineDraws(s, input)| &&
      forall i :: 0 <= i < |OutlineDraws(s, input)| ==>
        Observed(q, OutlineStage(s, settings, input))[i] == Event(OutlineDraws(s, input)[i], Protected(PrologueState(st)))
  {
    var q := Run(st, Prologue() + ScenePasses(s, settings, input));
    OutlineStageEvents(q, s, input, settings);
    assert |OutlineDraws(s, input)| > 0 ==> q.(vao := SphereVao) == Protected(PrologueState(st)) by {
      ScenePassesRun(st, s, settings, input);
    }
  }

  /** The stencil discipline of a forward frame. The i-th event is the i-th
      entry's draw, under the marking state (test ALWAYS against 1, write mask
      0xFF) when the entry is selected; an unselected entry drawn after a
      selected one runs under the protecting state (test NOTEQUAL 1, write
      mask 0) and one drawn before any runs under the state the previous
      frame left. The outline draws follow, one per selected entry in order,
      all under the protecting state. Which pixels hold 1 by then is stated
      by `ForwardStencilWriters`. */
  lemma ForwardFrameStencil(s: Store, settings: Settings, input: FrameInput, st: GLState)
    requires !settings.deferredOn && st.depthFunc == Less
    ensures |Observed(st, Draw(s, settings, input))| >= |s| + |OutlineDraws(s, input)|
    ensures forall i :: 0 <= i < |s| ==>
      Observed(st, Draw(s, settings, input))[i] == ForwardEvent(s, s, input, PrologueState(st), i)
    ensures forall i :: |s| <= i < |s| + |OutlineDraws(s, input)| ==>
      Observed(st, Draw(s, settings, input))[i] == Event(OutlineDraws(s, input)[i - |s|], Protected(PrologueState(st)))
  {
    var p := PrologueState(st);
    var q := Run(st, Prologue() + ScenePasses(s, settings, input));
    var a := Observed(p, ForwardDraws(s, s, input));
    var b := Observed(q, OutlineStage(s, settings, input));
    var c := Observed(Run(q, OutlineStage(s, settings, input)), SkyStage(settings, input) + PostPasses(settings));
    DrawEvents(s, settings, input, st);
    ForwardFrontEvents(s, settings, input, st);
    ForwardDrawsRun(s, s, input, p);
    OutlineEventsProtected(s, settings, input, st);
    ConcatIndex(a, b, c);
    var evs := Observed(st, Draw(s, settings, input));
    var outline := OutlineDraws(s, input);
    forall i | |s| <= i < |s| + |outline| ensures evs[i] == Event(outline[i - |s|], Protected(p)) {
      assert evs[i] == b[i - |s|];
    }
  }
  /** Which forward draws write the stencil buffer. The constructor enables
      the stencil test once, with the REPLACE operation for fragments that
      pass, so every draw whose write mask is 0xFF writes its reference value
      wherever it passes. A selected entry's draw writes 1; an unselected
      entry writes exactly when no entry before it is selected and the frame
      started under write mask 0xFF, and then with the reference value the
      frame started with. */
  lemma ForwardStencilWriters(s: Store, settings: Settings, input: FrameInput, st: GLState)
    requires !settings.deferredOn && st.depthFunc == Less
    ensures |Observed(st, Draw(s, settings, input))| >= |s|
    ensures forall i :: 0 <= i < |s| ==>
      var ev := Observed(st, Draw(s, settings, input))[i];
      (ev.state.stencilWriteMask == 0xFF <==> s[i].cube.isSelected || (!AnySelected(s[..i]) && st.stencilWriteMask == 0xFF)) &&
      (s[i].cube.isSelected ==> ev.state.stencilRef == 1 && ev.state.stencilTest == Always) &&
      (!s[i].cube.isSelected && !AnySelected(s[..i]) ==> ev.state.stencilRef == st.stencilRef && ev.state.stencilTest == st.stencilTest)
  {
    ForwardFrameStencil(s, settings, input, st);
    var evs := Observed(st, Draw(s, settings, input));
    var p := PrologueState(st);
    forall i | 0 <= i < |s|
      ensures (evs[i].state.stencilWriteMask == 0xFF <==> s[i].cube.isSelected || (!AnySelected(s[..i]) && st.stencilWriteMask == 0xFF)) &&
              (s[i].cube.isSelected ==> evs[i].state.stencilRef == 1 && evs[i].state.stencilTest == Always) &&
              (!s[i].cube.isSelected && !AnySelected(s[..i]) ==> evs[i].state.stencilRef == st.stencilRef && evs[i].state.stencilTest == st.stencilTest)
    {
      assert evs[i] == ForwardEvent(s, s, input, p, i);
    }
  }

  /** After a forward frame the stencil state is left marking, so in the
      next forward frame every unselected entry drawn before the first
      selected one writes 1 as well: the outline, which skips pixels holding
      1, is then suppressed over those shapes too. */
  lemma UnselectedShapesMarkAfterForwardFrame(s: Store, settings: Settings, input: FrameInput, st0: GLState, i: nat)
    requires !settings.deferredOn && i < |s| && !AnySelected(s[..i])
    ensures i < |Observed(FrameEnd(st0, settings), Draw(s, settings, input))|
    ensures var ev := Observed(FrameEnd(st0, settings), Draw(s, settings, input))[i];
      ev.state.stencilWriteMask == 0xFF && ev.state.stencilRef == 1 && ev.state.stencilTest == Always
  {
    var st := FrameEnd(st0, settings);
    assert st.stencilWriteMask == 0xFF && st.stencilRef == 1 && st.stencilTest == Always && st.depthFunc == Less;
    ForwardStencilWriters(s, settings, input, st);
  }


  // ----- which draws a frame makes, and in what order -----

  lemma KeysJoin(a: seq<Command>, b: seq<Command>, ka: seq<DrawKey>, kb: seq<DrawKey>)
    requires Keys(a) == ka && Keys(b) == kb
    ensures Keys(a + b) == ka + kb
  {
    KeysConcat(a, b);
  }

  lemma KeysOne(c: Command)
    ensures Keys([c]) == KeysOfOne(c)
  {
    assert [c] == [c] + [];
    KeysCons(c, []);
  }

  /** Shape draws, key by key. */
  lemma {:induction false} ShapeDrawKeys(cmds: seq<Command>)
    requires ShapeDrawsOnly(cmds)
    ensures |Keys(cmds)| == |cmds|
    ensures forall i :: 0 <= i < |cmds| ==> Keys(cmds)[i] == ShapeKey(cmds[i].name, cmds[i].setup.program)
    decreases |cmds|
  {
    if |cmds| > 0 {
      ShapeDrawKeys(cmds[1..]);
    }
  }

  lemma ForwardEntryKeys(scene: Store, e: Entry, input: FrameInput)
    ensures Keys(ForwardEntry(scene, e, input)) == [ShapeKey(e.name, CubeProgram(e.cube.kind))]
  {
    var draw := ShapeDraw(e.name, ForwardSetup(scene, e.cube, input));
    KeysOne(draw);
    if e.cube.isSelected {
      KeysThree(StencilFunc(Always, 1, 0xFF), StencilMask(0xFF), draw);
      KeysOne(StencilFunc(NotEqual, 1, 0xFF));
      KeysOne(StencilMask(0x00));
      assert MarkStencil + [draw] == [StencilFunc(Always, 1, 0xFF), StencilMask(0xFF), draw];
      KeysJoin(MarkStencil + [draw], [StencilFunc(NotEqual, 1, 0xFF)], [ShapeKey(e.name, CubeProgram(e.cube.kind))], []);
      KeysJoin(MarkStencil + [draw] + [StencilFunc(NotEqual, 1, 0xFF)], [StencilMask(0x00)], [ShapeKey(e.name, CubeProgram(e.cube.kind))], []);
      assert MarkStencil + [draw] + ProtectStencil == MarkStencil + [draw] + [StencilFunc(NotEqual, 1, 0xFF)] + [StencilMask(0x00)];
    }
  }

  /** The forward loop draws every entry once, in iteration order, with its own program. */
  lemma {:induction false} ForwardDrawKeys(scene: Store, s: Store, input: FrameInput)
    ensures |Keys(ForwardDraws(scene, s, input))| == |s|
    ensures forall i :: 0 <= i < |s| ==> Keys(ForwardDraws(scene, s, input))[i] == ShapeKey(s[i].name, CubeProgram(s[i].cube.kind))
    decreases |s|
  {
    if |s| > 0 {
      ForwardEntryKeys(scene, s[0], input);
      ForwardDrawKeys(scene, s[1..], input);
      KeysConcat(ForwardEntry(scene, s[0], input), ForwardDraws(scene, s[1..], input));
    }
  }

  lemma PrologueKeys()
    ensures Keys(Prologue()) == []
  {
    KeysFour(EnableDepthTest, BindTarget(HDRTarget), Clear(true, true, true), ClearColor(ClearGray));
    KeysOne(BindVertexArray(SphereVao));
    assert Prologue() == [EnableDepthTest, BindTarget(HDRTarget), Clear(true, true, true), ClearColor(ClearGray)]
                         + [BindVertexArray(SphereVao)];
    KeysConcat([EnableDepthTest, BindTarget(HDRTarget), Clear(true, true, true), ClearColor(ClearGray)], [BindVertexArray(SphereVao)]);
  }

  lemma GBufferOpenKeys()
    ensures Keys(GBufferOpen()) == []
  {
    KeysThree(BindTarget(GBuffer), ClearColor(ClearGray), Clear(true, true, false));
  }

  lemma LightingPassKeys(s: Store, input: FrameInput)
    ensures Keys(LightingPass(s, input)) == [ArraysKey(DeferredLightingPBRProgram)]
  {
    KeysFour(BindTarget(HDRTarget), Clear(true, true, false), BindVertexArray(QuadVao), LightingQuad(s, input));
  }

  lemma DepthCopyKeys(input: FrameInput)
    ensures Keys(DepthCopy(input)) == [BlitKey]
  {
    KeysThree(BlitDepth(GBuffer, HDRTarget, input.width, input.height), BindTarget(HDRTarget), BindVertexArray(SphereVao));
  }

  lemma GeometryAndLightingKeys(s: Store, input: FrameInput)
    ensures Keys(GBufferOpen() + GeometryPass(s, input) + LightingPass(s, input)) ==
      Keys(GeometryPass(s, input)) + [ArraysKey(DeferredLightingPBRProgram)]
  {
    GBufferOpenKeys();
    LightingPassKeys(s, input);
    KeysJoin(GBufferOpen(), GeometryPass(s, input), [], Keys(GeometryPass(s, input)));
    KeysJoin(GBufferOpen() + GeometryPass(s, input), LightingPass(s, input), [] + Keys(GeometryPass(s, input)),
             [ArraysKey(DeferredLightingPBRProgram)]);
    assert [] + Keys(GeometryPass(s, input)) == Keys(GeometryPass(s, input));
  }

  lemma DeferredPassKeys(s: Store, input: FrameInput)
    ensures Keys(DeferredPass(s, input)) ==
      Keys(GeometryPass(s, input)) + [ArraysKey(DeferredLightingPBRProgram)] + [BlitKey] + Keys(LightPass(s, s, input))
  {
    var front := GBufferOpen() + GeometryPass(s, input) + LightingPass(s, input);
    var kf, kl := Keys(GeometryPass(s, input)) + [ArraysKey(DeferredLightingPBRProgram)], Keys(LightPass(s, s, input));
    GeometryAndLightingKeys(s, input);
    DepthCopyKeys(input);
    KeysJoin(front, DepthCopy(input), kf, [BlitKey]);
    KeysJoin(front + DepthCopy(input), LightPass(s, s, input), kf + [BlitKey], kl);
  }

  lemma ScenePassesKeys(s: Store, settings: Settings, input: FrameInput)
    ensures Keys(Prologue() + ScenePasses(s, settings, input)) ==
      if settings.deferredOn
      then Keys(GeometryPass(s, input)) + [ArraysKey(DeferredLightingPBRProgram)] + [BlitKey] + Keys(LightPass(s, s, input))
      else Keys(ForwardDraws(s, s, input))
  {
    PrologueKeys();
    KeysConcat(Prologue(), ScenePasses(s, settings, input));
    if settings.deferredOn {
      DeferredPassKeys(s, input);
    } else {
      KeysCons(BindVertexArray(SphereVao), ForwardDraws(s, s, input));
    }
  }

  lemma OutlineStageKeys(s: Store, settings: Settings, input: FrameInput)
    ensures Keys(OutlineStage(s, settings, input)) == if settings.deferredOn then [] else Keys(OutlineDraws(s, input))
  {
    KeysCons(BindVertexArray(SphereVao), if settings.deferredOn then [] else OutlinePass(s, input));
    if !settings.deferredOn {
      var reset := [StencilMask(0xFF), StencilFunc(Always, 1, 0xFF)];
      assert Keys(reset) == [] by {
        assert reset == [StencilMask(0xFF)] + [StencilFunc(Always, 1, 0xFF)];
        KeysCons(StencilMask(0xFF), [StencilFunc(Always, 1, 0xFF)]);
        KeysOne(StencilFunc(Always, 1, 0xFF));
      }
      KeysJoin(OutlineDraws(s, input), reset, Keys(OutlineDraws(s, input)), []);
    }
  }

  lemma SkyStageKeys(settings: Settings, input: FrameInput)
    ensures Keys(SkyStage(settings, input)) == if settings.skyboxOn then [ArraysKey(SkyboxProgram)] else []
  {
    KeysCons(BindVertexArray(CubeVao), if settings.skyboxOn then SkyPass(input) else []);
    if settings.skyboxOn {
      var draw := SkyDraw(input);
      KeysThree(BindVertexArray(SkyVao), SkyboxDraw(input), BindVertexArray(NoVao));
      KeysCons(DepthFunc(LessOrEqual), draw);
      KeysOne(DepthFunc(Less));
      KeysJoin([DepthFunc(LessOrEqual)] + draw, [DepthFunc(Less)], [ArraysKey(SkyboxProgram)], []);
    }
  }

  lemma PostPassesKeys(settings: Settings)
    ensures Keys(PostPasses(settings)) == [ArraysKey(HDRProgram), ArraysKey(ScreenProgram)]
  {
    KeysFour(BindTarget(PostTarget), DisableDepthTest, BindVertexArray(QuadVao), ToneMapQuad(settings));
    KeysThree(BindTarget(DefaultFramebuffer), BindVertexArray(QuadVao), FilterQuad(settings));
    KeysJoin(ToneMapPass(settings), FilterPass(settings), [ArraysKey(HDRProgram)], [ArraysKey(ScreenProgram)]);
  }

  lemma ClosingKeys(s: Store, settings: Settings, input: FrameInput)
    ensures Keys(OutlineStage(s, settings, input) + SkyStage(settings, input) + PostPasses(settings)) ==
      (if settings.deferredOn then [] else Keys(OutlineDraws(s, input)))
      + (if settings.skyboxOn then [ArraysKey(SkyboxProgram)] else [])
      + [ArraysKey(HDRProgram), ArraysKey(ScreenProgram)]
  {
    var ko := if settings.deferredOn then [] else Keys(OutlineDraws(s, input));
    var ks := if settings.skyboxOn then [ArraysKey(SkyboxProgram)] else [];
    OutlineStageKeys(s, settings, input);
    SkyStageKeys(settings, input);
    PostPassesKeys(settings);
    KeysJoin(OutlineStage(s, settings, input), SkyStage(settings, input), ko, ks);
    KeysJoin(OutlineStage(s, settings, input) + SkyStage(settings, input), PostPasses(settings), ko + ks,
             [ArraysKey(HDRProgram), ArraysKey(ScreenProgram)]);
  }

  /** A frame's draws and blits, pass by pass. */
  lemma DrawKeys(s: Store, settings: Settings, input: FrameInput)
    ensures Keys(Draw(s, settings, input)) ==
      (if settings.deferredOn
       then Keys(GeometryPass(s, input)) + [ArraysKey(DeferredLightingPBRProgram)] + [BlitKey] + Keys(LightPass(s, s, input))
       else Keys(ForwardDraws(s, s, input)))
      + ((if settings.deferredOn then [] else Keys(OutlineDraws(s, input)))
         + (if settings.skyboxOn then [ArraysKey(SkyboxProgram)] else [])
         + [ArraysKey(HDRProgram), ArraysKey(ScreenProgram)])
  {
    var front, closing := Prologue() + ScenePasses(s, settings, input),
                          OutlineStage(s, settings, input) + SkyStage(settings, input) + PostPasses(settings);
    Assoc(front, OutlineStage(s, settings, input) + SkyStage(settings, input), PostPasses(settings));
    Assoc(front, OutlineStage(s, settings, input), SkyStage(settings, input));
    ScenePassesKeys(s, settings, input);
    ClosingKeys(s, settings, input);
    KeysConcat(front, closing);
  }

  /** The entry under a name has the given kind. */
  predicate HasKind(s: Store, name: string, k: CubeType) {
    Lookup(s, name).Some? && Lookup(s, name).value.kind == k
  }

  /** The entry under a name is selected. */
  predicate IsSelectedName(s: Store, name: string) {
    Lookup(s, name).Some? && Lookup(s, name).value.isSelected
  }

  /** The head's name is absent from the rest of a map. */
  lemma LookupTail(s: Store, name: string)
    requires |s| > 0 && DistinctNames(s)
    ensures name == s[0].name ==> Lookup(s, name) == Some(s[0].cube) && Lookup(s[1..], name).None?
    ensures name != s[0].name ==> Lookup(s, name) == Lookup(s[1..], name)
  {
  }

  lemma GeometryEntryKeys(e: Entry, input: FrameInput)
    ensures Keys(GeometryEntry(e, input)) == if e.cube.kind == PBR then [ShapeKey(e.name, GBufferPBRProgram)] else []
  {
    if e.cube.kind == PBR {
      KeysOne(GeometryEntry(e, input)[0]);
    }
  }

  lemma LightEntryKeys(scene: Store, e: Entry, input: FrameInput)
    ensures Keys(LightEntry(scene, e, input)) == if e.cube.kind == Light then [ShapeKey(e.name, CubeProgram(Light))] else []
  {
    if e.cube.kind == Light {
      KeysOne(LightEntry(scene, e, input)[0]);
    }
  }

  lemma OutlineEntryKeys(e: Entry, input: FrameInput)
    ensures Keys(OutlineEntry(e, input)) == if e.cube.isSelected then [ShapeKey(e.name, OutlineProgram)] else []
  {
    if e.cube.isSelected {
      KeysOne(OutlineEntry(e, input)[0]);
    }
  }

  lemma {:induction false} GeometryCount(s: Store, input: FrameInput, k: DrawKey)
    requires DistinctNames(s)
    ensures multiset(Keys(GeometryPass(s, input)))[k] ==
      if k.ShapeKey? && k.program == GBufferPBRProgram && HasKind(s, k.name, PBR) then 1 else 0
    decreases |s|
  {
    if |s| > 0 {
      var head := GeometryEntry(s[0], input);
      GeometryEntryKeys(s[0], input);
      KeysConcat(head, GeometryPass(s[1..], input));
      GeometryCount(s[1..], input, k);
      if k.ShapeKey? {
        LookupTail(s, k.name);
      }
    }
  }

  lemma {:induction false} LightPassCount(scene: Store, s: Store, input: FrameInput, k: DrawKey)
    requires DistinctNames(s)
    ensures multiset(Keys(LightPass(scene, s, input)))[k] ==
      if k.ShapeKey? && k.program == CubeProgram(Light) && HasKind(s, k.name, Light) then 1 else 0
    decreases |s|
  {
    if |s| > 0 {
      var head := LightEntry(scene, s[0], input);
      LightEntryKeys(scene, s[0], input);
      KeysConcat(head, LightPass(scene, s[1..], input));
      LightPassCount(scene, s[1..], input, k);
      if k.ShapeKey? {
        LookupTail(s, k.name);
      }
    }
  }

  lemma {:induction false} OutlineCount(s: Store, input: FrameInput, k: DrawKey)
    requires DistinctNames(s)
    ensures multiset(Keys(OutlineDraws(s, input)))[k] ==
      if k.ShapeKey? && k.program == OutlineProgram && IsSelectedName(s, k.name) then 1 else 0
    decreases |s|
  {
    if |s| > 0 {
      var head := OutlineEntry(s[0], input);
      OutlineEntryKeys(s[0], input);
      KeysConcat(head, OutlineDraws(s[1..], input));
      OutlineCount(s[1..], input, k);
      if k.ShapeKey? {
        LookupTail(s, k.name);
      }
    }
  }

  lemma {:induction false} ForwardCount(scene: Store, s: Store, input: FrameInput, k: DrawKey)
    requires DistinctNames(s)
    ensures multiset(Keys(ForwardDraws(scene, s, input)))[k] ==
      if k.ShapeKey? && Lookup(s, k.name).Some? && k.program == CubeProgram(Lookup(s, k.name).value.kind) then 1 else 0
    decreases |s|
  {
    if |s| > 0 {
      ForwardEntryKeys(scene, s[0], input);
      KeysConcat(ForwardEntry(scene, s[0], input), ForwardDraws(scene, s[1..], input));
      ForwardCount(scene, s[1..], input, k);
      if k.ShapeKey? {
        LookupTail(s, k.name);
      }
    }
  }

  /** How many times a deferred frame draws each thing: PBR shapes once into
      the G-buffer, LIGHT shapes once on top, the lighting quad and the depth
      blit once, the skybox once when enabled, tone-mapping and filtering
      once; nothing else, so GLOWY and PHONG shapes are not drawn at all. */
  function DeferredDrawCount(s: Store, skyboxOn: bool, k: DrawKey): nat {
    match k
    case ShapeKey(n, p) =>
      if (p == GBufferPBRProgram && HasKind(s, n, PBR)) || (p == CubeProgram(Light) && HasKind(s, n, Light)) then 1 else 0
    case ArraysKey(p) =>
      if p == DeferredLightingPBRProgram || p == HDRProgram || p == ScreenProgram || (p == SkyboxProgram && skyboxOn) then 1 else 0
    case BlitKey => 1
  }

  /** How many times a forward frame draws each thing: every shape once with
      its kind's program, every selected shape once more with the outline
      program, the skybox once when enabled, tone-mapping and filtering once. */
  function ForwardDrawCount(s: Store, skyboxOn: bool, k: DrawKey): nat {
    match k
    case ShapeKey(n, p) =>
      if Lookup(s, n).Some? && (p == CubeProgram(Lookup(s, n).value.kind) || (p == OutlineProgram && Lookup(s, n).value.isSelected))
      then 1 else 0
    case ArraysKey(p) => if p == HDRProgram || p == ScreenProgram || (p == SkyboxProgram && skyboxOn) then 1 else 0
    case BlitKey => 0
  }

  /** The full-screen draws and the blit of a frame, counted. */
  lemma FixedCount(skyboxOn: bool, deferred: bool, k: DrawKey)
    ensures var ks: seq<DrawKey> := if skyboxOn then [ArraysKey(SkyboxProgram)] else [];
      var front: seq<DrawKey> := if deferred then [ArraysKey(DeferredLightingPBRProgram)] + [BlitKey] else [];
      multiset(front)[k] + multiset(ks)[k] + multiset([ArraysKey(HDRProgram), ArraysKey(ScreenProgram)])[k] ==
        match k
        case ShapeKey(_, _) => 0
        case ArraysKey(p) =>
          if (p == DeferredLightingPBRProgram && deferred) || p == HDRProgram || p == ScreenProgram
             || (p == SkyboxProgram && skyboxOn) then 1 else 0
        case BlitKey => if deferred then 1 else 0
  {
  }

  lemma DeferredFrameCounts(s: Store, settings: Settings, input: FrameInput, k: DrawKey)
    requires settings.deferredOn && DistinctNames(s)
    ensures multiset(Keys(Draw(s, settings, input)))[k] == DeferredDrawCount(s, settings.skyboxOn, k)
  {
    var kg, kl := Keys(GeometryPass(s, input)), Keys(LightPass(s, s, input));
    var ks: seq<DrawKey> := if settings.skyboxOn then [ArraysKey(SkyboxProgram)] else [];
    var front, post := [ArraysKey(DeferredLightingPBRProgram)] + [BlitKey], [ArraysKey(HDRProgram), ArraysKey(ScreenProgram)];
    DrawKeys(s, settings, input);
    DeferredKeysCount(kg, kl, ks, post, k);
    FixedCount(settings.skyboxOn, true, k);
    GeometryCount(s, input, k);
    LightPassCount(s, s, input, k);
    DeferredCountsAdd(s, settings.skyboxOn, k, multiset(kg)[k], multiset(kl)[k], multiset(front)[k] + multiset(ks)[k] + multiset(post)[k]);
  }

  /** Counting one key over the deferred frame's key layout, part by part. */
  lemma DeferredKeysCount(kg: seq<DrawKey>, kl: seq<DrawKey>, ks: seq<DrawKey>, post: seq<DrawKey>, k: DrawKey)
    ensures multiset(kg + [ArraysKey(DeferredLightingPBRProgram)] + [BlitKey] + kl + ([] + ks + post))[k] ==
      multiset(kg)[k] + multiset(kl)[k] +
      (multiset([ArraysKey(DeferredLightingPBRProgram)] + [BlitKey])[k] + multiset(ks)[k] + multiset(post)[k])
  {
  }

  /** Counting one key over the forward frame's key layout, part by part. */
  lemma ForwardKeysCount(kf: seq<DrawKey>, ko: seq<DrawKey>, ks: seq<DrawKey>, post: seq<DrawKey>, k: DrawKey)
    ensures multiset(kf + (ko + ks + post))[k] == multiset(kf)[k] + (multiset(ko)[k] + multiset(ks)[k] + multiset(post)[k])
  {
  }

  lemma DeferredCountsAdd(s: Store, skyboxOn: bool, k: DrawKey, g: nat, l: nat, x: nat)
    requires g == if k.ShapeKey? && k.program == GBufferPBRProgram && HasKind(s, k.name, PBR) then 1 else 0
    requires l == if k.ShapeKey? && k.program == CubeProgram(Light) && HasKind(s, k.name, Light) then 1 else 0
    requires x == if k.ShapeKey? then 0 else DeferredDrawCount(s, skyboxOn, k)
    ensures g + l + x == DeferredDrawCount(s, skyboxOn, k)
  {
  }

  lemma ForwardFrameCounts(s: Store, settings: Settings, input: FrameInput, k: DrawKey)
    requires !settings.deferredOn && DistinctNames(s)
    ensures multiset(Keys(Draw(s, settings, input)))[k] == ForwardDrawCount(s, settings.skyboxOn, k)
  {
    var kf, ko := Keys(ForwardDraws(s, s, input)), Keys(OutlineDraws(s, input));
    var ks: seq<DrawKey> := if settings.skyboxOn then [ArraysKey(SkyboxProgram)] else [];
    var post := [ArraysKey(HDRProgram), ArraysKey(ScreenProgram)];
    DrawKeys(s, settings, input);
    ForwardKeysCount(kf, ko, ks, post, k);
    FixedCount(settings.skyboxOn, false, k);
    ForwardCount(s, s, input, k);
    OutlineCount(s, input, k);
  }

  /** Each frame draws each thing the number of times its mode prescribes. */
  lemma DrawCounts(s: Store, settings: Settings, input: FrameInput, k: DrawKey)
    requires DistinctNames(s)
    ensures multiset(Keys(Draw(s, settings, input)))[k] ==
      if settings.deferredOn then DeferredDrawCount(s, settings.skyboxOn, k) else ForwardDrawCount(s, settings.skyboxOn, k)
  {
    if settings.deferredOn {
      DeferredFrameCounts(s, settings, input, k);
    } else {
      ForwardFrameCounts(s, settings, input, k);
    }
  }

  /** The pass a draw belongs to, in the order a frame runs them. */
  function Phase(k: DrawKey): nat {
    match k
    case ShapeKey(_, p) =>
      if p == GBufferProgram || p == GBufferPBRProgram then 1 else if p == OutlineProgram then 5 else 4
    case ArraysKey(p) =>
      if p == DeferredLightingProgram || p == DeferredLightingPBRProgram then 2
      else if p == SkyboxProgram then 6
      else if p == HDRProgram then 7
      else if p == ScreenProgram then 8
      else 4
    case BlitKey => 3
  }

  predicate PhasesSorted(ks: seq<DrawKey>) {
    forall i, j :: 0 <= i < j < |ks| ==> Phase(ks[i]) <= Phase(ks[j])
  }

  predicate InPhase(ks: seq<DrawKey>, p: nat) {
    forall i :: 0 <= i < |ks| ==> Phase(ks[i]) == p
  }

  predicate PhasesAtMost(ks: seq<DrawKey>, p: nat) {
    forall i :: 0 <= i < |ks| ==> Phase(ks[i]) <= p
  }

  lemma SortedJoin(a: seq<DrawKey>, b: seq<DrawKey>, p: nat, q: nat)
    requires PhasesSorted(a) && PhasesAtMost(a, p) && InPhase(b, q) && p <= q
    ensures PhasesSorted(a + b) && PhasesAtMost(a + b, q)
  {
    forall i, j | 0 <= i < j < |a + b| ensures Phase((a + b)[i]) <= Phase((a + b)[j]) {
      if j >= |a| {
        assert (a + b)[j] == b[j - |a|];
        if i >= |a| {
          assert (a + b)[i] == b[i - |a|];
        }
      }
    }
    forall i | 0 <= i < |a + b| ensures Phase((a + b)[i]) <= q {
      if i >= |a| {
        assert (a + b)[i] == b[i - |a|];
      }
    }
  }

  lemma ShapePhase(cmds: seq<Command>, program: Program, p: nat)
    requires ShapeDrawsOnly(cmds)
    requires forall i :: 0 <= i < |cmds| ==> cmds[i].setup.program == program
    requires Phase(ShapeKey("", program)) == p
    ensures InPhase(Keys(cmds), p)
  {
    ShapeDrawKeys(cmds);
  }

  lemma DeferredPhases(kg: seq<DrawKey>, kl: seq<DrawKey>)
    requires InPhase(kg, 1) && InPhase(kl, 4)
    ensures var ks := kg + [ArraysKey(DeferredLightingPBRProgram)] + [BlitKey] + kl;
      PhasesSorted(ks) && PhasesAtMost(ks, 5)
  {
    SortedJoin([], kg, 0, 1);
    assert [] + kg == kg;
    SortedJoin(kg, [ArraysKey(DeferredLightingPBRProgram)], 1, 2);
    SortedJoin(kg + [ArraysKey(DeferredLightingPBRProgram)], [BlitKey], 2, 3);
    SortedJoin(kg + [ArraysKey(DeferredLightingPBRProgram)] + [BlitKey], kl, 3, 4);
  }

  lemma ForwardPhases(kf: seq<DrawKey>, ko: seq<DrawKey>)
    requires InPhase(kf, 4) && InPhase(ko, 5)
    ensures PhasesSorted(kf + ko) && PhasesAtMost(kf + ko, 5)
  {
    SortedJoin([], kf, 0, 4);
    assert [] + kf == kf;
    SortedJoin(kf, ko, 4, 5);
  }

  lemma ClosingPhases(a: seq<DrawKey>, o: seq<DrawKey>, ks: seq<DrawKey>)
    requires PhasesSorted(a + o) && PhasesAtMost(a + o, 5) && InPhase(ks, 6)
    ensures var all := a + (o + ks + [ArraysKey(HDRProgram), ArraysKey(ScreenProgram)]);
      PhasesSorted(all) && all[|all| - 2] == ArraysKey(HDRProgram) && all[|all| - 1] == ArraysKey(ScreenProgram)
  {
    SortedJoin(a + o, ks, 5, 6);
    SortedJoin(a + o + ks, [ArraysKey(HDRProgram)], 6, 7);
    SortedJoin(a + o + ks + [ArraysKey(HDRProgram)], [ArraysKey(ScreenProgram)], 7, 8);
    ClosingShape(a, o, ks, ArraysKey(HDRProgram), ArraysKey(ScreenProgram));
  }

  lemma ClosingShape<T>(a: seq<T>, o: seq<T>, ks: seq<T>, h: T, f: T)
    ensures a + (o + ks + [h, f]) == a + o + ks + [h] + [f]
  {
    ConsTwo(h, f);
    Assoc(o + ks, [h], [f]);
    Assoc(a, o + ks + [h], [f]);
    Assoc(a, o + ks, [h]);
    Assoc(a, o, ks);
  }

  /** A frame's draws come in pass order: G-buffer geometry, the lighting
      quad, the depth blit, the shape programs, the outlines, the skybox,
      tone-mapping, and filtering last, with tone-mapping just before it. */
  lemma PassOrder(s: Store, settings: Settings, input: FrameInput)
    ensures PhasesSorted(Keys(Draw(s, settings, input)))
    ensures var ks := Keys(Draw(s, settings, input));
      |ks| >= 2 && ks[|ks| - 2] == ArraysKey(HDRProgram) && ks[|ks| - 1] == ArraysKey(ScreenProgram)
  {
    if settings.deferredOn {
      DeferredPassOrder(s, settings, input);
    } else {
      ForwardPassOrder(s, settings, input);
    }
  }

  lemma DeferredPassOrder(s: Store, settings: Settings, input: FrameInput)
    requires settings.deferredOn
    ensures var ks := Keys(Draw(s, settings, input));
      PhasesSorted(ks) && |ks| >= 2 && ks[|ks| - 2] == ArraysKey(HDRProgram) && ks[|ks| - 1] == ArraysKey(ScreenProgram)
  {
    var sky := SkyKeys(settings.skyboxOn);
    var scene := Keys(GeometryPass(s, input)) + [ArraysKey(DeferredLightingPBRProgram)] + [BlitKey] + Keys(LightPass(s, s, input));
    assert Keys(Draw(s, settings, input)) == scene + ([] + sky + [ArraysKey(HDRProgram), ArraysKey(ScreenProgram)]) by {
      DrawKeys(s, settings, input);
    }
    DeferredKeysSorted(s, input, sky);
  }

  lemma ForwardPassOrder(s: Store, settings: Settings, input: FrameInput)
    requires !settings.deferredOn
    ensures var ks := Keys(Draw(s, settings, input));
      PhasesSorted(ks) && |ks| >= 2 && ks[|ks| - 2] == ArraysKey(HDRProgram) && ks[|ks| - 1] == ArraysKey(ScreenProgram)
  {
    var sky := SkyKeys(settings.skyboxOn);
    var kf, ko := Keys(ForwardDraws(s, s, input)), Keys(OutlineDraws(s, input));
    assert Keys(Draw(s, settings, input)) == kf + (ko + sky + [ArraysKey(HDRProgram), ArraysKey(ScreenProgram)]) by {
      DrawKeys(s, settings, input);
    }
    ForwardKeysSorted(s, input, sky);
  }

  /** The skybox draw's key, when there is one, is in the sky phase. */
  lemma SkyKeys(skyboxOn: bool) returns (sky: seq<DrawKey>)
    ensures sky == if skyboxOn then [ArraysKey(SkyboxProgram)] else []
    ensures InPhase(sky, 6)
  {
    sky := if skyboxOn then [ArraysKey(SkyboxProgram)] else [];
  }

  lemma DeferredKeysSorted(s: Store, input: FrameInput, sky: seq<DrawKey>)
    requires InPhase(sky, 6)
    ensures var all := Keys(GeometryPass(s, input)) + [ArraysKey(DeferredLightingPBRProgram)] + [BlitKey] + Keys(LightPass(s, s, input))
                       + ([] + sky + [ArraysKey(HDRProgram), ArraysKey(ScreenProgram)]);
      PhasesSorted(all) && all[|all| - 2] == ArraysKey(HDRProgram) && all[|all| - 1] == ArraysKey(ScreenProgram)
  {
    var scene := DeferredScenePhases(s, input);
    AppendNothing(scene);
    ClosingPhases(scene, [], sky);
  }

  lemma ForwardKeysSorted(s: Store, input: FrameInput, sky: seq<DrawKey>)
    requires InPhase(sky, 6)
    ensures var all := Keys(ForwardDraws(s, s, input)) + (Keys(OutlineDraws(s, input)) + sky + [ArraysKey(HDRProgram), ArraysKey(ScreenProgram)]);
      PhasesSorted(all) && all[|all| - 2] == ArraysKey(HDRProgram) && all[|all| - 1] == ArraysKey(ScreenProgram)
  {
    ForwardScenePhases(s, input);
    ClosingPhases(Keys(ForwardDraws(s, s, input)), Keys(OutlineDraws(s, input)), sky);
  }

  /** The deferred scene passes' draws, in phase order. */
  lemma DeferredScenePhases(s: Store, input: FrameInput) returns (scene: seq<DrawKey>)
    ensures scene == Keys(GeometryPass(s, input)) + [ArraysKey(DeferredLightingPBRProgram)] + [BlitKey] + Keys(LightPass(s, s, input))
    ensures PhasesSorted(scene) && PhasesAtMost(scene, 5)
  {
    ShapePhase(GeometryPass(s, input), GBufferPBRProgram, 1);
    ShapePhase(LightPass(s, s, input), CubeProgram(Light), 4);
    DeferredPhases(Keys(GeometryPass(s, input)), Keys(LightPass(s, s, input)));
    scene := Keys(GeometryPass(s, input)) + [ArraysKey(DeferredLightingPBRProgram)] + [BlitKey] + Keys(LightPass(s, s, input));
  }

  /** The forward loop's and the outline loop's draws, in phase order. */
  lemma ForwardScenePhases(s: Store, input: FrameInput)
    ensures PhasesSorted(Keys(ForwardDraws(s, s, input)) + Keys(OutlineDraws(s, input)))
    ensures PhasesAtMost(Keys(ForwardDraws(s, s, input)) + Keys(OutlineDraws(s, input)), 5)
  {
    ForwardDrawKeys(s, s, input);
    ShapePhase(OutlineDraws(s, input), OutlineProgram, 5);
    ForwardPhases(Keys(ForwardDraws(s, s, input)), Keys(OutlineDraws(s, input)));
  }

  // ----- what the full-screen passes read -----

  /** The lighting quad samples G-buffer attachment i on texture unit i,
      which the constructor assigned to the i-th sampler of the PBR lighting
      program. */
  lemma LightingQuadSamplesGBuffer(s: Store, input: FrameInput)
    ensures |LightingQuad(s, input).textures| == GBufferSlotCount == |LightingPBRSamplers|
    ensures forall i :: 0 <= i < GBufferSlotCount ==>
      LightingQuad(s, input).textures[i] == GBufferColor(i) && i < |Layout(GBuffer, input.width, input.height).value.colors|
  {
  }

  /** The lighting quad's uniforms hold light slot k exactly for the k-th
      LIGHT shape, the light count, and the eye position. */
  lemma LightingQuadUniforms(s: Store, input: FrameInput, k: nat)
    ensures Latest(LightingQuad(s, input).uniforms, "viewPos") == Some(VecValue(input.camera.position))
    ensures Latest(LightingQuad(s, input).uniforms, LightCountName) == Some(IntValue(|OfKind(s, Light)|))
    ensures k < |OfKind(s, Light)| ==>
      Latest(LightingQuad(s, input).uniforms, LightPositionName(k)) == Some(VecValue(OfKind(s, Light)[k].transform.position)) &&
      Latest(LightingQuad(s, input).uniforms, LightColorName(k)) == Some(VecValue(OfKind(s, Light)[k].material.ambient))
    ensures k >= |OfKind(s, Light)| ==>
      Latest(LightingQuad(s, input).uniforms, LightPositionName(k)).None? &&
      Latest(LightingQuad(s, input).uniforms, LightColorName(k)).None?
  {
    var ws := LightVars(s);
    var eye := Write("viewPos", VecValue(input.camera.position));
    assert LightingQuad(s, input).uniforms == ws + [eye];
    LightSlotsHoldLights(s, k);
    assert LightPositionName(k)[0] == 'l' && LightColorName(k)[0] == 'l';
    LatestAppend(ws, eye, "viewPos");
    LatestAppend(ws, eye, LightCountName);
    LatestAppend(ws, eye, LightPositionName(k));
    LatestAppend(ws, eye, LightColorName(k));
  }


  /** A frame ends with the tone-mapping draw into the post-processing
      target and then the filter draw onto the window, both with depth test
      off. */
  lemma FrameCloses(s: Store, settings: Settings, input: FrameInput, st: GLState)
    ensures var evs := Observed(st, Draw(s, settings, input));
      |evs| >= 2 &&
      evs[|evs| - 2].command == ToneMapQuad(settings) && evs[|evs| - 2].state.target == PostTarget && !evs[|evs| - 2].state.depthTest &&
      evs[|evs| - 1].command == FilterQuad(settings) && evs[|evs| - 1].state.target == DefaultFramebuffer && !evs[|evs| - 1].state.depthTest
  {
    var front := Prologue() + ScenePasses(s, settings, input) + OutlineStage(s, settings, input) + SkyStage(settings, input);
    var post := PostPasses(settings);
    assert Draw(s, settings, input) == front + post;
    ClosingEvents(st, front, post, settings);
  }

  lemma ClosingEvents(st: GLState, front: seq<Command>, post: seq<Command>, settings: Settings)
    requires post == PostPasses(settings)
    ensures var evs := Observed(st, front + post);
      |evs| >= 2 &&
      evs[|evs| - 2].command == ToneMapQuad(settings) && evs[|evs| - 2].state.target == PostTarget && !evs[|evs| - 2].state.depthTest &&
      evs[|evs| - 1].command == FilterQuad(settings) && evs[|evs| - 1].state.target == DefaultFramebuffer && !evs[|evs| - 1].state.depthTest
  {
    RunConcat(st, front, post);
    PostPassesRun(Run(st, front), settings);
  }

  /** The tone-mapping draw reads the HDR switch (as 0 or 1) and the
      exposure, the filter draw the four image filters (the inversion flag as
      0 or 1), all from the current settings. */
  lemma PostUniforms(settings: Settings)
    ensures Latest(ToneMapQuad(settings).uniforms, "hdrOn") == Some(IntValue(if settings.hdrOn then 1 else 0))
    ensures Latest(ToneMapQuad(settings).uniforms, "exposure") == Some(FloatValue(settings.exposure))
    ensures Latest(FilterQuad(settings).uniforms, "t_saturation") == Some(FloatValue(settings.filters.saturation))
    ensures Latest(FilterQuad(settings).uniforms, "t_blur") == Some(FloatValue(settings.filters.blur))
    ensures Latest(FilterQuad(settings).uniforms, "t_outline") == Some(FloatValue(settings.filters.outline))
    ensures Latest(FilterQuad(settings).uniforms, "t_invert") == Some(IntValue(if settings.filters.invert then 1 else 0))
  {
    var t := ToneMapQuad(settings).uniforms;
    LatestOfTwo(t[0], t[1], "hdrOn");
    LatestOfTwo(t[0], t[1], "exposure");
    assert t == [t[0], t[1]];
    var f := FilterQuad(settings).uniforms;
    assert f == [f[0], f[1], f[2], f[3]];
    LatestOfFour(f[0], f[1], f[2], f[3], "t_saturation");
    LatestOfFour(f[0], f[1], f[2], f[3], "t_blur");
    LatestOfFour(f[0], f[1], f[2], f[3], "t_outline");
    LatestOfFour(f[0], f[1], f[2], f[3], "t_invert");
  }

  /** Reading a uniform back out of two writes to distinct names. */
  lemma LatestOfTwo(a: UniformWrite, b: UniformWrite, name: string)
    requires a.name != b.name
    ensures name == a.name ==> Latest([a, b], name) == Some(a.value)
    ensures name == b.name ==> Latest([a, b], name) == Some(b.value)
  {
    assert [a, b] == [a] + [b] && [a] == [] + [a];
    LatestAppend([a], b, name);
    LatestAppend([], a, name);
  }

  /** Reading a uniform back out of four writes to distinct names. */
  lemma LatestOfFour(a: UniformWrite, b: UniformWrite, c: UniformWrite, d: UniformWrite, name: string)
    requires a.name != b.name && a.name != c.name && a.name != d.name
    requires b.name != c.name && b.name != d.name && c.name != d.name
    ensures name == a.name ==> Latest([a, b, c, d], name) == Some(a.value)
    ensures name == b.name ==> Latest([a, b, c, d], name) == Some(b.value)
    ensures name == c.name ==> Latest([a, b, c, d], name) == Some(c.value)
    ensures name == d.name ==> Latest([a, b, c, d], name) == Some(d.value)
  {
    assert [a, b, c, d] == [a, b, c] + [d];
    assert [a, b, c] == [a, b] + [c];
    LatestAppend([a, b, c], d, name);
    LatestAppend([a, b], c, name);
    LatestOfTwo(a, b, name);
  }
}

=== FILE: model_loader.dfy ===
/** Model loading (Model.cpp): the directory prefix of the model path, the
    pre-order walk of the imported node tree, the per-mesh vertex, index and
    texture collection, and the path-keyed texture cache shared by all
    meshes of one model.

    The importer is a parameter: the scene it produced (`None` when it
    failed). Texture files are opened through the registry's `AddTexture`,
    whose only I/O is the set `openable` of paths that open. Uploading a mesh
    to the GPU is not modelled; a mesh is its vertex, index and texture lists. */
module ModelLoader {
  import opened Common
  import Resources

  // ----- the imported scene -----

  /** One imported mesh: positions, optional normals, the optional first
      texture-coordinate channel, faces as index lists, and its material. */
  datatype AiMesh = AiMesh(
    vertices: seq<Vec3>,
    normals: Option<seq<Vec3>>,
    texCoords: Option<seq<Vec2>>,
    faces: seq<seq<nat>>,
    materialIndex: nat)

  /** The texture file names a material lists under the four texture types
      the loader asks for. */
  datatype AiMaterial = AiMaterial(diffuse: seq<string>, specular: seq<string>, height: seq<string>, ambient: seq<string>)

  /** A node of the imported hierarchy: indices into the scene's meshes, and children. */
  datatype AiNode = AiNode(meshes: seq<nat>, children: seq<AiNode>)

  datatype AiScene = AiScene(meshes: seq<AiMesh>, materials: seq<AiMaterial>, root: Option<AiNode>, incomplete: bool)

  /** What the importer guarantees of a mesh it hands out: per-vertex arrays
      as long as the positions, face indices naming vertices, and a material
      of the scene. */
  predicate ValidMesh(m: AiMesh, materialCount: nat) {
    (m.normals.Some? ==> |m.normals.value| == |m.vertices|) &&
    (m.texCoords.Some? ==> |m.texCoords.value| == |m.vertices|) &&
    (forall i, j :: 0 <= i < |m.faces| && 0 <= j < |m.faces[i]| ==> m.faces[i][j] < |m.vertices|) &&
    m.materialIndex < materialCount
  }

  predicate ValidNode(node: AiNode, meshCount: nat) {
    (forall i :: 0 <= i < |node.meshes| ==> node.meshes[i] < meshCount) &&
    (forall i :: 0 <= i < |node.children| ==> ValidNode(node.children[i], meshCount))
  }

  predicate ValidScene(scene: AiScene) {
    (forall i :: 0 <= i < |scene.meshes| ==> ValidMesh(scene.meshes[i], |scene.materials|)) &&
    (scene.root.Some? ==> ValidNode(scene.root.value, |scene.meshes|))
  }

  // ----- the loaded model -----

  /** A vertex; the normal stays uninitialised (`None`) when the mesh has none. */
  datatype Vertex = Vertex(position: Vec3, normal: Option<Vec3>, texCoords: Vec2)

  datatype MeshData = MeshData(vertices: seq<Vertex>, indices: seq<nat>, textures: seq<Option<Resources.Texture>>)

  /** The registry and the model's fields while the tree is walked. */
  datatype Loader = Loader(rm: Resources.ResourceManager, texturesLoaded: seq<Option<Resources.Texture>>, meshes: seq<MeshData>)

  datatype Model = Model(texturesLoaded: seq<Option<Resources.Texture>>, meshes: seq<MeshData>, directory: string)

  /** Where every material texture file is looked for, whatever the model. */
  const ObjectDirectory := "../resources/objects/backpack/"

  // ----- the directory prefix -----

  /** `find_last_of('/')`: the position of the last slash, if any. */
  function LastSlash(path: string): (r: Option<nat>)
    ensures r.Some? ==> r.value < |path| && path[r.value] == '/' && '/' !in path[r.value + 1..]
    ensures r.None? ==> '/' !in path
  {
    if |path| == 0 then None
    else if path[|path| - 1] == '/' then Some(|path| - 1)
    else
      var r := LastSlash(path[..|path| - 1]);
      assert path[..|path| - 1] + [path[|path| - 1]] == path;
      if r.Some? then
        assert path[r.value + 1..] == path[..|path| - 1][r.value + 1..] + [path[|path| - 1]];
        r
      else r
  }

  /** `path.substr(0, path.find_last_of('/'))`: up to the last slash, or the
      whole path (`npos` reads as "to the end") when there is none. */
  function Directory(path: string): (d: string)
    ensures d <= path
    ensures '/' in path ==> |d| < |path| && path[|d|] == '/' && '/' !in path[|d| + 1..]
    ensures '/' !in path ==> d == path
  {
    match LastSlash(path)
    case None => path
    case Some(k) => path[..k]
  }

  /** A directory joined to a file name gives back the directory. */
  lemma DirectoryOfJoin(dir: string, file: string)
    requires '/' !in file
    ensures Directory(dir + "/" + file) == dir
  {
    var p := dir + "/" + file;
    assert p[|dir|] == '/';
    assert p[|dir| + 1..] == file;
  }

  // ----- the texture cache -----

  /** No two loaded textures share a path. */
  predicate DistinctPaths(loaded: seq<Option<Resources.Texture>>) {
    forall i, j :: 0 <= i < j < |loaded| && loaded[i].Some? && loaded[j].Some? ==> loaded[i].value.path != loaded[j].value.path
  }

  predicate NoNulls(loaded: seq<Option<Resources.Texture>>) {
    forall j :: 0 <= j < |loaded| ==> loaded[j].Some?
  }

  /** The scan of `texturesLoaded`: the first texture with the path, none,
      or a null dereference when it reaches a null entry first. */
  function FindLoaded(loaded: seq<Option<Resources.Texture>>, path: string): (r: Result<Option<Resources.Texture>>)
    ensures r.Ok? && r.value.Some? ==> r.value.value.path == path && exists j :: 0 <= j < |loaded| && loaded[j] == r.value
    ensures r.Ok? && r.value.None? ==> NoNulls(loaded) && forall j :: 0 <= j < |loaded| ==> loaded[j].value.path != path
    ensures r.Fail? ==> r.fault == NullDereference && !NoNulls(loaded)
    ensures NoNulls(loaded) ==> r.Ok?
  {
    if |loaded| == 0 then Ok(None)
    else if loaded[0].None? then Fail(NullDereference)
    else if loaded[0].value.path == path then Ok(loaded[0])
    else
      var r := FindLoaded(loaded[1..], path);
      assert forall j :: 0 < j < |loaded| ==> loaded[j] == loaded[1..][j - 1];
      assert r.Ok? && r.value.Some? ==> exists j :: 0 <= j < |loaded[1..]| && loaded[1..][j] == r.value;
      r
  }

  /** The name a freshly loaded texture is registered under. */
  function TextureName(typeName: string, i: nat): string {
    "Texxx " + typeName + " " + NatToString(i)
  }

  /** One iteration of `loadMaterialTextures`: a texture whose path is
      already cached is reused without touching the registry; otherwise one
      `AddTexture` call, whose result (null when the file does not open) is
      both returned and cached. */
  function LoadTexture(ld: Loader, openable: set<string>, typeName: string, i: nat, file: string)
    : (r: Result<(Loader, Option<Resources.Texture>)>)
    ensures r.Fail? ==> r.fault == NullDereference
    ensures r.Ok? ==> r.value.0.meshes == ld.meshes
    ensures r.Ok? ==> r.value.1.Some? ==> r.value.1.value.path == ObjectDirectory + file
    ensures r.Ok? ==> r.value.1.None? ==> ObjectDirectory + file !in openable
    ensures r.Ok? ==> ld.texturesLoaded <= r.value.0.texturesLoaded && |r.value.0.texturesLoaded| <= |ld.texturesLoaded| + 1
    ensures r.Ok? && |r.value.0.texturesLoaded| == |ld.texturesLoaded| ==> r.value.0 == ld
    ensures r.Ok? && |r.value.0.texturesLoaded| > |ld.texturesLoaded| ==>
      r.value.0.texturesLoaded[|ld.texturesLoaded|] == r.value.1 &&
      r.value.0.rm == Resources.AddTexture(ld.rm, openable, TextureName(typeName, i), ObjectDirectory + file, typeName).0 &&
      forall j :: 0 <= j < |ld.texturesLoaded| ==> ld.texturesLoaded[j].Some? && ld.texturesLoaded[j].value.path != ObjectDirectory + file
    ensures DistinctPaths(ld.texturesLoaded) && r.Ok? ==> DistinctPaths(r.value.0.texturesLoaded)
    ensures NoNulls(ld.texturesLoaded) ==> r.Ok?
  {
    var path := ObjectDirectory + file;
    var found :- FindLoaded(ld.texturesLoaded, path);
    if found.Some? then Ok((ld, found))
    else
      var added := Resources.AddTexture(ld.rm, openable, TextureName(typeName, i), path, typeName);
      Ok((ld.(rm := added.0, texturesLoaded := ld.texturesLoaded + [added.1]), added.1))
  }

  /** A slot holds the texture of `path`, or null because the file does
      not open. */
  predicate LoadedFrom(t: Option<Resources.Texture>, path: string, openable: set<string>) {
    (t.Some? ==> t.value.path == path) && (t.None? ==> path !in openable)
  }

  /** `loadMaterialTextures` from slot `i` on: one texture per listed file,
      in slot order. */
  function LoadTexturesFrom(ld: Loader, openable: set<string>, typeName: string, files: seq<string>, i: nat)
    : (r: Result<(Loader, seq<Option<Resources.Texture>>)>)
    requires i <= |files|
    ensures r.Fail? ==> r.fault == NullDereference
    ensures r.Ok? ==> r.value.0.meshes == ld.meshes && ld.texturesLoaded <= r.value.0.texturesLoaded
    ensures r.Ok? ==> |r.value.1| == |files| - i
    ensures r.Ok? ==> forall k :: 0 <= k < |r.value.1| ==>
      LoadedFrom(r.value.1[k], ObjectDirectory + files[i + k], openable)
    decreases |files| - i
  {
    if i == |files| then Ok((ld, []))
    else
      var step :- LoadTexture(ld, openable, typeName, i, files[i]);
      var rest :- LoadTexturesFrom(step.0, openable, typeName, files, i + 1);
      assert LoadedFrom(step.1, ObjectDirectory + files[i], openable);
      Ok((rest.0, [step.1] + rest.1))
  }

  /** The cache never gains a second texture for a path it already holds. */
  lemma {:induction false} LoadTexturesFromDistinct(ld: Loader, openable: set<string>, typeName: string, files: seq<string>, i: nat)
    requires i <= |files| && DistinctPaths(ld.texturesLoaded)
    ensures LoadTexturesFrom(ld, openable, typeName, files, i).Ok? ==>
      DistinctPaths(LoadTexturesFrom(ld, openable, typeName, files, i).value.0.texturesLoaded)
    decreases |files| - i
  {
    if i < |files| {
      var step := LoadTexture(ld, openable, typeName, i, files[i]);
      if step.Ok? {
        LoadTexturesFromDistinct(step.value.0, openable, typeName, files, i + 1);
      }
    }
  }

  /** One texture per listed file, in list order, each loaded from the
      object directory plus that file. */
  predicate LoadedFromAll(ts: seq<Option<Resources.Texture>>, files: seq<string>, openable: set<string>) {
    |ts| == |files| && forall k :: 0 <= k < |files| ==> LoadedFrom(ts[k], ObjectDirectory + files[k], openable)
  }

  lemma LoadedFromAllConcat(a: seq<Option<Resources.Texture>>, fa: seq<string>,
                            b: seq<Option<Resources.Texture>>, fb: seq<string>, openable: set<string>)
    requires LoadedFromAll(a, fa, openable) && LoadedFromAll(b, fb, openable)
    ensures LoadedFromAll(a + b, fa + fb, openable)
  {
    forall k | 0 <= k < |fa + fb| ensures LoadedFrom((a + b)[k], ObjectDirectory + (fa + fb)[k], openable) {
      if k >= |fa| {
        assert (a + b)[k] == b[k - |fa|] && (fa + fb)[k] == fb[k - |fa|];
      }
    }
  }

  /** `loadMaterialTextures(mat, type, typeName)`. */
  function LoadMaterialTextures(ld: Loader, openable: set<string>, typeName: string, files: seq<string>)
    : (r: Result<(Loader, seq<Option<Resources.Texture>>)>)
    ensures r.Fail? ==> r.fault == NullDereference
    ensures r.Ok? ==> r.value.0.meshes == ld.meshes && ld.texturesLoaded <= r.value.0.texturesLoaded
    ensures r.Ok? ==> LoadedFromAll(r.value.1, files, openable)
    ensures DistinctPaths(ld.texturesLoaded) && r.Ok? ==> DistinctPaths(r.value.0.texturesLoaded)
  {
    if DistinctPaths(ld.texturesLoaded) then
      LoadTexturesFromDistinct(ld, openable, typeName, files, 0);
      LoadTexturesFrom(ld, openable, typeName, files, 0)
    else LoadTexturesFrom(ld, openable, typeName, files, 0)
  }

  /** When every cached texture loaded and every listed file opens, the
      cache scan never meets a null: loading succeeds and the cache stays
      free of nulls. */
  lemma {:induction false} LoadTexturesSucceed(ld: Loader, openable: set<string>, typeName: string, files: seq<string>, i: nat)
    requires i <= |files| && NoNulls(ld.texturesLoaded)
    requires forall k :: 0 <= k < |files| ==> ObjectDirectory + files[k] in openable
    ensures LoadTexturesFrom(ld, openable, typeName, files, i).Ok?
    ensures NoNulls(LoadTexturesFrom(ld, openable, typeName, files, i).value.0.texturesLoaded)
    decreases |files| - i
  {
    if i < |files| {
      var step := LoadTexture(ld, openable, typeName, i, files[i]);
      assert step.Ok?;
      var t := step.value.0.texturesLoaded;
      forall j | 0 <= j < |t| ensures t[j].Some? {
        if j >= |ld.texturesLoaded| {
          assert |t| > |ld.texturesLoaded| && t[|ld.texturesLoaded|] == step.value.1;
        }
      }
      LoadTexturesSucceed(step.value.0, openable, typeName, files, i + 1);
    }
  }

  /** A file that does not open leaves a null in the cache, and the next
      lookup of any other path dereferences it. */
  lemma NullInCacheFails(ld: Loader, openable: set<string>, typeName: string, a: string, b: string)
    requires ld.texturesLoaded == [] && ObjectDirectory + a !in openable && a != b
    ensures LoadTexturesFrom(ld, openable, typeName, [a, b], 0).Fail?
  {
    var step := LoadTexture(ld, openable, typeName, 0, a);
    assert step.Ok? && step.value.0.texturesLoaded == [None];
    assert ObjectDirectory + a != ObjectDirectory + b by {
      PrefixCancel(ObjectDirectory, a, b);
    }
  }

  // ----- meshes -----

  /** The vertex the loop builds at position i. */
  function MakeVertex(m: AiMesh, i: nat): (v: Vertex)
    requires i < |m.vertices|
    requires m.normals.Some? ==> |m.normals.value| == |m.vertices|
    requires m.texCoords.Some? ==> |m.texCoords.value| == |m.vertices|
  {
    Vertex(m.vertices[i],
           if m.normals.Some? then Some(m.normals.value[i]) else None,
           if m.texCoords.Some? then m.texCoords.value[i] else Vec2(0.0, 0.0))
  }

  /** Every face's indices, face by face. */
  function Flatten(faces: seq<seq<nat>>): (r: seq<nat>)
    ensures |faces| > 0 ==> r == faces[0] + Flatten(faces[1..])
  {
    if |faces| == 0 then [] else faces[0] + Flatten(faces[1..])
  }

  /** Flattening keeps every index, so indices that name vertices still do. */
  lemma {:induction false} FlattenBounded(faces: seq<seq<nat>>, n: nat)
    requires forall i, j :: 0 <= i < |faces| && 0 <= j < |faces[i]| ==> faces[i][j] < n
    ensures forall k :: 0 <= k < |Flatten(faces)| ==> Flatten(faces)[k] < n
  {
    if |faces| > 0 {
      FlattenBounded(faces[1..], n) by {
        forall i, j | 0 <= i < |faces[1..]| && 0 <= j < |faces[1..][i]| ensures faces[1..][i][j] < n {
          assert faces[1..][i] == faces[i + 1];
        }
      }
    }
  }

  /** The texture files of a material in the order the loader asks for
      them: diffuse, specular, the HEIGHT type (loaded as normal maps), the
      AMBIENT type (loaded as height maps). */
  function MaterialFiles(mat: AiMaterial): seq<string> {
    mat.diffuse + mat.specular + mat.height + mat.ambient
  }

  /** The four `loadMaterialTextures` calls of `processMesh`, their results
      appended in call order: one texture per file of `MaterialFiles`. */
  function MeshTextures(ld: Loader, openable: set<string>, mat: AiMaterial)
    : (r: Result<(Loader, seq<Option<Resources.Texture>>)>)
    ensures r.Fail? ==> r.fault == NullDereference
    ensures r.Ok? ==> r.value.0.meshes == ld.meshes && ld.texturesLoaded <= r.value.0.texturesLoaded
    ensures r.Ok? ==> LoadedFromAll(r.value.1, MaterialFiles(mat), openable)
    ensures DistinctPaths(ld.texturesLoaded) && r.Ok? ==> DistinctPaths(r.value.0.texturesLoaded)
  {
    var d :- LoadMaterialTextures(ld, openable, "texture_diffuse", mat.diffuse);
    var s :- LoadMaterialTextures(d.0, openable, "texture_specular", mat.specular);
    var n :- LoadMaterialTextures(s.0, openable, "texture_normal", mat.height);
    var h :- LoadMaterialTextures(n.0, openable, "texture_height", mat.ambient);
    LoadedFromAllConcat(d.1, mat.diffuse, s.1, mat.specular, openable);
    LoadedFromAllConcat(d.1 + s.1, mat.diffuse + mat.specular, n.1, mat.height, openable);
    LoadedFromAllConcat(d.1 + s.1 + n.1, mat.diffuse + mat.specular + mat.height, h.1, mat.ambient, openable);
    Ok((h.0, d.1 + s.1 + n.1 + h.1))
  }

  /** The material a valid mesh names. */
  function MaterialOf(scene: AiScene, m: AiMesh): AiMaterial
    requires ValidMesh(m, |scene.materials|)
  {
    scene.materials[m.materialIndex]
  }

  /** `processMesh` as the source has it: the `return` sits inside the
      per-vertex loop, so the first iteration returns a mesh holding only
      the first vertex (with every face index and the textures), and a mesh
      without vertices reaches the end of the function without returning. */
  function ProcessMeshAsWritten(ld: Loader, openable: set<string>, scene: AiScene, m: AiMesh)
    : (r: Result<(Loader, MeshData)>)
    requires ValidMesh(m, |scene.materials|)
    ensures |m.vertices| == 0 <==> r == Fail(MissingReturn)
    ensures r.Fail? && |m.vertices| > 0 ==> r.fault == NullDereference
    ensures r.Ok? ==> |r.value.1.vertices| == 1 && r.value.1.vertices[0] == MakeVertex(m, 0)
    ensures r.Ok? ==> r.value.1.indices == Flatten(m.faces)
    ensures r.Ok? ==> LoadedFromAll(r.value.1.textures, MaterialFiles(MaterialOf(scene, m)), openable)
    ensures r.Ok? ==> r.value.0.meshes == ld.meshes && ld.texturesLoaded <= r.value.0.texturesLoaded
    ensures DistinctPaths(ld.texturesLoaded) && r.Ok? ==> DistinctPaths(r.value.0.texturesLoaded)
  {
    if |m.vertices| == 0 then Fail(MissingReturn)
    else
      var t :- MeshTextures(ld, openable, MaterialOf(scene, m));
      Ok((t.0, MeshData([MakeVertex(m, 0)], Flatten(m.faces), t.1)))
  }

  /** `processMesh` with the vertex loop closed after its `push_back`, so the
      face and texture code and the `return` run once: every vertex, every
      face index, then the textures. */
  function ProcessMesh(ld: Loader, openable: set<string>, scene: AiScene, m: AiMesh)
    : (r: Result<(Loader, MeshData)>)
    requires ValidMesh(m, |scene.materials|)
    ensures r.Fail? ==> r.fault == NullDereference
    ensures r.Ok? ==> |r.value.1.vertices| == |m.vertices| && r.value.1.indices == Flatten(m.faces)
    ensures r.Ok? ==> forall i :: 0 <= i < |m.vertices| ==> r.value.1.vertices[i] == MakeVertex(m, i)
    ensures r.Ok? ==> forall k :: 0 <= k < |r.value.1.indices| ==> r.value.1.indices[k] < |r.value.1.vertices|
    ensures r.Ok? ==> LoadedFromAll(r.value.1.textures, MaterialFiles(MaterialOf(scene, m)), openable)
    ensures r.Ok? ==> r.value.0.meshes == ld.meshes && ld.texturesLoaded <= r.value.0.texturesLoaded
    ensures DistinctPaths(ld.texturesLoaded) && r.Ok? ==> DistinctPaths(r.value.0.texturesLoaded)
  {
    var t :- MeshTextures(ld, openable, MaterialOf(scene, m));
    FlattenBounded(m.faces, |m.vertices|);
    Ok((t.0, MeshData(seq(|m.vertices|, i requires 0 <= i < |m.vertices| => MakeVertex(m, i)), Flatten(m.faces), t.1)))
  }

  /** The two agree on everything but the vertex list, except that the one
      as written has no result at all for a mesh without vertices. */
  lemma ProcessMeshFix(ld: Loader, openable: set<string>, scene: AiScene, m: AiMesh)
    requires ValidMesh(m, |scene.materials|)
    ensures |m.vertices| == 0 ==> ProcessMeshAsWritten(ld, openable, scene, m).Fail? &&
                                  ProcessMeshAsWritten(ld, openable, scene, m).fault == MissingReturn
    ensures |m.vertices| > 0 ==>
      (ProcessMeshAsWritten(ld, openable, scene, m).Ok? <==> ProcessMesh(ld, openable, scene, m).Ok?)
    ensures |m.vertices| > 0 && ProcessMesh(ld, openable, scene, m).Ok? ==>
      var w, c := ProcessMeshAsWritten(ld, openable, scene, m).value, ProcessMesh(ld, openable, scene, m).value;
      w.0 == c.0 && w.1 == c.1.(vertices := c.1.vertices[..1])
  {
    if |m.vertices| > 0 {
      var t := MeshTextures(ld, openable, MaterialOf(scene, m));
      var c := ProcessMesh(ld, openable, scene, m);
      assert c.Ok? <==> t.Ok?;
      if c.Ok? {
        assert c.value.1.vertices[..1] == [MakeVertex(m, 0)];
      }
    }
  }

  /** A single triangle: as written, its mesh keeps one vertex while its
      indices still name vertices 1 and 2. */
  lemma TriangleLosesVertices(ld: Loader, openable: set<string>, p: Vec3)
    requires NoNulls(ld.texturesLoaded)
    ensures var scene := AiScene([], [AiMaterial([], [], [], [])], None, false);
      var tri := AiMesh([p, p, p], None, None, [[0, 1, 2]], 0);
      ValidMesh(tri, 1) &&
      ProcessMeshAsWritten(ld, openable, scene, tri).Ok? &&
      ProcessMeshAsWritten(ld, openable, scene, tri).value.1.indices == [0, 1, 2] &&
      |ProcessMeshAsWritten(ld, openable, scene, tri).value.1.vertices| == 1
  {
    var tri := AiMesh([p, p, p], None, None, [[0, 1, 2]], 0);
    assert Flatten(tri.faces) == [0, 1, 2] + Flatten([]);
  }

  // ----- the node walk -----

  /** Which `processMesh` the walk calls: the one the source has, whose
      `return` sits inside the vertex loop, or the corrected one. */
  datatype Builder = AsWritten | Corrected

  function BuildMesh(b: Builder, ld: Loader, openable: set<string>, scene: AiScene, m: AiMesh)
    : Result<(Loader, MeshData)>
    requires ValidMesh(m, |scene.materials|)
  {
    match b
    case AsWritten => ProcessMeshAsWritten(ld, openable, scene, m)
    case Corrected => ProcessMesh(ld, openable, scene, m)
  }

  /** A loaded mesh built by `b` from the scene's mesh `id`: its faces'
      indices, one texture per material file, and the vertices that builder
      keeps: all of them, or as written only the first, which a mesh
      without vertices does not have. */
  predicate Built(b: Builder, md: MeshData, scene: AiScene, id: nat, openable: set<string>)
    requires ValidScene(scene) && id < |scene.meshes|
  {
    var m := scene.meshes[id];
    md.indices == Flatten(m.faces) &&
    LoadedFromAll(md.textures, MaterialFiles(MaterialOf(scene, m)), openable) &&
    match b
    case Corrected =>
      |md.vertices| == |m.vertices| && forall i :: 0 <= i < |m.vertices| ==> md.vertices[i] == MakeVertex(m, i)
    case AsWritten =>
      0 < |m.vertices| && md.vertices == [MakeVertex(m, 0)]
  }

  /** The faults a walk with builder `b` can end in: a null cache entry, and
      for the source's builder also the missing return. */
  predicate WalkFault(b: Builder, f: Fault) {
    f == NullDereference || (b.AsWritten? && f == MissingReturn)
  }

  /** `meshes.push_back(processMesh(...))` for the scene's mesh `id`. */
  function AppendMesh(b: Builder, ld: Loader, openable: set<string>, scene: AiScene, id: nat): (r: Result<Loader>)
    requires ValidScene(scene) && id < |scene.meshes|
    ensures r.Fail? ==> WalkFault(b, r.fault)
    ensures b.AsWritten? && |scene.meshes[id].vertices| == 0 ==> r == Fail(MissingReturn)
    ensures r.Ok? ==> |r.value.meshes| == |ld.meshes| + 1 && ld.meshes <= r.value.meshes
    ensures r.Ok? ==> Built(b, r.value.meshes[|ld.meshes|], scene, id, openable)
    ensures r.Ok? ==> ld.texturesLoaded <= r.value.texturesLoaded
    ensures DistinctPaths(ld.texturesLoaded) && r.Ok? ==> DistinctPaths(r.value.texturesLoaded)
  {
    var p :- BuildMesh(b, ld, openable, scene, scene.meshes[id]);
    Ok(p.0.(meshes := p.0.meshes + [p.1]))
  }

  /** The meshes `ids` processed and appended one after another. */
  function ProcessMeshes(b: Builder, ld: Loader, openable: set<string>, scene: AiScene, ids: seq<nat>): (r: Result<Loader>)
    requires ValidScene(scene)
    requires forall i :: 0 <= i < |ids| ==> ids[i] < |scene.meshes|
    ensures r.Fail? ==> WalkFault(b, r.fault)
    ensures r.Ok? ==> |r.value.meshes| == |ld.meshes| + |ids| && ld.meshes <= r.value.meshes
    ensures r.Ok? ==> ld.texturesLoaded <= r.value.texturesLoaded
    decreases |ids|
  {
    if |ids| == 0 then Ok(ld)
    else
      var next :- AppendMesh(b, ld, openable, scene, ids[0]);
      ProcessMeshes(b, next, openable, scene, ids[1..])
  }

  /** The meshes from position `base` on are built by `b`, in order, from the
      scene's meshes `ids`. */
  ghost predicate BuiltFrom(b: Builder, meshes: seq<MeshData>, base: nat, scene: AiScene, ids: seq<nat>, openable: set<string>) {
    ValidScene(scene) && base + |ids| <= |meshes| &&
    forall k :: 0 <= k < |ids| ==> ids[k] < |scene.meshes| && Built(b, meshes[base + k], scene, ids[k], openable)
  }

  lemma BuiltFromStep(b: Builder, meshes: seq<MeshData>, base: nat, scene: AiScene, ids: seq<nat>, openable: set<string>)
    requires ValidScene(scene) && |ids| > 0 && base < |meshes| && ids[0] < |scene.meshes|
    requires Built(b, meshes[base], scene, ids[0], openable)
    requires BuiltFrom(b, meshes, base + 1, scene, ids[1..], openable)
    ensures BuiltFrom(b, meshes, base, scene, ids, openable)
  {
    forall k | 0 < k < |ids|
      ensures ids[k] < |scene.meshes| && Built(b, meshes[base + k], scene, ids[k], openable)
    {
      assert ids[k] == ids[1..][k - 1];
    }
  }

  /** Mesh k of the appended ones is built by `b` from the scene's mesh
      `ids[k]`; as written, that is one vertex per mesh. */
  lemma {:induction false} ProcessMeshesBuilt(b: Builder, ld: Loader, openable: set<string>, scene: AiScene, ids: seq<nat>)
    requires ValidScene(scene)
    requires forall i :: 0 <= i < |ids| ==> ids[i] < |scene.meshes|
    ensures ProcessMeshes(b, ld, openable, scene, ids).Ok? ==>
      BuiltFrom(b, ProcessMeshes(b, ld, openable, scene, ids).value.meshes, |ld.meshes|, scene, ids, openable)
    decreases |ids|
  {
    if |ids| > 0 {
      var next := AppendMesh(b, ld, openable, scene, ids[0]);
      if next.Ok? {
        ProcessMeshesBuilt(b, next.value, openable, scene, ids[1..]);
        var r := ProcessMeshes(b, next.value, openable, scene, ids[1..]);
        assert r == ProcessMeshes(b, ld, openable, scene, ids);
        if r.Ok? {
          assert r.value.meshes[|ld.meshes|] == next.value.meshes[|ld.meshes|];
          BuiltFromStep(b, r.value.meshes, |ld.meshes|, scene, ids, openable);
        }
      }
    }
  }

  /** The cache keeps its paths distinct across any number of meshes. */
  lemma {:induction false} ProcessMeshesDistinct(b: Builder, ld: Loader, openable: set<string>, scene: AiScene, ids: seq<nat>)
    requires ValidScene(scene) && DistinctPaths(ld.texturesLoaded)
    requires forall i :: 0 <= i < |ids| ==> ids[i] < |scene.meshes|
    ensures ProcessMeshes(b, ld, openable, scene, ids).Ok? ==> DistinctPaths(ProcessMeshes(b, ld, openable, scene, ids).value.texturesLoaded)
    decreases |ids|
  {
    if |ids| > 0 {
      var next := AppendMesh(b, ld, openable, scene, ids[0]);
      if next.Ok? {
        ProcessMeshesDistinct(b, next.value, openable, scene, ids[1..]);
      }
    }
  }

  /** `processNode`: the node's own meshes in index order, then each child's
      subtree in order. */
  function ProcessNode(b: Builder, ld: Loader, openable: set<string>, scene: AiScene, node: AiNode): (r: Result<Loader>)
    requires ValidScene(scene) && ValidNode(node, |scene.meshes|)
    decreases node, 1
  {
    var own :- ProcessMeshes(b, ld, openable, scene, node.meshes);
    ProcessChildren(b, own, openable, scene, node.children)
  }

  function ProcessChildren(b: Builder, ld: Loader, openable: set<string>, scene: AiScene, children: seq<AiNode>): (r: Result<Loader>)
    requires ValidScene(scene) && forall i :: 0 <= i < |children| ==> ValidNode(children[i], |scene.meshes|)
    decreases children, 0
  {
    if |children| == 0 then Ok(ld)
    else
      var first :- ProcessNode(b, ld, openable, scene, children[0]);
      ProcessChildren(b, first, openable, scene, children[1..])
  }

  /** The pre-order mesh sequence of a subtree: the reference order. */
  function MeshOrder(node: AiNode): seq<nat>
    decreases node, 1
  {
    node.meshes + ChildrenOrder(node.children)
  }

  function ChildrenOrder(children: seq<AiNode>): seq<nat>
    decreases children, 0
  {
    if |children| == 0 then [] else MeshOrder(children[0]) + ChildrenOrder(children[1..])
  }

  lemma {:induction false} MeshOrderBounded(node: AiNode, n: nat)
    requires ValidNode(node, n)
    ensures forall i :: 0 <= i < |MeshOrder(node)| ==> MeshOrder(node)[i] < n
    decreases node, 1
  {
    ChildrenOrderBounded(node.children, n);
  }

  lemma {:induction false} ChildrenOrderBounded(children: seq<AiNode>, n: nat)
    requires forall i :: 0 <= i < |children| ==> ValidNode(children[i], n)
    ensures forall i :: 0 <= i < |ChildrenOrder(children)| ==> ChildrenOrder(children)[i] < n
    decreases children, 0
  {
    if |children| > 0 {
      MeshOrderBounded(children[0], n);
      ChildrenOrderBounded(children[1..], n);
    }
  }

  /** Processing two index lists one after the other is processing their concatenation. */
  lemma {:induction false} ProcessMeshesConcat(b: Builder, ld: Loader, openable: set<string>, scene: AiScene, xs: seq<nat>, ys: seq<nat>)
    requires ValidScene(scene)
    requires forall i :: 0 <= i < |xs| ==> xs[i] < |scene.meshes|
    requires forall i :: 0 <= i < |ys| ==> ys[i] < |scene.meshes|
    ensures ProcessMeshes(b, ld, openable, scene, xs + ys) ==
      match ProcessMeshes(b, ld, openable, scene, xs)
      case Fail(f) => Fail(f)
      case Ok(mid) => ProcessMeshes(b, mid, openable, scene, ys)
    decreases |xs|
  {
    if |xs| == 0 {
      assert xs + ys == ys;
    } else {
      assert (xs + ys)[0] == xs[0] && (xs + ys)[1..] == xs[1..] + ys;
      var next := AppendMesh(b, ld, openable, scene, xs[0]);
      if next.Ok? {
        ProcessMeshesConcat(b, next.value, openable, scene, xs[1..], ys);
      }
    }
  }

  /** The walk processes meshes exactly in pre-order: it is the processing
      of `MeshOrder(node)`, one mesh after another. */
  lemma {:induction false} ProcessNodeIsPreorder(b: Builder, ld: Loader, openable: set<string>, scene: AiScene, node: AiNode)
    requires ValidScene(scene) && ValidNode(node, |scene.meshes|)
    ensures MeshOrderValid(scene, node)
    ensures ProcessNode(b, ld, openable, scene, node) == ProcessMeshes(b, ld, openable, scene, MeshOrder(node))
    decreases node, 1
  {
    MeshOrderBounded(node, |scene.meshes|);
    ChildrenOrderBounded(node.children, |scene.meshes|);
    ProcessMeshesConcat(b, ld, openable, scene, node.meshes, ChildrenOrder(node.children));
    var own := ProcessMeshes(b, ld, openable, scene, node.meshes);
    if own.Ok? {
      ProcessChildrenIsPreorder(b, own.value, openable, scene, node.children);
    }
  }

  lemma {:induction false} ProcessChildrenIsPreorder(b: Builder, ld: Loader, openable: set<string>, scene: AiScene, children: seq<AiNode>)
    requires ValidScene(scene) && forall i :: 0 <= i < |children| ==> ValidNode(children[i], |scene.meshes|)
    ensures forall i :: 0 <= i < |ChildrenOrder(children)| ==> ChildrenOrder(children)[i] < |scene.meshes|
    ensures ProcessChildren(b, ld, openable, scene, children) == ProcessMeshes(b, ld, openable, scene, ChildrenOrder(children))
    decreases children, 0
  {
    ChildrenOrderBounded(children, |scene.meshes|);
    if |children| > 0 {
      MeshOrderBounded(children[0], |scene.meshes|);
      ChildrenOrderBounded(children[1..], |scene.meshes|);
      ProcessMeshesConcat(b, ld, openable, scene, MeshOrder(children[0]), ChildrenOrder(children[1..]));
      ProcessNodeIsPreorder(b, ld, openable, scene, children[0]);
      var first := ProcessNode(b, ld, openable, scene, children[0]);
      if first.Ok? {
        ProcessChildrenIsPreorder(b, first.value, openable, scene, children[1..]);
      }
    }
  }

  predicate MeshOrderValid(scene: AiScene, node: AiNode) {
    forall i :: 0 <= i < |MeshOrder(node)| ==> MeshOrder(node)[i] < |scene.meshes|
  }

  // ----- loading a model -----

  /** Some mesh the walk visits has no vertices. */
  predicate HasEmptyMesh(scene: AiScene, ids: seq<nat>) {
    exists k :: 0 <= k < |ids| && ids[k] < |scene.meshes| && |scene.meshes[ids[k]].vertices| == 0
  }

  /** `Model(path)` / `loadModel`: when the importer failed, flagged the
      scene incomplete or produced no root, the error is printed and the
      model stays empty; otherwise the directory is taken from the path and
      the tree is walked from the root with an empty texture cache. With the
      source's builder every loaded mesh holds one vertex, and a visited
      mesh without vertices ends the load in the missing return. */
  function LoadModel(b: Builder, path: string, imported: Option<AiScene>, rm: Resources.ResourceManager, openable: set<string>)
    : (r: Result<(Resources.ResourceManager, Model)>)
    requires imported.Some? ==> ValidScene(imported.value)
    ensures imported.None? || imported.value.incomplete || imported.value.root.None? ==>
      r == Ok((rm, Model([], [], "")))
    ensures r.Fail? ==> WalkFault(b, r.fault)
    ensures b.AsWritten? && imported.Some? && !imported.value.incomplete && imported.value.root.Some? &&
            HasEmptyMesh(imported.value, MeshOrder(imported.value.root.value))
            ==> r.Fail?
    ensures r.Ok? && imported.Some? && !imported.value.incomplete && imported.value.root.Some? ==>
      r.value.1.directory == Directory(path) &&
      |r.value.1.meshes| == |MeshOrder(imported.value.root.value)| &&
      DistinctPaths(r.value.1.texturesLoaded) &&
      MeshOrderValid(imported.value, imported.value.root.value) &&
      forall k :: 0 <= k < |r.value.1.meshes| ==>
        Built(b, r.value.1.meshes[k], imported.value, MeshOrder(imported.value.root.value)[k], openable)
  {
    if imported.None? || imported.value.incomplete || imported.value.root.None? then Ok((rm, Model([], [], "")))
    else
      var scene := imported.value;
      var root := scene.root.value;
      var start := Loader(rm, [], []);
      ProcessNodeIsPreorder(b, start, openable, scene, root);
      ProcessMeshesBuilt(b, start, openable, scene, MeshOrder(root));
      ProcessMeshesDistinct(b, start, openable, scene, MeshOrder(root));
      var ld :- ProcessNode(b, start, openable, scene, root);
      Ok((ld.rm, Model(ld.texturesLoaded, ld.meshes, Directory(path))))
  }

  /** A material that lists no textures loads none and leaves the loader alone. */
  lemma NoTexturesLoaded(ld: Loader, openable: set<string>)
    ensures MeshTextures(ld, openable, AiMaterial([], [], [], [])) == Ok((ld, []))
  {
    assert LoadMaterialTextures(ld, openable, "texture_diffuse", []) == Ok((ld, []));
    assert LoadMaterialTextures(ld, openable, "texture_specular", []) == Ok((ld, []));
    assert LoadMaterialTextures(ld, openable, "texture_normal", []) == Ok((ld, []));
    assert LoadMaterialTextures(ld, openable, "texture_height", []) == Ok((ld, []));
  }

  /** Loading a model whose root names the single mesh of a scene with one
      texture-less material: one mesh, built by `b`. */
  lemma SingleMeshModel(b: Builder, path: string, rm: Resources.ResourceManager, openable: set<string>, m: AiMesh)
    requires |m.vertices| > 0 && ValidMesh(m, 1)
    ensures var scene := AiScene([m], [AiMaterial([], [], [], [])], Some(AiNode([0], [])), false);
      ValidScene(scene) &&
      LoadModel(b, path, Some(scene), rm, openable).Ok? &&
      |LoadModel(b, path, Some(scene), rm, openable).value.1.meshes| == 1 &&
      Built(b, LoadModel(b, path, Some(scene), rm, openable).value.1.meshes[0], scene, 0, openable)
  {
    var root := AiNode([0], []);
    var scene := AiScene([m], [AiMaterial([], [], [], [])], Some(root), false);
    assert ValidNode(root, 1);
    assert MeshOrder(root) == [0];
    var start := Loader(rm, [], []);
    NoTexturesLoaded(start, openable);
    var next := AppendMesh(b, start, openable, scene, 0);
    assert next.Ok?;
    assert ProcessMeshes(b, start, openable, scene, [0]) == ProcessMeshes(b, next.value, openable, scene, []);
    ProcessNodeIsPreorder(b, start, openable, scene, root);
  }

  /** A model whose root names one triangle: the source's load stores a mesh
      with one vertex and the indices 0, 1, 2, the corrected load all three
      vertices. */
  lemma TriangleModelLosesVertices(path: string, rm: Resources.ResourceManager, openable: set<string>, p: Vec3)
    ensures var tri := AiMesh([p, p, p], None, None, [[0, 1, 2]], 0);
      var scene := AiScene([tri], [AiMaterial([], [], [], [])], Some(AiNode([0], [])), false);
      ValidScene(scene) &&
      var w, c := LoadModel(AsWritten, path, Some(scene), rm, openable), LoadModel(Corrected, path, Some(scene), rm, openable);
      w.Ok? && |w.value.1.meshes| == 1 && |w.value.1.meshes[0].vertices| == 1 && w.value.1.meshes[0].indices == [0, 1, 2] &&
      c.Ok? && |c.value.1.meshes| == 1 && |c.value.1.meshes[0].vertices| == 3 && c.value.1.meshes[0].indices == [0, 1, 2]
  {
    var tri := AiMesh([p, p, p], None, None, [[0, 1, 2]], 0);
    assert Flatten(tri.faces) == [0, 1, 2] + Flatten([]);
    SingleMeshModel(AsWritten, path, rm, openable, tri);
    SingleMeshModel(Corrected, path, rm, openable, tri);
  }
}

=== FILE: resources.dfy ===
/** The resource registry of ResourceManager.h: name-keyed maps of textures,
    texture packs and cubemaps, the null-on-miss lookups, and the start-up
    derivation of texture-pack paths from the pack list file.

    Opening a file is the only I/O the registry performs; it is a parameter
    here: `openable` is the set of paths whose `std::ifstream::open` succeeds. */
module Resources {
  import opened Common

  /** A loaded texture object; `Texture(path, type)` remembers both. */
  datatype Texture = Texture(path: string, texType: string)

  /** The five maps of a texture pack, each null when its file did not open. */
  datatype TexturePack = TexturePack(
    albedo: Option<Texture>,
    normal: Option<Texture>,
    roughness: Option<Texture>,
    metallic: Option<Texture>,
    ao: Option<Texture>)

  /** A cubemap built from its six face paths. */
  datatype Cubemap = Cubemap(faces: seq<string>)

  datatype ResourceManager = ResourceManager(
    textures: map<string, Texture>,
    packs: map<string, TexturePack>,
    cubemaps: map<string, Cubemap>)

  const EmptyRegistry := ResourceManager(map[], map[], map[])

  /** Default `type` argument of `AddTexture`. */
  const DiffuseType := "texture_diffuse"

  const PackDirectory := "../resources/texture_packs/"

  /** The texture-name suffixes of the five pack slots, in slot order. */
  const SlotNames: seq<string> := ["_Albedo", "_Normal", "_Roughness", "_Metallness", "_AO"]

  /** The file-name suffixes of the five pack slots, in slot order. */
  const SlotFiles: seq<string> := ["_BaseColor.jpg", "_Normal.jpg", "_Roughness.jpg", "_Metallic.jpg", "_AO.jpg"]

  /** `GetTexture`: the stored entry, or null when the name is absent. */
  function GetTexture(rm: ResourceManager, name: string): (r: Option<Texture>)
    ensures r.Some? <==> name in rm.textures
    ensures r.Some? ==> r.value == rm.textures[name]
  {
    if name in rm.textures then Some(rm.textures[name]) else None
  }

  /** `GetTexturePack`: the stored entry, or null when the name is absent. */
  function GetTexturePack(rm: ResourceManager, name: string): (r: Option<TexturePack>)
    ensures r.Some? <==> name in rm.packs
    ensures r.Some? ==> r.value == rm.packs[name]
  {
    if name in rm.packs then Some(rm.packs[name]) else None
  }

  /** `GetCubeMap`: the stored entry, or null when the name is absent. */
  function GetCubeMap(rm: ResourceManager, name: string): (r: Option<Cubemap>)
    ensures r.Some? <==> name in rm.cubemaps
    ensures r.Some? ==> r.value == rm.cubemaps[name]
  {
    if name in rm.cubemaps then Some(rm.cubemaps[name]) else None
  }

  /** Looking a name up never changes the registry, and looking up what was
      just stored finds it. */
  lemma LookupAfterStore(rm: ResourceManager, name: string, other: string, t: Texture)
    ensures GetTexture(rm.(textures := rm.textures[name := t]), name) == Some(t)
    ensures other != name ==>
      GetTexture(rm.(textures := rm.textures[name := t]), other) == GetTexture(rm, other)
  {
  }

  /** `AddTexture`: when the file cannot be opened, null and no change;
      otherwise a new texture stored under `name` (replacing any earlier
      entry) and returned. */
  function AddTexture(rm: ResourceManager, openable: set<string>, name: string, path: string, texType: string)
    : (r: (ResourceManager, Option<Texture>))
    ensures path !in openable ==> r.0 == rm && r.1 == None
    ensures path in openable ==> r.1 == Some(Texture(path, texType))
    ensures path in openable ==> r.0.textures == rm.textures[name := Texture(path, texType)]
    ensures r.0.packs == rm.packs && r.0.cubemaps == rm.cubemaps
  {
    if path !in openable then (rm, None)
    else
      var t := Texture(path, texType);
      (rm.(textures := rm.textures[name := t]), Some(t))
  }

  /** What one slot of a pack holds when its texture is added from `path`. */
  function SlotTexture(openable: set<string>, path: string): (r: Option<Texture>)
    ensures r.Some? <==> path in openable
  {
    if path in openable then Some(Texture(path, DiffuseType)) else None
  }

  /** The registry names of pack `name`'s textures from slot `k` on. */
  function SlotKeysFrom(name: string, k: nat): set<string> {
    set j | k <= j < 5 :: name + SlotNames[j]
  }

  /** The five registry names of pack `name`'s textures. */
  function PackTextureKeys(name: string): set<string> {
    SlotKeysFrom(name, 0)
  }

  /** The five slot names of one pack differ, so no slot's texture overwrites another's. */
  lemma SlotKeysDistinct(name: string)
    ensures forall i, j :: 0 <= i < j < 5 ==> name + SlotNames[i] != name + SlotNames[j]
  {
    forall i, j | 0 <= i < j < 5 ensures name + SlotNames[i] != name + SlotNames[j] {
      PrefixCancel(name, SlotNames[i], SlotNames[j]);
    }
  }

  /** The entry of `key` is as it was. */
  predicate Kept(before: map<string, Texture>, after: map<string, Texture>, key: string) {
    (key in after <==> key in before) && (key in before ==> after[key] == before[key])
  }

  /** After `AddTexture(key, path)`: the texture of `path` under `key` when
      the file opens, and otherwise the entry of `key` as it was. */
  predicate SlotStored(before: map<string, Texture>, after: map<string, Texture>, openable: set<string>, key: string, path: string) {
    if path in openable then key in after && after[key] == Texture(path, DiffuseType)
    else Kept(before, after, key)
  }

  /** The `AddTexture` calls of slots `k` to 4, in slot order: slot j's
      texture is stored under `name` + its slot name, and no other entry
      changes. */
  function AddSlots(rm: ResourceManager, openable: set<string>, name: string, paths: seq<string>, k: nat)
    : (r: (ResourceManager, seq<Option<Texture>>))
    requires k <= 5 <= |paths|
    ensures |r.1| == 5 - k
    ensures forall j :: 0 <= j < 5 - k ==> r.1[j] == SlotTexture(openable, paths[k + j])
    ensures r.0.packs == rm.packs && r.0.cubemaps == rm.cubemaps
    ensures forall j :: k <= j < 5 ==> SlotStored(rm.textures, r.0.textures, openable, name + SlotNames[j], paths[j])
    ensures forall n :: n !in SlotKeysFrom(name, k) ==> Kept(rm.textures, r.0.textures, n)
    decreases 5 - k
  {
    if k == 5 then (rm, [])
    else
      var (rm', t) := AddTexture(rm, openable, name + SlotNames[k], paths[k], DiffuseType);
      var rest := AddSlots(rm', openable, name, paths, k + 1);
      SlotKeysDistinct(name);
      assert name + SlotNames[k] !in SlotKeysFrom(name, k + 1);
      assert forall n :: n !in SlotKeysFrom(name, k) ==> n !in SlotKeysFrom(name, k + 1) && n != name + SlotNames[k];
      (rest.0, [t] + rest.1)
  }

  /** `AddTexturePack`: five `AddTexture` calls named `name` + slot suffix,
      one per path, and the pack stored under `name` even when slots are null.
      The five names differ, so the order in which C++ evaluates the five
      constructor arguments does not change the outcome; slot order is used. */
  function AddTexturePack(rm: ResourceManager, openable: set<string>, name: string, paths: seq<string>)
    : (r: (ResourceManager, TexturePack))
    requires |paths| >= 5
    ensures r.0.packs == rm.packs[name := r.1]
    ensures r.1 == TexturePack(
      SlotTexture(openable, paths[0]), SlotTexture(openable, paths[1]), SlotTexture(openable, paths[2]),
      SlotTexture(openable, paths[3]), SlotTexture(openable, paths[4]))
    ensures r.0.cubemaps == rm.cubemaps
    ensures forall k :: 0 <= k < 5 ==> SlotStored(rm.textures, r.0.textures, openable, name + SlotNames[k], paths[k])
    ensures forall n :: n !in PackTextureKeys(name) ==> Kept(rm.textures, r.0.textures, n)
    ensures rm.textures.Keys <= r.0.textures.Keys
  {
    var (rm5, ts) := AddSlots(rm, openable, name, paths, 0);
    var pack := TexturePack(ts[0], ts[1], ts[2], ts[3], ts[4]);
    (rm5.(packs := rm5.packs[name := pack]), pack)
  }

  /** The five file paths the constructor derives for pack `n`:
      "../resources/texture_packs/" + n + "/" + n followed by a slot file suffix. */
  function PackPaths(n: string): (paths: seq<string>)
    ensures |paths| == 5
    ensures forall k :: 0 <= k < 5 ==> paths[k] == PackDirectory + n + "/" + n + SlotFiles[k]
  {
    var base := PackDirectory + n + "/" + n;
    [base + SlotFiles[0], base + SlotFiles[1], base + SlotFiles[2], base + SlotFiles[3], base + SlotFiles[4]]
  }

  /** The pack a name gets at start-up, given which files open. */
  function PackFor(openable: set<string>, n: string): TexturePack {
    var p := PackPaths(n);
    TexturePack(SlotTexture(openable, p[0]), SlotTexture(openable, p[1]), SlotTexture(openable, p[2]),
                SlotTexture(openable, p[3]), SlotTexture(openable, p[4]))
  }

  /** One iteration of the constructor's loop: the pack for `n` from its derived paths. */
  function RegisterPack(rm: ResourceManager, openable: set<string>, n: string): (r: ResourceManager)
    ensures r.packs == rm.packs[n := PackFor(openable, n)]
    ensures r.cubemaps == rm.cubemaps
  {
    AddTexturePack(rm, openable, n, PackPaths(n)).0
  }

  /** The constructor's loop body applied to each name in turn. */
  function AddPacks(rm: ResourceManager, openable: set<string>, names: seq<string>): ResourceManager
    decreases |names|
  {
    if |names| == 0 then rm
    else AddPacks(RegisterPack(rm, openable, names[0]), openable, names[1..])
  }

  /** The pack loop adds exactly the listed names to the pack map. */
  lemma {:induction false} AddPacksKeys(rm: ResourceManager, openable: set<string>, names: seq<string>)
    ensures AddPacks(rm, openable, names).packs.Keys == rm.packs.Keys + (set x | x in names)
    decreases |names|
  {
    if |names| > 0 {
      var tail := names[1..];
      AddPacksKeys(RegisterPack(rm, openable, names[0]), openable, tail);
      assert forall x :: x in names <==> x == names[0] || x in tail;
    }
  }

  /** The pack loop leaves entries for unlisted names as they were. */
  lemma {:induction false} AddPacksKeepsOthers(rm: ResourceManager, openable: set<string>, names: seq<string>, n: string)
    requires n in rm.packs && n !in names
    ensures n in AddPacks(rm, openable, names).packs
    ensures AddPacks(rm, openable, names).packs[n] == rm.packs[n]
    decreases |names|
  {
    if |names| > 0 {
      assert n != names[0] && n !in names[1..];
      AddPacksKeepsOthers(RegisterPack(rm, openable, names[0]), openable, names[1..], n);
    }
  }

  /** Every listed name ends up registered with the pack its derived paths give. */
  lemma {:induction false} AddPacksRegisters(rm: ResourceManager, openable: set<string>, names: seq<string>, x: string)
    requires x in names
    ensures x in AddPacks(rm, openable, names).packs
    ensures AddPacks(rm, openable, names).packs[x] == PackFor(openable, x)
    decreases |names|
  {
    var rm' := RegisterPack(rm, openable, names[0]);
    var tail := names[1..];
    assert names == [names[0]] + tail;
    if x in tail {
      AddPacksRegisters(rm', openable, tail, x);
    } else {
      assert x == names[0];
      AddPacksKeepsOthers(rm', openable, tail, x);
    }
  }

  /** The `ResourceManager` constructor: every name the pack-list loop reads
      (see `ListedNames`) is registered as a pack. */
  function LoadPackList(listing: Option<seq<string>>, openable: set<string>): (rm: ResourceManager)
    ensures listing.None? ==> rm.packs == map[]
    ensures listing.Some? ==> rm.packs.Keys == (set x | x in listing.value) + {""}
    ensures forall n :: n in rm.packs ==> rm.packs[n] == PackFor(openable, n)
    ensures rm.cubemaps == map[]
  {
    PackListLoaded(listing, openable);
    AddPacks(EmptyRegistry, openable, ListedNames(listing))
  }

  /** What the pack-list loop leaves in a fresh registry. */
  lemma PackListLoaded(listing: Option<seq<string>>, openable: set<string>)
    ensures var rm := AddPacks(EmptyRegistry, openable, ListedNames(listing));
      (listing.None? ==> rm.packs == map[]) &&
      (listing.Some? ==> rm.packs.Keys == (set x | x in listing.value) + {""}) &&
      (forall n :: n in rm.packs ==> rm.packs[n] == PackFor(openable, n)) &&
      rm.cubemaps == map[]
  {
    var names := ListedNames(listing);
    AddPacksKeys(EmptyRegistry, openable, names);
    AddPacksValues(EmptyRegistry, openable, names);
    AddPacksKeepsCubemaps(EmptyRegistry, openable, names);
    ListedNameSet(listing);
  }

  /** Every listed name's entry after the loop, all at once. */
  lemma AddPacksValues(rm: ResourceManager, openable: set<string>, names: seq<string>)
    ensures forall x :: x in names ==>
      x in AddPacks(rm, openable, names).packs && AddPacks(rm, openable, names).packs[x] == PackFor(openable, x)
  {
    forall x | x in names
      ensures x in AddPacks(rm, openable, names).packs && AddPacks(rm, openable, names).packs[x] == PackFor(openable, x)
    {
      AddPacksRegisters(rm, openable, names, x);
    }
  }

  /** The set of names the list loop reads: the lines plus the empty name. */
  lemma ListedNameSet(listing: Option<seq<string>>)
    ensures listing.None? ==> (set x | x in ListedNames(listing)) == {}
    ensures listing.Some? ==> (set x | x in ListedNames(listing)) == (set x | x in listing.value) + {""}
  {
  }

  /** The pack loop never touches the cubemap map. */
  lemma {:induction false} AddPacksKeepsCubemaps(rm: ResourceManager, openable: set<string>, names: seq<string>)
    ensures AddPacks(rm, openable, names).cubemaps == rm.cubemaps
    decreases |names|
  {
    if |names| > 0 {
      AddPacksKeepsCubemaps(RegisterPack(rm, openable, names[0]), openable, names[1..]);
    }
  }

  /** `AddCubeMap`: the cubemap stored under its name, other maps untouched. */
  function AddCubeMap(rm: ResourceManager, name: string, facePaths: seq<string>): (r: ResourceManager)
    ensures GetCubeMap(r, name) == Some(Cubemap(facePaths))
    ensures forall n :: n != name ==> GetCubeMap(r, n) == GetCubeMap(rm, n)
    ensures r.textures == rm.textures && r.packs == rm.packs
  {
    rm.(cubemaps := rm.cubemaps[name := Cubemap(facePaths)])
  }

  /** A pack list that opened always registers a pack under the empty name,
      from the extra loop iteration after the last line. */
  lemma EmptyPackAlwaysRegistered(lines: seq<string>, openable: set<string>)
    ensures "" in LoadPackList(Some(lines), openable).packs
    ensures LoadPackList(Some(lines), openable).packs[""] == PackFor(openable, "")
  {
  }
}

=== FILE: scene.dfy ===
/** The scene entity store: the `Cube` record of Cube.h with its construction
    defaults, and the renderer's name-to-cube map with `AddCube` and
    `SetTextureForCube` (Renderer.cpp).

    The original keeps the cubes in an `unordered_map`, whose iteration order
    is unspecified. The model keeps them in a sequence of entries with
    distinct names; the sequence order stands for whatever order the map
    happens to iterate in, and properties are stated as counts and
    membership, never as positions. */
module Scene {
  import opened Common
  import Resources

  /** `CubeType`, the shading kind of a cube. */
  datatype CubeType = Glowy | Phong | PBR | Light

  /** `CubeType::NUM`: the number of shading kinds. */
  const CubeTypeCount: nat := 4

  /** The underlying value of each enumerator of `enum class CubeType`. */
  function Ordinal(t: CubeType): (n: nat)
    ensures n < CubeTypeCount
  {
    match t
    case Glowy => 0
    case Phong => 1
    case PBR => 2
    case Light => 3
  }

  /** The enumerator with a given value, if any. */
  function FromOrdinal(n: nat): (t: Option<CubeType>)
    ensures t.Some? <==> n < CubeTypeCount
  {
    if n == 0 then Some(Glowy)
    else if n == 1 then Some(Phong)
    else if n == 2 then Some(PBR)
    else if n == 3 then Some(Light)
    else None
  }

  /** Ordinals and enumerators are in one-to-one correspondence below `NUM`. */
  lemma OrdinalRoundTrip(t: CubeType, n: nat)
    ensures FromOrdinal(Ordinal(t)) == Some(t)
    ensures n < CubeTypeCount ==> Ordinal(FromOrdinal(n).value) == n
  {
  }

  /** The Phong material block. */
  datatype Material = Material(ambient: Vec3, diffuse: Vec3, specular: Vec3, shininess: real)

  /** The PBR material block of Cube.h. */
  datatype MaterialPBR = MaterialPBR(albedo: Vec3, metalness: real, roughness: real, ao: real)

  datatype Transform = Transform(position: Vec3, scale: Vec3, rotation: Vec3)

  /** A cube of the scene. `name` is the `mName` member, which nothing assigns. */
  datatype Cube = Cube(
    texture: Option<Resources.Texture>,
    transform: Transform,
    material: Material,
    materialPBR: MaterialPBR,
    kind: CubeType,
    name: string,
    isSelected: bool)

  /** The transform every new cube starts with. Its position is
      `(rand() % 1, rand() % 1, rand() % 1)`, and any integer modulo 1 is 0. */
  const DefaultTransform := Transform(Splat(0.0), Splat(0.5), Splat(30.0))

  const DefaultMaterial := Material(Splat(0.2), Splat(0.5), Splat(0.5), 32.0)

  const DefaultMaterialPBR := MaterialPBR(Splat(0.2), 0.5, 0.5, 0.5)

  /** The scale a LIGHT cube is shrunk to, and its emissive ambient colour. */
  const LightScale: real := 0.02
  const LightAmbient: real := 1.0

  /** The texture name every new cube looks up. */
  const CubeTextureName := "Jimin"

  /** `new Cube(pResourceManager, type)`. */
  function NewCube(rm: Resources.ResourceManager, kind: CubeType): (c: Cube)
    ensures c.kind == kind && !c.isSelected
    ensures c.texture == Resources.GetTexture(rm, CubeTextureName)
    ensures c.transform.position == Splat(0.0) && c.transform.rotation == Splat(30.0)
    ensures c.transform.scale == (if kind == Light then Splat(LightScale) else Splat(0.5))
    ensures c.material.ambient == (if kind == Light then Splat(LightAmbient) else Splat(0.2))
    ensures c.material.diffuse == Splat(0.5) && c.material.specular == Splat(0.5) && c.material.shininess == 32.0
    ensures c.materialPBR == DefaultMaterialPBR
  {
    var base := Cube(Resources.GetTexture(rm, CubeTextureName), DefaultTransform, DefaultMaterial,
                     DefaultMaterialPBR, kind, "", false);
    if kind == Light then
      base.(transform := base.transform.(scale := Splat(LightScale)),
            material := base.material.(ambient := Splat(LightAmbient)))
    else base
  }

  /** The LIGHT kind differs from every other kind's new cube only in its
      scale and its ambient colour. */
  lemma LightOverridesOnlyScaleAndAmbient(rm: Resources.ResourceManager, other: CubeType)
    requires other != Light
    ensures NewCube(rm, Light) == NewCube(rm, other).(
      kind := Light,
      transform := NewCube(rm, other).transform.(scale := Splat(LightScale)),
      material := NewCube(rm, other).material.(ambient := Splat(LightAmbient)))
    ensures forall k :: k != Light ==> NewCube(rm, k) == NewCube(rm, other).(kind := k)
  {
  }

  /** One key/value pair of the store. */
  datatype Entry = Entry(name: string, cube: Cube)

  /** The store, in its (unspecified) iteration order. */
  type Store = seq<Entry>

  /** The keys of the store. */
  function Names(s: Store): set<string>
  {
    if |s| == 0 then {} else {s[0].name} + Names(s[1..])
  }

  /** A map never holds a key twice. */
  predicate DistinctNames(s: Store)
  {
    |s| == 0 || (s[0].name !in Names(s[1..]) && DistinctNames(s[1..]))
  }

  /** The value under a key, or null when absent. */
  function Lookup(s: Store, name: string): (r: Option<Cube>)
    ensures r.Some? <==> name in Names(s)
  {
    if |s| == 0 then None
    else if s[0].name == name then Some(s[0].cube)
    else Lookup(s[1..], name)
  }

  /** `mCubeDS[name] = cube` on a key already present: the entry is replaced in place. */
  function Replace(s: Store, name: string, cube: Cube): (r: Store)
    requires name in Names(s)
    ensures |r| == |s| && Names(r) == Names(s)
    ensures DistinctNames(s) ==> DistinctNames(r)
    ensures Lookup(r, name) == Some(cube)
    ensures forall n :: n != name ==> Lookup(r, n) == Lookup(s, n)
  {
    if s[0].name == name then [Entry(name, cube)] + s[1..]
    else [s[0]] + Replace(s[1..], name, cube)
  }

  /** `AddCube`: inserts or overwrites exactly the entry for `name`. */
  function AddCube(s: Store, name: string, cube: Cube): (r: Store)
    requires DistinctNames(s)
    ensures DistinctNames(r)
    ensures Names(r) == Names(s) + {name}
    ensures |r| == if name in Names(s) then |s| else |s| + 1
    ensures Lookup(r, name) == Some(cube)
    ensures forall n :: n != name ==> Lookup(r, n) == Lookup(s, n)
  {
    if name in Names(s) then Replace(s, name, cube)
    else
      AppendFresh(s, Entry(name, cube));
      s + [Entry(name, cube)]
  }

  /** Appending an entry under a fresh key. */
  lemma {:induction false} AppendFresh(s: Store, e: Entry)
    requires DistinctNames(s) && e.name !in Names(s)
    ensures Names(s + [e]) == Names(s) + {e.name}
    ensures DistinctNames(s + [e])
    ensures Lookup(s + [e], e.name) == Some(e.cube)
    ensures forall n :: n != e.name ==> Lookup(s + [e], n) == Lookup(s, n)
    decreases |s|
  {
    if |s| == 0 {
      assert s + [e] == [e];
    } else {
      assert (s + [e])[1..] == s[1..] + [e];
      AppendFresh(s[1..], e);
    }
  }

  /** `SetTextureForCube`: the entry for `name` gets the texture, and nothing
      else changes. The original indexes the map with `[]` and dereferences
      the result, so the name must be present. */
  function SetTextureForCube(s: Store, texture: Option<Resources.Texture>, name: string): (r: Store)
    requires DistinctNames(s) && name in Names(s)
    ensures DistinctNames(r) && Names(r) == Names(s) && |r| == |s|
    ensures Lookup(r, name) == Some(Lookup(s, name).value.(texture := texture))
    ensures forall n :: n != name ==> Lookup(r, n) == Lookup(s, n)
  {
    Replace(s, name, Lookup(s, name).value.(texture := texture))
  }

  /** The cubes of a given kind, in iteration order. */
  function OfKind(s: Store, k: CubeType): (r: seq<Cube>)
    ensures |r| <= |s|
    ensures forall i :: 0 <= i < |r| ==> r[i].kind == k
  {
    if |s| == 0 then []
    else (if s[0].cube.kind == k then [s[0].cube] else []) + OfKind(s[1..], k)
  }

  /** Whether some cube of the store is selected. */
  predicate AnySelected(s: Store)
  {
    exists i :: 0 <= i < |s| && s[i].cube.isSelected
  }
}

=== FILE: shapes.dfy ===
/** The `Shape` record of Shape.h: the cube record generalised with a
    geometry name and a texture-pack reference in its PBR material. It shares
    the material and transform blocks and the construction defaults of Cube.h. */
module Shapes {
  import opened Common
  import Resources
  import Scene

  /** `ShapeShading`: the same four shading kinds as `CubeType`. */
  datatype ShapeShading = Glowy | Phong | PBR | Light

  /** `ShapeShading::NUM`. */
  const ShapeShadingCount: nat := 4

  function ShadingOrdinal(s: ShapeShading): (n: nat)
    ensures n < ShapeShadingCount
  {
    match s
    case Glowy => 0
    case Phong => 1
    case PBR => 2
    case Light => 3
  }

  /** The `CubeType` enumerator with the same position in its enumeration. */
  function AsCubeType(s: ShapeShading): Scene.CubeType
  {
    match s
    case Glowy => Scene.Glowy
    case Phong => Scene.Phong
    case PBR => Scene.PBR
    case Light => Scene.Light
  }

  /** The two enumerations agree value by value, including `NUM`. */
  lemma ShadingMatchesCubeType(s: ShapeShading)
    ensures ShadingOrdinal(s) == Scene.Ordinal(AsCubeType(s))
    ensures ShapeShadingCount == Scene.CubeTypeCount
  {
  }

  /** The PBR block of Shape.h: Cube.h's four factors plus a pack reference
      and an enable flag. Nothing ever assigns the flag, so a new shape's flag
      is indeterminate: `None` here. */
  datatype ShapeMaterialPBR = ShapeMaterialPBR(
    factors: Scene.MaterialPBR,
    texturePack: Option<Resources.TexturePack>,
    texturePackEnabled: Option<bool>)

  datatype Shape = Shape(
    texture: Option<Resources.Texture>,
    transform: Scene.Transform,
    material: Scene.Material,
    materialPBR: ShapeMaterialPBR,
    shading: ShapeShading,
    name: string,
    geometry: string,
    isSelected: bool)

  /** The texture and the texture pack every new shape looks up. */
  const ShapeTextureName := "Gravel"
  const ShapePackName := "Stylized_Fur"

  /** The default of the constructor's `shape` argument: `new
      Shape(pResourceManager, shading)` is `NewShape(rm, shading, DefaultGeometry)`. */
  const DefaultGeometry := "Cube"

  /** `new Shape(pResourceManager, shading, geometry)`. */
  function NewShape(rm: Resources.ResourceManager, shading: ShapeShading, geometry: string): (s: Shape)
    ensures s.shading == shading && s.geometry == geometry && !s.isSelected
    ensures s.texture == Resources.GetTexture(rm, ShapeTextureName)
    ensures s.materialPBR.texturePack == Resources.GetTexturePack(rm, ShapePackName)
    ensures s.materialPBR.texturePackEnabled.None?
  {
    var base := Shape(Resources.GetTexture(rm, ShapeTextureName), Scene.DefaultTransform, Scene.DefaultMaterial,
                      ShapeMaterialPBR(Scene.DefaultMaterialPBR, Resources.GetTexturePack(rm, ShapePackName), None),
                      shading, "", geometry, false);
    if shading == Light then
      base.(transform := base.transform.(scale := Splat(Scene.LightScale)),
            material := base.material.(ambient := Splat(Scene.LightAmbient)))
    else base
  }

  /** A new shape gets exactly the defaults a new cube of the same kind gets
      (including the LIGHT override of scale and ambient), differing only in
      where its texture comes from. */
  lemma ShapeDefaultsMatchCube(rm: Resources.ResourceManager, shading: ShapeShading, geometry: string)
    ensures NewShape(rm, shading, geometry).transform == Scene.NewCube(rm, AsCubeType(shading)).transform
    ensures NewShape(rm, shading, geometry).material == Scene.NewCube(rm, AsCubeType(shading)).material
    ensures NewShape(rm, shading, geometry).materialPBR.factors == Scene.NewCube(rm, AsCubeType(shading)).materialPBR
    ensures NewShape(rm, shading, geometry).isSelected == Scene.NewCube(rm, AsCubeType(shading)).isSelected
  {
  }
}

=== FILE: sphere.dfy ===
/** The UV sphere of SphereMesh.h: a 65 x 65 grid of vertices, interleaved
    into 8 floats per vertex, and a single triangle strip over 64 rows that
    snakes left-to-right on even rows and right-to-left on odd rows.

    The trigonometry that places each vertex is a parameter (`surface`); the
    index arithmetic and the layout are modelled exactly. */
module SphereMesh {
  import opened Common

  const XSegments: nat := 64
  const YSegments: nat := 64

  /** Vertices per grid line, and in the whole grid. */
  const RowLength: nat := XSegments + 1
  const VertexCount: nat := RowLength * (YSegments + 1)

  /** Indices each strip row contributes: two per column. */
  const RowIndexCount: nat := 2 * RowLength

  /** `GetIndexCount()` of the constructed mesh. */
  const IndexCount: nat := YSegments * RowIndexCount

  /** The closed form of the strip: entry j of row y. Each column contributes
      a pair of indices one grid line apart; even rows walk the columns upward
      starting on line y, odd rows walk them downward starting on line y + 1. */
  function RowEntry(y: nat, j: nat): (i: nat)
    requires y < YSegments && j < 130
    ensures i < VertexCount
  {
    var even := y % 2 == 0;
    var x := if even then j / 2 else 64 - j / 2;
    var line := if even == (j % 2 == 0) then y else y + 1;
    line * 65 + x
  }

  /** Entry k of the whole strip. */
  function IndexAt(k: nat): nat
    requires k < IndexCount
  {
    RowEntry(k / 130, k % 130)
  }

  /** The indices row y of the strip contributes. */
  function Row(y: nat): seq<nat>
    requires y < YSegments
  {
    seq(130, j requires 0 <= j < 130 => RowEntry(y, j))
  }

  /** The first `rows` rows of the strip. */
  function Strip(rows: nat): seq<nat>
    requires rows <= YSegments
  {
    seq(rows * 130, k requires 0 <= k < rows * 130 => IndexAt(k))
  }

  /** The index list of the constructed mesh. */
  function Indices(): seq<nat> {
    Strip(YSegments)
  }

  /** The mesh draws 8320 indices, and every one names an existing vertex. */
  lemma IndicesInRange()
    ensures IndexCount == 8320 && VertexCount == 4225
    ensures |Indices()| == IndexCount
    ensures forall k :: 0 <= k < |Indices()| ==> Indices()[k] < VertexCount
  {
  }

  /** Row y alternates between grid lines y and y + 1 in the same column:
      ascending and starting on line y when y is even, descending and starting
      on line y + 1 when y is odd. */
  lemma RowsAlternate(y: nat, p: nat)
    requires y < YSegments && p < RowLength
    ensures y % 2 == 0 ==>
      Indices()[y * 130 + 2 * p] == y * 65 + p &&
      Indices()[y * 130 + 2 * p + 1] == (y + 1) * 65 + p
    ensures y % 2 == 1 ==>
      Indices()[y * 130 + 2 * p] == (y + 1) * 65 + (64 - p) &&
      Indices()[y * 130 + 2 * p + 1] == y * 65 + (64 - p)
  {
    var k := y * 130 + 2 * p;
    assert k / 130 == y && k % 130 == 2 * p;
    assert (k + 1) / 130 == y && (k + 1) % 130 == 2 * p + 1;
    assert (2 * p) / 2 == p && (2 * p) % 2 == 0;
    assert (2 * p + 1) / 2 == p && (2 * p + 1) % 2 == 1;
  }

  /** The constructor's index loops: the `oddRow` flag flips after every row,
      even rows push ascending columns, odd rows descending ones. */
  method GenerateIndices() returns (indices: seq<nat>)
    ensures indices == Indices()
    ensures |indices| == IndexCount
  {
    indices := GenerateRows(YSegments);
  }

  /** The outer loop, run over the first `rows` rows. */
  method GenerateRows(rows: nat) returns (indices: seq<nat>)
    requires rows <= YSegments
    ensures indices == Strip(rows)
  {
    indices := [];
    var oddRow := false;
    var y: nat := 0;
    while y < rows
      invariant y <= rows
      invariant oddRow <==> y % 2 == 1
      invariant indices == Strip(y)
    {
      StripSucc(y);
      if !oddRow {
        indices := PushEvenRow(indices, y);
      } else {
        indices := PushOddRow(indices, y);
      }
      oddRow := !oddRow;
      y := y + 1;
    }
  }

  /** The strip of y + 1 rows is that of y rows followed by row y. */
  lemma StripSucc(y: nat)
    requires y < YSegments
    ensures Strip(y + 1) == Strip(y) + Row(y)
  {
    var s, t := Strip(y + 1), Strip(y) + Row(y);
    forall k | y * 130 <= k < (y + 1) * 130
      ensures s[k] == t[k]
    {
      assert k / 130 == y && k % 130 == k - y * 130;
    }
  }

  /** The inner loop of an even row: x from 0 up to 64. */
  method PushEvenRow(before: seq<nat>, y: nat) returns (indices: seq<nat>)
    requires y < YSegments && y % 2 == 0
    ensures indices == before + Row(y)
  {
    indices := before;
    var x: nat := 0;
    while x <= XSegments
      invariant x <= 65
      invariant indices == before + Row(y)[..2 * x]
    {
      EvenPrefixStep(y, x);
      indices := indices + [y * 65 + x, (y + 1) * 65 + x];
      x := x + 1;
    }
    assert Row(y)[..2 * x] == Row(y);
  }

  /** The inner loop of an odd row: x from 64 down to 0, on a signed counter. */
  method PushOddRow(before: seq<nat>, y: nat) returns (indices: seq<nat>)
    requires y < YSegments && y % 2 == 1
    ensures indices == before + Row(y)
  {
    indices := before;
    var x: int := XSegments;
    while x >= 0
      invariant -1 <= x <= XSegments
      invariant indices == before + Row(y)[..2 * (64 - x)]
    {
      OddPrefixStep(y, 64 - x);
      indices := indices + [(y + 1) * 65 + x, y * 65 + x];
      x := x - 1;
    }
    assert Row(y)[..2 * (64 - x)] == Row(y);
  }

  /** One more column of an even row. */
  lemma EvenPrefixStep(y: nat, x: nat)
    requires y < YSegments && y % 2 == 0 && x < 65
    ensures Row(y)[..2 * (x + 1)] == Row(y)[..2 * x] + [y * 65 + x, (y + 1) * 65 + x]
  {
    var r := Row(y);
    assert r[2 * x] == y * 65 + x by {
      assert (2 * x) % 2 == 0 && (2 * x) / 2 == x;
    }
    assert r[2 * x + 1] == (y + 1) * 65 + x by {
      assert (2 * x + 1) % 2 == 1 && (2 * x + 1) / 2 == x;
    }
    assert r[..2 * (x + 1)] == r[..2 * x] + [r[2 * x], r[2 * x + 1]];
  }

  /** One more column of an odd row: the i-th step visits column 64 - i. */
  lemma OddPrefixStep(y: nat, i: nat)
    requires y < YSegments && y % 2 == 1 && i < 65
    ensures Row(y)[..2 * (i + 1)] == Row(y)[..2 * i] + [(y + 1) * 65 + (64 - i), y * 65 + (64 - i)]
  {
    var r := Row(y);
    assert r[2 * i] == (y + 1) * 65 + (64 - i) by {
      assert (2 * i) % 2 == 0 && (2 * i) / 2 == i;
    }
    assert r[2 * i + 1] == y * 65 + (64 - i) by {
      assert (2 * i + 1) % 2 == 1 && (2 * i + 1) / 2 == i;
    }
    assert r[..2 * (i + 1)] == r[..2 * i] + [r[2 * i], r[2 * i + 1]];
  }

  /** One grid vertex before interleaving. */
  datatype GridVertex = GridVertex(position: Vec3, uv: Vec2, normal: Vec3)

  /** The constructor's vertex loops: x outer, y inner, each vertex placed by
      `surface(x, y)`, with uv (x/64, y/64) and the position pushed again as
      the normal. */
  function Grid(surface: (nat, nat) -> Vec3): (g: seq<GridVertex>)
    ensures |g| == VertexCount
  {
    seq(4225, i requires 0 <= i < 4225 =>
      var x, y := i / 65, i % 65;
      GridVertex(surface(x, y), Vec2(x as real / XSegments as real, y as real / YSegments as real), surface(x, y)))
  }

  /** Grid position x * 65 + y holds the vertex of grid coordinates (x, y). */
  lemma GridAt(surface: (nat, nat) -> Vec3, x: nat, y: nat)
    requires x < RowLength && y <= YSegments
    ensures Grid(surface)[x * 65 + y] ==
      GridVertex(surface(x, y), Vec2(x as real / XSegments as real, y as real / YSegments as real), surface(x, y))
  {
    var i := x * 65 + y;
    assert i / 65 == x && i % 65 == y;
  }

  /** The interleaved buffer: position, uv, normal for each vertex. */
  function VertexData(g: seq<GridVertex>): (data: seq<real>)
    ensures |data| == 8 * |g|
    ensures forall i :: 0 <= i < |g| ==>
      data[8 * i] == g[i].position.x && data[8 * i + 1] == g[i].position.y && data[8 * i + 2] == g[i].position.z &&
      data[8 * i + 3] == g[i].uv.u && data[8 * i + 4] == g[i].uv.v &&
      data[8 * i + 5] == g[i].normal.x && data[8 * i + 6] == g[i].normal.y && data[8 * i + 7] == g[i].normal.z
  {
    if |g| == 0 then []
    else
      var v := g[0];
      var rest := VertexData(g[1..]);
      var head := [v.position.x, v.position.y, v.position.z, v.uv.u, v.uv.v, v.normal.x, v.normal.y, v.normal.z];
      VertexDataStep(v, head, g[1..], rest);
      head + rest
  }

  lemma VertexDataStep(v: GridVertex, head: seq<real>, g: seq<GridVertex>, rest: seq<real>)
    requires head == [v.position.x, v.position.y, v.position.z, v.uv.u, v.uv.v, v.normal.x, v.normal.y, v.normal.z]
    requires |rest| == 8 * |g|
    requires forall i :: 0 <= i < |g| ==>
      rest[8 * i] == g[i].position.x && rest[8 * i + 1] == g[i].position.y && rest[8 * i + 2] == g[i].position.z &&
      rest[8 * i + 3] == g[i].uv.u && rest[8 * i + 4] == g[i].uv.v &&
      rest[8 * i + 5] == g[i].normal.x && rest[8 * i + 6] == g[i].normal.y && rest[8 * i + 7] == g[i].normal.z
    ensures forall i :: 0 <= i < |[v] + g| ==>
      (head + rest)[8 * i] == ([v] + g)[i].position.x && (head + rest)[8 * i + 1] == ([v] + g)[i].position.y &&
      (head + rest)[8 * i + 2] == ([v] + g)[i].position.z &&
      (head + rest)[8 * i + 3] == ([v] + g)[i].uv.u && (head + rest)[8 * i + 4] == ([v] + g)[i].uv.v &&
      (head + rest)[8 * i + 5] == ([v] + g)[i].normal.x && (head + rest)[8 * i + 6] == ([v] + g)[i].normal.y &&
      (head + rest)[8 * i + 7] == ([v] + g)[i].normal.z
  {
    forall i | 1 <= i < |[v] + g|
      ensures (head + rest)[8 * i] == rest[8 * (i - 1)] && (head + rest)[8 * i + 1] == rest[8 * (i - 1) + 1]
      ensures (head + rest)[8 * i + 2] == rest[8 * (i - 1) + 2] && (head + rest)[8 * i + 3] == rest[8 * (i - 1) + 3]
      ensures (head + rest)[8 * i + 4] == rest[8 * (i - 1) + 4] && (head + rest)[8 * i + 5] == rest[8 * (i - 1) + 5]
      ensures (head + rest)[8 * i + 6] == rest[8 * (i - 1) + 6] && (head + rest)[8 * i + 7] == rest[8 * (i - 1) + 7]
    {
    }
  }

  /** Attribute layout of the vertex array: (location, components, offset in floats). */
  datatype Attribute = Attribute(location: nat, components: nat, offset: nat)

  const Stride: nat := 3 + 2 + 3
  const Layout: seq<Attribute> := [Attribute(0, 3, 0), Attribute(1, 2, 3), Attribute(2, 3, 5)]

  /** The three attributes tile the 8-float stride without overlap. */
  lemma LayoutTilesStride()
    ensures Stride == 8
    ensures forall a :: 0 <= a < |Layout| - 1 ==> Layout[a].offset + Layout[a].components == Layout[a + 1].offset
    ensures Layout[0].offset == 0 && Layout[|Layout| - 1].offset + Layout[|Layout| - 1].components == Stride
  {
  }

  /** In any interleaved buffer, a vertex whose normal repeats its position
      has its floats 5..7 equal to its floats 0..2. */
  lemma InterleavedVertex(g: seq<GridVertex>, i: nat)
    requires i < |g| && g[i].normal == g[i].position
    ensures var d := VertexData(g);
      d[8 * i + 5] == d[8 * i] && d[8 * i + 6] == d[8 * i + 1] && d[8 * i + 7] == d[8 * i + 2] &&
      d[8 * i + 3] == g[i].uv.u && d[8 * i + 4] == g[i].uv.v
  {
  }

  /** In the sphere's buffer every vertex's normal repeats its position and
      its uv is its grid coordinates over 64. */
  lemma SphereVertexLayout(surface: (nat, nat) -> Vec3, x: nat, y: nat)
    requires x < RowLength && y <= YSegments
    ensures |VertexData(Grid(surface))| == Stride * VertexCount
    ensures var d, i := VertexData(Grid(surface)), x * 65 + y;
      d[8 * i + 5] == d[8 * i] && d[8 * i + 6] == d[8 * i + 1] && d[8 * i + 7] == d[8 * i + 2] &&
      d[8 * i + 3] * 64.0 == x as real && d[8 * i + 4] * 64.0 == y as real
  {
    var g := Grid(surface);
    var i := x * 65 + y;
    GridAt(surface, x, y);
    InterleavedVertex(g, i);
  }
}

=== FILE: tables.dfy ===
/** The fixed vertex tables: the 36-vertex cube of CubeMesh.h, the
    screen-filling quad and the skybox cube of Renderer.h, written out value
    for value, with the layout and face structure each is meant to have. */
module MeshTables {
  import opened Common
  import SphereMesh

  /** One decoded vertex of an interleaved position/uv/normal table. */
  datatype MeshVertex = MeshVertex(position: Vec3, uv: Vec2, normal: Vec3)

  /** `CubeMesh::mVertices`, one record per 8-float row: position, uv, normal. */
  const CubeVertices: seq<MeshVertex> := [
    MeshVertex(Vec3(-0.5, -0.5, -0.5), Vec2(0.0, 0.0), Vec3(0.0, 0.0, -1.0)),
    MeshVertex(Vec3(0.5, -0.5, -0.5), Vec2(1.0, 0.0), Vec3(0.0, 0.0, -1.0)),
    MeshVertex(Vec3(0.5, 0.5, -0.5), Vec2(1.0, 1.0), Vec3(0.0, 0.0, -1.0)),
    MeshVertex(Vec3(0.5, 0.5, -0.5), Vec2(1.0, 1.0), Vec3(0.0, 0.0, -1.0)),
    MeshVertex(Vec3(-0.5, 0.5, -0.5), Vec2(0.0, 1.0), Vec3(0.0, 0.0, -1.0)),
    MeshVertex(Vec3(-0.5, -0.5, -0.5), Vec2(0.0, 0.0), Vec3(0.0, 0.0, -1.0)),

    MeshVertex(Vec3(-0.5, -0.5, 0.5), Vec2(0.0, 0.0), Vec3(0.0, 0.0, 1.0)),
    MeshVertex(Vec3(0.5, -0.5, 0.5), Vec2(1.0, 0.0), Vec3(0.0, 0.0, 1.0)),
    MeshVertex(Vec3(0.5, 0.5, 0.5), Vec2(1.0, 1.0), Vec3(0.0, 0.0, 1.0)),
    MeshVertex(Vec3(0.5, 0.5, 0.5), Vec2(1.0, 1.0), Vec3(0.0, 0.0, 1.0)),
    MeshVertex(Vec3(-0.5, 0.5, 0.5), Vec2(0.0, 1.0), Vec3(0.0, 0.0, 1.0)),
    MeshVertex(Vec3(-0.5, -0.5, 0.5), Vec2(0.0, 0.0), Vec3(0.0, 0.0, 1.0)),

    MeshVertex(Vec3(-0.5, 0.5, 0.5), Vec2(1.0, 0.0), Vec3(-1.0, 0.0, 0.0)),
    MeshVertex(Vec3(-0.5, 0.5, -0.5), Vec2(1.0, 1.0), Vec3(-1.0, 0.0, 0.0)),
    MeshVertex(Vec3(-0.5, -0.5, -0.5), Vec2(0.0, 1.0), Vec3(-1.0, 0.0, 0.0)),
    MeshVertex(Vec3(-0.5, -0.5, -0.5), Vec2(0.0, 1.0), Vec3(-1.0, 0.0, 0.0)),
    MeshVertex(Vec3(-0.5, -0.5, 0.5), Vec2(0.0, 0.0), Vec3(-1.0, 0.0, 0.0)),
    MeshVertex(Vec3(-0.5, 0.5, 0.5), Vec2(1.0, 0.0), Vec3(-1.0, 0.0, 0.0)),

    MeshVertex(Vec3(0.5, 0.5, 0.5), Vec2(1.0, 0.0), Vec3(1.0, 0.0, 0.0)),
    MeshVertex(Vec3(0.5, 0.5, -0.5), Vec2(1.0, 1.0), Vec3(1.0, 0.0, 0.0)),
    MeshVertex(Vec3(0.5, -0.5, -0.5), Vec2(0.0, 1.0), Vec3(1.0, 0.0, 0.0)),
    MeshVertex(Vec3(0.5, -0.5, -0.5), Vec2(0.0, 1.0), Vec3(1.0, 0.0, 0.0)),
    MeshVertex(Vec3(0.5, -0.5, 0.5), Vec2(0.0, 0.0), Vec3(1.0, 0.0, 0.0)),
    MeshVertex(Vec3(0.5, 0.5, 0.5), Vec2(1.0, 0.0), Vec3(1.0, 0.0, 0.0)),

    MeshVertex(Vec3(-0.5, -0.5, -0.5), Vec2(0.0, 1.0), Vec3(0.0, -1.0, 0.0)),
    MeshVertex(Vec3(0.5, -0.5, -0.5), Vec2(1.0, 1.0), Vec3(0.0, -1.0, 0.0)),
    MeshVertex(Vec3(0.5, -0.5, 0.5), Vec2(1.0, 0.0), Vec3(0.0, -1.0, 0.0)),
    MeshVertex(Vec3(0.5, -0.5, 0.5), Vec2(1.0, 0.0), Vec3(0.0, -1.0, 0.0)),
    MeshVertex(Vec3(-0.5, -0.5, 0.5), Vec2(0.0, 0.0), Vec3(0.0, -1.0, 0.0)),
    MeshVertex(Vec3(-0.5, -0.5, -0.5), Vec2(0.0, 1.0), Vec3(0.0, -1.0, 0.0)),

    MeshVertex(Vec3(-0.5, 0.5, -0.5), Vec2(0.0, 1.0), Vec3(0.0, 1.0, 0.0)),
    MeshVertex(Vec3(0.5, 0.5, -0.5), Vec2(1.0, 1.0), Vec3(0.0, 1.0, 0.0)),
    MeshVertex(Vec3(0.5, 0.5, 0.5), Vec2(1.0, 0.0), Vec3(0.0, 1.0, 0.0)),
    MeshVertex(Vec3(0.5, 0.5, 0.5), Vec2(1.0, 0.0), Vec3(0.0, 1.0, 0.0)),
    MeshVertex(Vec3(-0.5, 0.5, 0.5), Vec2(0.0, 0.0), Vec3(0.0, 1.0, 0.0)),
    MeshVertex(Vec3(-0.5, 0.5, -0.5), Vec2(0.0, 1.0), Vec3(0.0, 1.0, 0.0))
  ]

  const CubeVertexCount: nat := 36

  /** The attribute pointers the cube mesh sets up: (location, components, offset). */
  const CubeLayout: seq<SphereMesh.Attribute> :=
    [SphereMesh.Attribute(0, 3, 0), SphereMesh.Attribute(1, 2, 3), SphereMesh.Attribute(2, 3, 5)]
  const CubeStride: nat := 8

  /** The eight floats of one table row. */
  function RowFloats(v: MeshVertex): (t: seq<real>)
    ensures |t| == 8
  {
    [v.position.x, v.position.y, v.position.z, v.uv.u, v.uv.v, v.normal.x, v.normal.y, v.normal.z]
  }

  /** The float array the records stand for, in row order. */
  function Floats(vs: seq<MeshVertex>): (t: seq<real>)
    ensures |t| == 8 * |vs|
    ensures forall i :: 0 <= i < |vs| ==> t[8 * i..8 * i + 8] == RowFloats(vs[i])
  {
    if |vs| == 0 then []
    else
      var rest := Floats(vs[1..]);
      FloatsStep(vs, rest);
      RowFloats(vs[0]) + rest
  }

  lemma FloatsStep(vs: seq<MeshVertex>, rest: seq<real>)
    requires |vs| > 0 && |rest| == 8 * (|vs| - 1)
    requires forall i :: 0 <= i < |vs| - 1 ==> rest[8 * i..8 * i + 8] == RowFloats(vs[i + 1])
    ensures forall i :: 0 <= i < |vs| ==> (RowFloats(vs[0]) + rest)[8 * i..8 * i + 8] == RowFloats(vs[i])
  {
    var t := RowFloats(vs[0]) + rest;
    forall i | 0 <= i < |vs|
      ensures t[8 * i..8 * i + 8] == RowFloats(vs[i])
    {
      if i == 0 {
        assert t[..8] == RowFloats(vs[0]);
      } else {
        assert t[8 * i..8 * i + 8] == rest[8 * (i - 1)..8 * (i - 1) + 8];
      }
    }
  }

  /** A unit vector along one coordinate axis, in either direction. */
  predicate IsAxisUnit(n: Vec3) {
    (IsPlusMinus(n.x, 1.0) && n.y == 0.0 && n.z == 0.0) ||
    (n.x == 0.0 && IsPlusMinus(n.y, 1.0) && n.z == 0.0) ||
    (n.x == 0.0 && n.y == 0.0 && IsPlusMinus(n.z, 1.0))
  }

  /** The dot product of `p` with an axis unit `n`: the coordinate of `p`
      along that axis, negated for a negative direction. */
  function Along(p: Vec3, n: Vec3): real {
    if n.x != 0.0 then (if n.x > 0.0 then p.x else -p.x)
    else if n.y != 0.0 then (if n.y > 0.0 then p.y else -p.y)
    else if n.z > 0.0 then p.z else -p.z
  }

  predicate IsPlusMinus(r: real, h: real) {
    r == h || r == -h
  }

  predicate IsZeroOrOne(r: real) {
    r == 0.0 || r == 1.0
  }

  /** The outward normal of each six-vertex block of the cube table:
      back, front, left, right, bottom, top. */
  const CubeFaceNormals: seq<Vec3> := [
    Vec3(0.0, 0.0, -1.0), Vec3(0.0, 0.0, 1.0), Vec3(-1.0, 0.0, 0.0),
    Vec3(1.0, 0.0, 0.0), Vec3(0.0, -1.0, 0.0), Vec3(0.0, 1.0, 0.0)]

  /** The six blocks face six different axis directions. */
  lemma CubeFaceNormalsAreAxes(a: nat, b: nat)
    requires a < 6 && b < 6
    ensures IsAxisUnit(CubeFaceNormals[a])
    ensures CubeFaceNormals[a] == CubeFaceNormals[b] <==> a == b
  {
    assert a in {0, 1, 2, 3, 4, 5} && b in {0, 1, 2, 3, 4, 5};
  }

  /** The cube table is 36 vertices of 8 floats laid out like the sphere's. */
  lemma CubeTableLayout()
    ensures |CubeVertices| == CubeVertexCount && |Floats(CubeVertices)| == CubeStride * CubeVertexCount
    ensures CubeLayout == SphereMesh.Layout && CubeStride == SphereMesh.Stride
  {
  }

  /** Vertex v of block b lies on the face of the unit-half cube whose normal
      it carries: its coordinate along that axis is 0.5 with the normal's
      sign, every position component is +-0.5 and every texture coordinate is
      0 or 1. Each block is two triangles sharing a diagonal: vertex 0 repeats
      as vertex 5 and vertex 2 as vertex 3. */
  lemma CubeFace(b: nat, v: nat)
    requires b < 6 && v < 6
    ensures var p := CubeVertices[6 * b + v];
      p.normal == CubeFaceNormals[b] && Along(p.position, p.normal) == 0.5 &&
      IsPlusMinus(p.position.x, 0.5) && IsPlusMinus(p.position.y, 0.5) && IsPlusMinus(p.position.z, 0.5) &&
      IsZeroOrOne(p.uv.u) && IsZeroOrOne(p.uv.v)
    ensures CubeVertices[6 * b] == CubeVertices[6 * b + 5] && CubeVertices[6 * b + 2] == CubeVertices[6 * b + 3]
  {
    CubeNormal(b, v);
    CubeCorner(6 * b + v);
    CubeDiagonals(b);
  }

  /** A row index of a 36-row table, split into halves for case analysis. */
  predicate IsRow(i: nat) {
    if i < 18 then i in {0, 1, 2, 3, 4, 5, 6, 7, 8, 9, 10, 11, 12, 13, 14, 15, 16, 17}
    else i in {18, 19, 20, 21, 22, 23, 24, 25, 26, 27, 28, 29, 30, 31, 32, 33, 34, 35}
  }

  lemma CubeNormal(b: nat, v: nat)
    requires b < 6 && v < 6
    ensures CubeVertices[6 * b + v].normal == CubeFaceNormals[b]
    ensures Along(CubeVertices[6 * b + v].position, CubeFaceNormals[b]) == 0.5
  {
    assert IsRow(6 * b + v);
  }

  lemma CubeCorner(i: nat)
    requires i < 36
    ensures var p := CubeVertices[i];
      IsPlusMinus(p.position.x, 0.5) && IsPlusMinus(p.position.y, 0.5) && IsPlusMinus(p.position.z, 0.5) &&
      IsZeroOrOne(p.uv.u) && IsZeroOrOne(p.uv.v)
  {
    assert IsRow(i);
  }

  lemma CubeDiagonals(b: nat)
    requires b < 6
    ensures CubeVertices[6 * b] == CubeVertices[6 * b + 5] && CubeVertices[6 * b + 2] == CubeVertices[6 * b + 3]
  {
    if b == 0 {
      assert CubeVertices[0] == CubeVertices[5] && CubeVertices[2] == CubeVertices[3];
    } else if b == 1 {
      assert CubeVertices[6] == CubeVertices[11] && CubeVertices[8] == CubeVertices[9];
    } else if b == 2 {
      assert CubeVertices[12] == CubeVertices[17] && CubeVertices[14] == CubeVertices[15];
    } else if b == 3 {
      assert CubeVertices[18] == CubeVertices[23] && CubeVertices[20] == CubeVertices[21];
    } else if b == 4 {
      assert CubeVertices[24] == CubeVertices[29] && CubeVertices[26] == CubeVertices[27];
    } else {
      assert CubeVertices[30] == CubeVertices[35] && CubeVertices[32] == CubeVertices[33];
    }
  }

  datatype QuadVertex = QuadVertex(position: Vec2, uv: Vec2)

  /** `quadVertices`: six (x, y, u, v) records in normalised device coordinates. */
  const QuadVertices: seq<QuadVertex> := [
    QuadVertex(Vec2(-1.0, 1.0), Vec2(0.0, 1.0)),
    QuadVertex(Vec2(-1.0, -1.0), Vec2(0.0, 0.0)),
    QuadVertex(Vec2(1.0, -1.0), Vec2(1.0, 0.0)),

    QuadVertex(Vec2(-1.0, 1.0), Vec2(0.0, 1.0)),
    QuadVertex(Vec2(1.0, -1.0), Vec2(1.0, 0.0)),
    QuadVertex(Vec2(1.0, 1.0), Vec2(1.0, 1.0))
  ]

  const QuadVertexCount: nat := 6

  /** The quad's two attributes: a 2D position at offset 0 and a uv at offset 2, stride 4. */
  const QuadLayout: seq<SphereMesh.Attribute> := [SphereMesh.Attribute(0, 2, 0), SphereMesh.Attribute(1, 2, 2)]
  const QuadStride: nat := 4

  /** Every quad vertex is a corner of [-1,1]^2 whose uv maps that square
      onto [0,1]^2; the two triangles share the diagonal from (-1,1) to
      (1,-1) and together use all four corners. */
  lemma QuadFillsScreen(i: nat)
    requires i < QuadVertexCount
    ensures |QuadVertices| == QuadVertexCount && QuadStride == 2 + 2
    ensures QuadLayout[1].offset == QuadLayout[0].offset + QuadLayout[0].components
    ensures QuadLayout[1].offset + QuadLayout[1].components == QuadStride
    ensures IsPlusMinus(QuadVertices[i].position.u, 1.0) && IsPlusMinus(QuadVertices[i].position.v, 1.0)
    ensures QuadVertices[i].uv == Vec2((QuadVertices[i].position.u + 1.0) / 2.0, (QuadVertices[i].position.v + 1.0) / 2.0)
    ensures QuadVertices[0] == QuadVertices[3] && QuadVertices[2] == QuadVertices[4]
    ensures {QuadVertices[0].position, QuadVertices[1].position, QuadVertices[2].position, QuadVertices[5].position}
         == {Vec2(-1.0, -1.0), Vec2(-1.0, 1.0), Vec2(1.0, -1.0), Vec2(1.0, 1.0)}
  {
    assert i in {0, 1, 2, 3, 4, 5};
  }

  /** `mSkyboxVertices`: 36 xyz vertices. */
  const SkyboxVertices: seq<Vec3> := [
    Vec3(-1.0, 1.0, -1.0),
    Vec3(-1.0, -1.0, -1.0),
    Vec3(1.0, -1.0, -1.0),
    Vec3(1.0, -1.0, -1.0),
    Vec3(1.0, 1.0, -1.0),
    Vec3(-1.0, 1.0, -1.0),

    Vec3(-1.0, -1.0, 1.0),
    Vec3(-1.0, -1.0, -1.0),
    Vec3(-1.0, 1.0, -1.0),
    Vec3(-1.0, 1.0, -1.0),
    Vec3(-1.0, 1.0, 1.0),
    Vec3(-1.0, -1.0, 1.0),

    Vec3(1.0, -1.0, -1.0),
    Vec3(1.0, -1.0, 1.0),
    Vec3(1.0, 1.0, 1.0),
    Vec3(1.0, 1.0, 1.0),
    Vec3(1.0, 1.0, -1.0),
    Vec3(1.0, -1.0, -1.0),

    Vec3(-1.0, -1.0, 1.0),
    Vec3(-1.0, 1.0, 1.0),
    Vec3(1.0, 1.0, 1.0),
    Vec3(1.0, 1.0, 1.0),
    Vec3(1.0, -1.0, 1.0),
    Vec3(-1.0, -1.0, 1.0),

    Vec3(-1.0, 1.0, -1.0),
    Vec3(1.0, 1.0, -1.0),
    Vec3(1.0, 1.0, 1.0),
    Vec3(1.0, 1.0, 1.0),
    Vec3(-1.0, 1.0, 1.0),
    Vec3(-1.0, 1.0, -1.0),

    Vec3(-1.0, -1.0, -1.0),
    Vec3(-1.0, -1.0, 1.0),
    Vec3(1.0, -1.0, -1.0),
    Vec3(1.0, -1.0, -1.0),
    Vec3(-1.0, -1.0, 1.0),
    Vec3(1.0, -1.0, 1.0)
  ]

  const SkyboxVertexCount: nat := 36

  /** The axis direction each six-vertex block of the skybox lies on:
      back, left, right, front, top, bottom. */
  const SkyboxFaceNormals: seq<Vec3> := [
    Vec3(0.0, 0.0, -1.0), Vec3(-1.0, 0.0, 0.0), Vec3(1.0, 0.0, 0.0),
    Vec3(0.0, 0.0, 1.0), Vec3(0.0, 1.0, 0.0), Vec3(0.0, -1.0, 0.0)]

  /** 108 floats, all +-1; each block of six vertices keeps one coordinate
      constant, so each block is one face of the [-1,1]^3 cube, and the six
      blocks are six different faces. */
  lemma SkyboxFaces(b: nat, v: nat, c: nat)
    requires b < 6 && v < 6 && c < 6
    ensures |SkyboxVertices| == SkyboxVertexCount
    ensures var p := SkyboxVertices[6 * b + v];
      IsPlusMinus(p.x, 1.0) && IsPlusMinus(p.y, 1.0) && IsPlusMinus(p.z, 1.0) &&
      IsAxisUnit(SkyboxFaceNormals[b]) && Along(p, SkyboxFaceNormals[b]) == 1.0
    ensures SkyboxFaceNormals[b] == SkyboxFaceNormals[c] <==> b == c
  {
    SkyboxCorner(6 * b + v);
    SkyboxOnFace(b, v);
    SkyboxNormalsDistinct(b, c);
  }

  lemma SkyboxNormalsDistinct(b: nat, c: nat)
    requires b < 6 && c < 6
    ensures SkyboxFaceNormals[b] == SkyboxFaceNormals[c] <==> b == c
  {
    assert b in {0, 1, 2, 3, 4, 5} && c in {0, 1, 2, 3, 4, 5};
  }

  lemma SkyboxCorner(i: nat)
    requires i < 36
    ensures IsPlusMinus(SkyboxVertices[i].x, 1.0) && IsPlusMinus(SkyboxVertices[i].y, 1.0) && IsPlusMinus(SkyboxVertices[i].z, 1.0)
  {
    assert IsRow(i);
  }

  lemma SkyboxOnFace(b: nat, v: nat)
    requires b < 6 && v < 6
    ensures IsAxisUnit(SkyboxFaceNormals[b]) && Along(SkyboxVertices[6 * b + v], SkyboxFaceNormals[b]) == 1.0
  {
    assert IsRow(6 * b + v);
  }
}

=== FILE: targets.dfy ===
/** The render targets the renderer allocates once, at construction: the
    G-buffer of the deferred path, the floating-point HDR target, the
    post-processing target, and the window's own framebuffer. Allocation and
    completeness checks are GL effects; what is modelled is the attachment
    layout each target ends up with. */
module Targets {
  import opened Common

  /** A framebuffer the renderer binds; `DefaultFramebuffer` is binding 0. */
  datatype Target = DefaultFramebuffer | PostTarget | HDRTarget | GBuffer

  datatype Format = RGBA16F | RGBA8 | RGB8 | Depth24Stencil8

  /** One attachment: a texture or renderbuffer of a format and a size. */
  datatype Surface = Surface(format: Format, width: int, height: int)

  /** Colour attachments in slot order, and the depth-stencil renderbuffer. */
  datatype Framebuffer = Framebuffer(colors: seq<Surface>, depthStencil: Surface)

  /** The G-buffer's colour slots: position, normal, diffuse colour, specular colour. */
  const GBufferSlotCount: nat := 4

  /** The attachments each target is built with for a window of the given size
      (`SetupForDeferredShading`, `SetupForHDR`, `SetupFBO`); the window's
      framebuffer is not the renderer's to lay out. */
  function Layout(t: Target, width: int, height: int): (fb: Option<Framebuffer>)
    ensures fb.None? <==> t == DefaultFramebuffer
    ensures t == GBuffer ==> |fb.value.colors| == GBufferSlotCount
    ensures t == HDRTarget || t == PostTarget ==> |fb.value.colors| == 1
  {
    var depth := Surface(Depth24Stencil8, width, height);
    match t
    case DefaultFramebuffer => None
    case GBuffer =>
      Some(Framebuffer([Surface(RGBA16F, width, height), Surface(RGBA16F, width, height),
                        Surface(RGBA8, width, height), Surface(RGBA8, width, height)], depth))
    case HDRTarget => Some(Framebuffer([Surface(RGBA16F, width, height)], depth))
    case PostTarget => Some(Framebuffer([Surface(RGB8, width, height)], depth))
  }

  /** Every attachment of a framebuffer has the given size. */
  predicate SizedTo(fb: Framebuffer, width: int, height: int) {
    fb.depthStencil.width == width && fb.depthStencil.height == height &&
    forall i :: 0 <= i < |fb.colors| ==> fb.colors[i].width == width && fb.colors[i].height == height
  }

  /** All attachments of a target share the construction size (there is no
      resize path), every target has a packed depth-stencil buffer, and the
      position and normal slots of the G-buffer are floating point while the
      colour slots are 8-bit. */
  lemma TargetsShareSize(t: Target, width: int, height: int)
    requires t != DefaultFramebuffer
    ensures SizedTo(Layout(t, width, height).value, width, height)
    ensures Layout(t, width, height).value.depthStencil.format == Depth24Stencil8
    ensures t == GBuffer ==>
      Layout(t, width, height).value.colors[0].format == RGBA16F &&
      Layout(t, width, height).value.colors[1].format == RGBA16F &&
      Layout(t, width, height).value.colors[2].format == RGBA8 &&
      Layout(t, width, height).value.colors[3].format == RGBA8
  {
  }

  /** A depth blit copies between depth buffers of identical format; the
      frame's blit from the G-buffer to the HDR target, over the full window,
      stays inside both. */
  predicate DepthBlitValid(source: Framebuffer, dest: Framebuffer, width: int, height: int) {
    source.depthStencil.format == dest.depthStencil.format &&
    0 <= width <= source.depthStencil.width && width <= dest.depthStencil.width &&
    0 <= height <= source.depthStencil.height && height <= dest.depthStencil.height
  }

  lemma GBufferDepthBlitsIntoHDR(width: nat, height: nat)
    ensures DepthBlitValid(Layout(GBuffer, width, height).value, Layout(HDRTarget, width, height).value, width, height)
  {
  }

  /** The sampler uniforms of the deferred lighting programs, in texture-unit
      order, as the constructor assigns them. */
  const LightingSamplers: seq<string> := ["gPosition", "gNormal", "gDiffuse", "gSpecular"]
  const LightingPBRSamplers: seq<string> := ["gPosition", "gNormal", "gAlbedo", "gRoughMetalAO"]
}
